=== FILE: README.md ===
# Car rental: a verified model of the rental engine and its admin tools

This project models the core of a car-rental system. The system has three parts:

- a Node/Express API, `server/index.js`;
- a PHP admin site, `car_rental/`;
- React components, `src/components/`.

The model is written in Dafny and proves properties of:

- **The rental transactions, in both stacks.**
  - Node: booking, return by the customer, deletion of a finished rental, admin return, and maintenance scheduling and completion.
  - PHP: the walk-in rental (`rent_car.php`) and the employee return (`return_rental.php`).
- **The pricing rules.** These are the server's booking total, the browser's estimate, the PHP return total and late fee, the early-return fee and the active-rental estimate.
- **The date-overlap availability filter.**
- **The PHP admin tools:**
  - record validation (`validate_data`), registration and profile update;
  - table routing, the live-search query and its pagination;
  - the INSERT/UPDATE builders and the add/edit form;
  - the column-name formatter and the calendar's month navigation.
- **The small React state functions:**
  - the phone/state/ZIP formatters and validators;
  - the rental wizard's steps and the add-on toggle;
  - card-brand detection and masking;
  - the customer search, the sort toggles and the optimistic favourite toggle;
  - blog slugs, category and publish toggles;
  - the add/edit payload builders.

## How it is modelled

**The database** (`Store`) is an immutable `Db` value.

- It holds maps for cars, customers, rentals, payments, maintenance and add-ons, a list of rental add-on rows, and one auto-increment counter per table.
- Each handler builds the ordered list of statements it would send (`Write`).
- `Store.Exec` runs the list as one transaction. An insert is refused on a duplicate key, or when a row it references is missing. UPDATEs of a missing row change nothing.
- `fault: Option<nat>` names the statement at which the database raises an error. Any failure gives back the original `Db`, which is how a rollback is modelled.
- Replies are `Response(db, Ok(v) | Err(rejection))`.

**Principals** are explicit parameters.

- The Node middleware is `Token = NoToken | BadToken | Valid(userId)`. The role carried by a token is never checked, so it is not modelled.
- The PHP session is `PhpSession.Session(role, customerId)`.

**Dates, clocks and money**

- Dates are integer day numbers.
- The PHP return reads a `Clock(day, second)`, because `DateTime::diff` depends on the time of day.
- Money is exact `real`.

**Abstract parameters**

- PHP's email filter and `password_hash` are function parameters.
- The date parser used by `new DateTime` is also a function parameter.

**Source quirks modelled as the code behaves**

- PHP's `empty` is true for `"0"`.
- The `$` in `/^\d{10}$/` also matches before a final newline.
- JavaScript's `!!` on ids treats `0` as absent.
- JavaScript string `<` is modelled as lexicographic order.
- `Array.prototype.sort` is modelled as a stable insertion sort.

## Model

| member | source | states |
|---|---|---|
| Store.ExecFault | server/index.js:668-683 | A statement list either fails at the faulting statement, or runs exactly as it would with no fault. |
| Store.ExecAppend | server/index.js:668-679 | Running two statement lists in one transaction is running the first, then the second on its result. |
| Store.Commit | car_rental/actions/rent_car.php:16-29 | A transaction's reply is Ok exactly when every statement applies. A failed one replies RolledBack with the database unchanged. |
| Store.AddonsOtherThan | server/index.js:750 | Deleting a rental's add-on rows keeps exactly the rows of other rentals. |
| Store.PaymentsOtherThan | server/index.js:751 | Deleting a rental's payments keeps exactly the other payments, unchanged. |
| Store.WithCarStatus | server/index.js:677 | A status update changes only the named car's status; the key set is unchanged. |
| Store.WithContact | car_rental/actions/update_profile.php:34-43 | The profile update changes only the contact columns of the named customer. |
| NodeRentals.Authenticate | server/index.js:175-191 | A missing token is refused as unauthenticated and a bad one as forbidden; only a valid token yields a user id. |
| NodeRentals.AddonRows | server/index.js:671-674 | One RentalAddons row per listed id, in order, all naming the new rental. |
| NodeRentals.BookingWritesRun | server/index.js:668-679 | The booking statements commit exactly when the car, customer and every add-on id exist and the keys are free. They then add one rental with the total and no return date, its add-on rows, and one payment of the total dated at pickup, and flip the car to Rented. Nothing else changes. |
| NodeRentals.CreateRental | server/index.js:648-687 | A booking succeeds exactly for a valid token when the writes commit, returning the new rental id. An unknown car or any failed write rolls back. |
| NodeRentals.BookingIgnoresCarStatus | server/index.js:657-677 | The outcome of a booking does not depend on the car's current status. |
| NodeRentals.EarlyReturnFee | server/index.js:709-713 | The fee is 25 exactly when today is before the due date, and 0 otherwise. |
| NodeRentals.CustomerReturnWritesRun | server/index.js:708-719 | A customer return always commits. It records the early fee when charged, frees the rental's car and stamps today as the return date. |
| NodeRentals.ReturnByCustomer | server/index.js:690-726 | An unknown rental is NotFound and another customer's is Forbidden, both with no writes. Otherwise the return commits unless a statement fails, and reports the fee applied. |
| NodeRentals.ReturnTwiceOverwrites | server/index.js:699-719 | A returned rental can be returned again; the second call overwrites the return date. |
| NodeRentals.DeletionWritesRun | server/index.js:750-752 | Deletion removes the rental's add-on rows and payments before the rental row, and always commits. |
| NodeRentals.DeleteRentalRecord | server/index.js:729-769 | Only a finished rental owned by the caller is deleted. A missing or active rental is NotFound and another's is Forbidden. |
| NodeRentals.DeletionSparesOthers | server/index.js:737-752 | Every other rental survives a deletion unchanged. |
| NodeRentals.AdminReturn | server/index.js:1506-1527 | An admin return of a known rental frees its car and stamps today's return date; an unknown id rolls back. |
| NodeRentals.CostOrNull | server/index.js:1553-1560 | A zero or missing cost is stored as NULL; any other cost is kept. |
| NodeRentals.NotesOrNull | server/index.js:1553-1560 | Empty or missing notes are stored as NULL; other notes are kept. |
| NodeRentals.ScheduleWritesRun | server/index.js:1553-1571 | Scheduling commits exactly when the car exists and the key is free. It adds one open maintenance record and sets the car to Maintenance with the given mileage. |
| NodeRentals.ScheduleMaintenance | server/index.js:1553-1571 | Scheduling never looks at the car's status. On success the new record has no completion date and only that car changes. |
| NodeRentals.CompletionWritesRun | server/index.js:1573-1593 | Completing a known record stamps today's completion date and frees its car. |
| NodeRentals.CompleteMaintenance | server/index.js:1573-1593 | Completion succeeds exactly for a valid token and a known record; otherwise nothing changes. |
| PhpRentals.WalkInRental | car_rental/actions/rent_car.php:20-23 | A walk-in rental starts today, is active, and has no total or late fee. |
| PhpRentals.RentWritesRun | car_rental/actions/rent_car.php:20-27 | The two statements commit exactly when the car and customer exist. They insert one rental and flip that car to Rented. |
| PhpRentals.RentCar | car_rental/actions/rent_car.php:5-56 | A non-customer is redirected and a missing car or customer id is refused, with no writes. Success inserts one rental and rents the car; a failure rolls both back. |
| PhpRentals.RentCarIgnoresStatus | car_rental/actions/rent_car.php:20-27 | A Rented or Maintenance car is rented again exactly as an Available one. |
| PhpRentals.ReturnWritesRun | car_rental/actions/return_rental.php:50-62 | The return finalises the rental, frees the named car and inserts one payment, all or nothing. |
| PhpRentals.ReturnRental | car_rental/actions/return_rental.php:4-73 | The intended return, with the decimal calls corrected. A non-employee or a missing parameter changes nothing. An unknown rental rolls back. Success charges the computed total and fee and finalises the rental. |
| PhpRentals.ReturnPaymentAmount | car_rental/actions/return_rental.php:31-62 | In the intended return, exactly one payment is added, for the total plus the late fee. |
| PhpRentals.ReturnTwiceChargesTwice | car_rental/actions/return_rental.php:19-62 | In the intended return, returning a rental again succeeds and inserts a second payment for it. |
| PhpRentals.ReturnFreesNamedCar | car_rental/actions/return_rental.php:9-57 | In the intended return, the car freed is the one named in the request; the rental's own car, when different, is untouched. |
| PhpRentals.ReturnRentalAsWritten | car_rental/actions/return_rental.php:4-73 | As written, no request commits and the database is never changed. A known rental ends in an uncaught error. Before that, only the two UPDATEs can fail and roll back, and only when the pickup is not yet past. |
| PhpRentals.ReturnAsWrittenNeverPays | car_rental/actions/return_rental.php:43-64 | Whenever the intended return would commit, the script as written crashes instead. The payment the intended return records is never inserted. |
| Pricing.RentalDays | server/index.js:660 | At least one day; the plain difference when due is after pickup. |
| Pricing.SameDayCostsOneDay | server/index.js:660 | A same-day booking is charged one day. |
| Pricing.SumFirstOccurrencesIsSetSum | server/index.js:663-666 | Summing the first occurrence of each known id equals the sum over the set of ids. |
| Pricing.AddonTotalIsSetSum | server/index.js:663-666 | The add-on total is the price sum over the distinct known ids, as `IN (...)` matches them. |
| Pricing.AddonTotalOrderIndependent | server/index.js:663-666 | Lists of add-on ids with the same members cost the same, whatever the order or repeats. |
| Pricing.WholeDaysApart | car_rental/actions/return_rental.php:37 | The whole days between now and the pickup midnight, rounded down as `DateTime::diff` does. |
| Pricing.ReturnDays | car_rental/actions/return_rental.php:37-38 | At least one day. After the pickup day it is the number of days since pickup. Before the pickup day it counts the days up to it, because the date difference has no sign. |
| Pricing.ReturnTotal | car_rental/actions/return_rental.php:37-40 | The total is the daily rate times the days since pickup after the pickup day, and exactly one daily rate on the pickup day. Before the pickup day it is the rate times the whole days to the pickup midnight, at least one. A non-negative rate is always charged at least one day. |
| Pricing.LateFee | car_rental/actions/return_rental.php:43-47 | A quarter of the daily rate per day since pickup, once today is after pickup; otherwise zero. The due date is not read. |
| Pricing.LateFeeMonotone | car_rental/actions/return_rental.php:43-47 | A later return never lowers the late fee. |
| Pricing.EstimateVersusReturnTotal | server/index.js:849 | The active-rental estimate charges one day more than the PHP return total once pickup has passed, and the same on the pickup day. |
| RentalFlow.CalculateCost | src/components/RentalFlow.jsx:73-93 | The browser estimate is zero when a date or the car is missing, or when due is not after pickup. |
| RentalFlow.EstimateOfValidRange | src/components/RentalFlow.jsx:87-93 | For a valid range the estimate is days times rate plus the add-on prices. |
| RentalFlow.ClientZeroWhereServerChargesOneDay | src/components/RentalFlow.jsx:82-85 | Where the browser shows zero, the server charges one day plus the add-ons. |
| RentalFlow.NextStep | src/components/RentalFlow.jsx:123-206 | Step 1 moves on only with a positive total. Step 2 moves to step 3 exactly when Agree is pressed with the terms box ticked, the only case in which the button is enabled. Step 4 is reached only from step 3. |
| RentalFlow.LeavingDatesNeedsCost | src/components/RentalFlow.jsx:126 | Any run of presses that leaves step 1 passed through a press with a positive total. |
| RentalFlow.AddonsNeedAgreement | src/components/RentalFlow.jsx:128-206 | From the dates or agreement step, the add-ons or payment step is reached only through an Agree pressed with the terms box ticked. |
| RentalFlow.ToggleAddon | src/components/RentalFlow.jsx:225-230 | A toggle flips whether the add-on's id is selected and leaves every other add-on as it was. |
| RentalFlow.ToggleKeepsIdsUnique | src/components/RentalFlow.jsx:225-230 | Toggling never selects an id twice. |
| RentalFlow.ToggleTwice | src/components/RentalFlow.jsx:225-230 | Toggling twice restores the selection exactly when the add-on was absent, and restores its members in every case. |
| RentalFlow.AddonIds | src/components/RentalFlow.jsx:320-326 | The payload's add-on ids are the selected ids in selection order. |
| RentalFlow.ServerChargesEstimate | src/components/RentalFlow.jsx:320-326 | For a valid range and catalogue prices, the server total equals the browser estimate. |
| RentalFlow.ReceiptSplits | src/components/RentalFlow.jsx:472 | The receipt's car line is days times rate, and with the add-ons it adds up to the total. |
| RentalFlow.DetectCardType | src/components/RentalFlow.jsx:7-13 | Visa exactly when the number starts with 4. |
| RentalFlow.CardTypeByDigits | src/components/RentalFlow.jsx:7-13 | Each brand holds exactly when its prefix matches and no earlier brand's does. |
| RentalFlow.BrandFixedByPrefix | src/components/RentalFlow.jsx:7-13 | Once a prefix decides a brand, further digits do not change it. |
| RentalFlow.Mask | src/components/RentalFlow.jsx:297-301 | Twelve stars followed by a suffix of the number of at most four characters. |
| RentalFlow.MaskShowsLastFour | src/components/RentalFlow.jsx:297-301 | The mask ends with the number's last four characters. It has no brand, and masking again changes nothing. |
| Availability.IntersectBounds | server/index.js:1979-1983 | The three overlap tests are equivalent to one closed-interval intersection for well-formed ranges. |
| Availability.DatesClashIsOverlap | server/index.js:1979-1983 | A rental clashes with a query range exactly when its pickup is on or before the drop-off and its return on or after the pickup. |
| Availability.ReversedRangeStillClashes | server/index.js:1979-1983 | A reversed query range can still clash although no day intersects it. |
| Availability.ListedCars | server/index.js:1966-1990 | Only known cars pass the price and date conditions of the WHERE clause. |
| Availability.ListedCarsByOverlap | server/index.js:1966-1990 | With dates, a car passes the price and date conditions of the WHERE clause exactly when it is in the price band, Available, and no Reserved or Active rental of it with a return date overlaps. |
| Availability.UndatedIgnoresStatus | server/index.js:1966-1970 | Without dates, the price band alone decides the price and date conditions of the WHERE clause, whatever the car's status. |
| Availability.BookedRentalNeverBlocks | server/index.js:668-679 | A rental created by booking has no status, so it never blocks availability, even though its car is now Rented. |
| ServerRules.CanReview | server/index.js:882-886 | A customer may review a car exactly when they have any rental of it and no review yet. |
| ServerRules.BookingMakesReviewable | server/index.js:882-886 | After a booking commits, the customer may review that car unless they already did. |
| ServerRules.ParseStatus | server/index.js:1702-1707 | Exactly the three status names are accepted. |
| ServerRules.StatusNamesRoundTrip | server/index.js:1702-1707 | Every status's name parses back to it. |
| ServerRules.SetStatus | server/index.js:1702-1709 | An unknown status is refused. Otherwise the name is stored, and the read time is set exactly for "read". |
| ServerRules.ReadTimeFollowsLastChange | server/index.js:1709 | Two status changes leave the same state as the last one alone. |
| Validation.RequiredErrors | car_rental/actions/validate.php:9-19 | A column is reported required exactly when it is in the table, is not the skipped key, is posted, and is PHP-empty. |
| Validation.RuleErrors | car_rental/actions/validate.php:24-51 | The email, phone, year and plate errors each fire exactly under their own rule. |
| Validation.ErrorsEmpty | car_rental/actions/validate.php:5-66 | The error list is empty exactly when every rule passes. |
| Validation.ErrorsMembership | car_rental/actions/validate.php:5-66 | Each error is present exactly when the rule that produces it fires. |
| Validation.ValidateData | car_rental/actions/validate.php:3-67 | No errors exactly when every rule passes. |
| Validation.ValidateRequired | car_rental/actions/validate.php:9-19 | The required-field rule for each column of the table, with the key skipped only for new records. |
| Validation.ValidateRule | car_rental/actions/validate.php:24-51 | The email, phone, year and plate rules, each stated as an if-and-only-if on the input. |
| Validation.ValidateDates | car_rental/actions/validate.php:54-64 | For rentals with both dates, an order error exactly when return precedes pickup, and a format error exactly when one does not parse. |
| Validation.DateErrorCases | car_rental/actions/validate.php:54-64 | The date rule on its own: the same two if-and-only-ifs. |
| Validation.SameDayRentalValid | car_rental/actions/validate.php:58 | Equal pickup and return dates raise no date error. |
| Validation.KeyRequiredOnlyForExisting | car_rental/actions/validate.php:11-18 | An empty primary key is an error exactly when a record id is given. |
| Validation.OwnPlateNoClash | car_rental/actions/validate.php:39-51 | A car keeping its own unique plate is not flagged. The same plate on a new record is flagged unless PHP-empty. |
| Accounts.ReadFields | car_rental/actions/register_action.php:10-14 | Name, email and phone are trimmed; the password is taken as posted. |
| Accounts.NewCustomer | car_rental/actions/register_action.php:36-39 | The inserted row has the trimmed fields, the hashed password and no address. |
| Accounts.FirstFailure | car_rental/actions/register_action.php:17-33 | No failure exactly when every field is filled, the email is valid and not yet registered, and the password is at least 8 bytes long in UTF-8, as `strlen` counts. |
| Accounts.Register | car_rental/actions/register_action.php:5-39 | Registration inserts exactly one customer, the new id, exactly when all checks pass. Any refusal changes nothing. |
| Accounts.InsertCustomerRun | car_rental/actions/register_action.php:37-39 | The single insert adds the row under the next id unless the key is taken or the statement fails. |
| Accounts.RegisterRejections | car_rental/actions/register_action.php:17-33 | Each refusal is reported exactly when the earlier checks pass and its own check fails, in source order. |
| Accounts.RegisterTwiceRefused | car_rental/actions/register_action.php:29-33 | A second registration with the same email is refused as taken. |
| Accounts.BlankNameMissing | car_rental/actions/register_action.php:10-19 | An all-whitespace first name trims to empty and is reported missing. |
| Accounts.PasswordMeasuredInBytes | car_rental/actions/register_action.php:23-25 | A password of four two-byte characters passes the length check, although it is only four characters long. |
| Accounts.BlankPasswordAccepted | car_rental/actions/register_action.php:14-25 | Eight spaces are accepted as a password, because the password is not trimmed. |
| Accounts.ProfileErrors | car_rental/actions/update_profile.php:19-25 | "All fields are required" exactly when a field is PHP-empty, and the phone error exactly when it is not ten digits. |
| Accounts.TrimmedPhoneRule | car_rental/actions/update_profile.php:12-23 | After trimming, the phone rule is exactly ten ASCII digits. |
| Accounts.UpdateProfile | car_rental/actions/update_profile.php:5-50 | A non-POST or non-customer request is redirected unchanged, and any error saves nothing. Success writes the session customer's contact fields only. |
| Accounts.ProfileSaveIsOneUpdate | car_rental/actions/update_profile.php:34-43 | A saved profile is exactly the one UPDATE statement applied. |
| Accounts.ContactStatement | car_rental/actions/update_profile.php:34-43 | The UPDATE sets the five contact columns of that customer. |
| Accounts.ProfileKeepsIdentity | car_rental/actions/update_profile.php:34-43 | Name, email and password hash never change; other customers and other tables never change. |
| Accounts.ContactOnlyChange | car_rental/actions/update_profile.php:34-43 | The contact-only update leaves identities and other tables alone. |
| Accounts.EmptyPhoneTwoErrors | car_rental/actions/update_profile.php:20-30 | An empty phone yields both errors and no update. |
| Accounts.EmptyPhoneErrors | car_rental/actions/update_profile.php:20-25 | The two checks are independent: an empty phone fails both. |
| Schema.Lookup | car_rental/config.php:28-36 | A name resolves to the table carrying it, and only the seven table names resolve. |
| Schema.LookupName | car_rental/config.php:28-36 | Every table's name resolves back to it. |
| Schema.PrimaryKey | car_rental/config.php:28-36 | Every primary key ends in `_id`. |
| Schema.Columns | car_rental/config.php:28-36 | Every table has columns, and the first is its primary key. |
| Schema.KeyNotRepeated | car_rental/config.php:28-36 | The primary key appears nowhere else in the column list. |
| Schema.FormatColumnName | car_rental/config.php:54-56 | The same length and no underscores. Each word's first letter is capitalised, every underscore becomes a space, and the rest is kept. |
| Schema.ColumnsPlain | car_rental/config.php:28-36 | No column name contains a `?`, so the only placeholders in built SQL are the bound ones. |
| AdminPages.Index | car_rental/index.php:9-31 | Not logged in goes to login and a customer always sees Cars. An employee sees a known table, Reports or Calendar as asked, and Cars otherwise. |
| AdminPages.IndexShowsKnownTables | car_rental/index.php:21-31 | Employees and customers only ever get the table view of a known table. |
| AdminPages.OtherRolesGetTableViews | car_rental/index.php:21-31 | Any other logged-in role always gets a table view: of the requested table or special-page name when it is one, and of Cars otherwise. Reports and Calendar thus become table views named after no table. |
| AdminPages.SortColumn | car_rental/actions/live_search.php:38-40 | The sort column is the requested one when it is a column, otherwise the key. |
| AdminPages.SortColumnIdempotent | car_rental/actions/live_search.php:38-40 | Normalising a sort column twice is normalising it once. |
| AdminPages.DescendingIgnoresCase | car_rental/actions/live_search.php:41 | DESC in any case sorts descending, and nothing else does. |
| AdminPages.Offset | car_rental/actions/live_search.php:43-44 | The offset is non-negative exactly for pages from 1. |
| AdminPages.TotalPages | car_rental/actions/live_search.php:76 | No pages exactly when there are no rows. The pages hold every row and none is empty. |
| AdminPages.EveryRowOnSomePage | car_rental/actions/live_search.php:43-76 | Every row lies in the window of exactly one valid page. |
| AdminPages.LikeParams | car_rental/actions/live_search.php:52-57 | One `%term%` parameter per column. |
| AdminPages.LiveSearch | car_rental/actions/live_search.php:22-163 | An unknown table is an error. So is a page below 1, whose negative OFFSET the database refuses. Otherwise the query sorts by the requested column when it is a column of the table, and by the key otherwise. The offset is non-negative. A LIKE filter is added exactly when searching, and the Available filter exactly for a customer on Cars. |
| AdminPages.PlaceholdersMatchParams | car_rental/actions/live_search.php:47-74 | The WHERE clause has exactly as many `?` marks as bound parameters. |
| AdminPages.Pagination | car_rental/actions/live_search.php:139-143 | No links for one page or none. Otherwise one per page plus Previous and Next where they apply. |
| AdminPages.PaginationLinks | car_rental/actions/live_search.php:139-143 | Previous exactly when past page 1 and Next exactly before the last page, each pointing one page away. Every page is linked once, the current one active. |
| AdminPages.InputKindOf | car_rental/actions/get_form.php:54-63 | Date exactly for names containing "date". A decimal number for rate/cost/amount, otherwise. Never text for `year` or `_id` columns. |
| AdminPages.GetForm | car_rental/actions/get_form.php:4-37 | Non-employees are refused and unknown tables rejected. An employee naming a known table always gets a form. It is in Edit mode exactly when an id is given, with the matching action script and one field per column. |
| AdminPages.FormFields | car_rental/actions/get_form.php:46-79 | The key is hidden when adding and read-only when editing, and image_path is always an upload. Every other column gets its classified input and current value. |
| AdminPages.KeyListedOnce | car_rental/config.php:28-36 | The key column appears once in the form, as the first field. |
| AdminPages.MonthNavigation | car_rental/views/calendar_view.php:32-35 | Previous and next stay in 1..12, move exactly one month, and undo each other. |
| AdminPages.DayRentedSpan | car_rental/views/calendar_view.php:62-66 | Under the day-cell date test, a rental returned on its pickup day would mark exactly that day. A later return would mark every day an earlier one did. A car still out would be marked through today. |
| AdminPages.OnlyRentalsPickedUpThisMonth | car_rental/views/calendar_view.php:11-14 | A fetched rental whose dates cover a day was picked up that month, on or before that day. One carried over from the previous month is not fetched, though its dates cover the day. |
| RecordBuilders.NullIfEmpty | car_rental/actions/create_record.php:48 | An empty posted value becomes NULL; any other is kept. |
| RecordBuilders.WrittenColumns | car_rental/actions/create_record.php:43-50 | A column is written exactly when it is in the table, posted, and neither the key nor image_path. |
| RecordBuilders.WrittenInOrder | car_rental/actions/create_record.php:43-50 | Written columns keep the table's order. |
| RecordBuilders.InsertColumnsShape | car_rental/actions/create_record.php:43-57 | The INSERT fields are the written columns, plus image_path last exactly when an image was uploaded. |
| RecordBuilders.InsertValuesShape | car_rental/actions/create_record.php:43-57 | One value per field: the posted value or NULL, and the file name for the image. |
| RecordBuilders.UpdateColumnsShape | car_rental/actions/update_record.php:50-61 | The SET list is the written columns, with image_path first exactly when an image was uploaded. |
| RecordBuilders.UpdateValuesShape | car_rental/actions/update_record.php:50-64 | One value per SET clause, then the key value last. |
| RecordBuilders.InsertPlaceholders | car_rental/actions/create_record.php:43-61 | The INSERT has as many `?` marks as values and fields. |
| RecordBuilders.UpdatePlaceholders | car_rental/actions/update_record.php:46-66 | The UPDATE has as many `?` marks as values, one more than the SET clauses. |
| RecordBuilders.UpdateMirrorsInsert | car_rental/actions/update_record.php:50-62 | UPDATE sets the INSERT's fields with the image moved to the front, and binds the key last. |
| RecordBuilders.UpdateSetsInsertColumns | car_rental/actions/update_record.php:50-61 | UPDATE and INSERT touch the same columns. |
| RecordBuilders.CreateRecord | car_rental/actions/create_record.php:5-61 | A non-employee or non-POST request is redirected, an unknown table refused, and a failed upload reported. Validation errors are returned. Otherwise the INSERT is prepared exactly when every rule passes. |
| RecordBuilders.UpdateRecord | car_rental/actions/update_record.php:5-66 | As for create. A missing or PHP-empty key stops the script. A key that PHP cannot pass as `int $recordId` is a type error. Otherwise the rules are checked against the record whose id the key converts to. |
| Basics.PhpIntString | car_rental/actions/validate.php:3 | A plain digit string converts to its own value, as a row id would. |
| Basics.PhpIntStringBlanks | car_rental/actions/validate.php:3 | Blanks before or after the key change neither the value nor the verdict. |
| Basics.PhpIntStringSigned | car_rental/actions/validate.php:3 | A leading `-` or `+` on a digit run gives the signed value. |
| Basics.PhpIntStringNoLetters | car_rental/actions/validate.php:3 | A string with any letter in it is refused. |
| Basics.Utf8LengthAscii | car_rental/actions/register_action.php:23 | The byte length equals the character count exactly when every character is ASCII. |
| RecordBuilders.TableInsertBindsEveryMark | car_rental/actions/create_record.php:38-61 | For every real table, the INSERT binds every `?` it contains. |
| RecordBuilders.TableUpdateBindsEveryMark | car_rental/actions/update_record.php:14-66 | For every real table, the UPDATE binds every `?` it contains. |
| RecordBuilders.InsertKeepsTableOrder | car_rental/actions/create_record.php:43-57 | INSERT fields follow the table's column order and never include the key. |
| ContactForm.Groups | src/components/CustomerProfile.jsx:182 | Up to ten digits split 3-3-4 into consecutive groups that concatenate back to the input. |
| ContactForm.PhoneGrouping | src/components/CustomerProfile.jsx:180-185 | Up to three digits stay as typed, and longer runs up to ten get dashes between groups. More than ten keeps the raw input. |
| ContactForm.PhoneKeepsDigits | src/components/CustomerProfile.jsx:180-185 | Formatting keeps the digits, in order. |
| ContactForm.PhoneIdempotent | src/components/CustomerProfile.jsx:180-185 | Formatting a formatted phone changes nothing. |
| ContactForm.TenDigitsMatchPattern | src/components/CustomerProfile.jsx:163-185 | Ten typed digits always format to `ddd-ddd-dddd`. |
| ContactForm.PatternHasTenDigits | src/components/CustomerProfile.jsx:163 | A phone matching the pattern has exactly ten digits. |
| ContactForm.FormatState | src/components/CustomerProfile.jsx:186-187 | At most two upper-case letters. |
| ContactForm.FormatZip | src/components/CustomerProfile.jsx:188-189 | At most five digits. |
| ContactForm.FormatInput | src/components/CustomerProfile.jsx:176-192 | Fields other than phone, state and ZIP are kept as typed. |
| ContactForm.StateZipIdempotent | src/components/CustomerProfile.jsx:186-189 | The state and ZIP formatters are idempotent. |
| ContactForm.ContactErrors | src/components/CustomerProfile.jsx:161-171 | Each field is flagged exactly when it is non-empty and does not match its pattern. |
| ContactForm.Validate | src/components/CustomerProfile.jsx:161-174 | Valid exactly when each field is empty or matches. |
| ContactForm.EmptyFieldsPass | src/components/CustomerProfile.jsx:161-174 | Empty fields are never flagged. |
| ContactForm.FormattedFailsIffIncomplete | src/components/admin/CustomerManager.jsx:362-397 | After formatting, a field fails only when partly typed: a phone with some but not ten digits, one state letter, or a short ZIP. |
| ClientLists.FilterCustomersKeeps | src/components/admin/CustomerManager.jsx:180-185 | The filter keeps exactly the customers whose lower-cased summary contains the lower-cased term, as a subsequence. |
| ClientLists.EmptySearchKeepsAll | src/components/admin/CustomerManager.jsx:180-185 | An empty term keeps the whole list. |
| ClientLists.ProcessedCustomers | src/components/admin/CustomerManager.jsx:178-202 | The list is a permutation of the filtered customers, ordered by the lower-cased column in the chosen direction. |
| ClientLists.SaveCustomer | src/components/admin/CustomerManager.jsx:99-133 | A PUT exactly when editing a customer with a nonzero id, a POST to register otherwise. Only the POST carries the password. |
| ClientLists.SaveTargetsEditedCustomer | src/components/admin/CustomerManager.jsx:117-118 | The PUT goes to the admin URL of that customer's id. |
| ClientLists.InitialForm | src/components/admin/CustomerManager.jsx:345-355 | The form starts from the customer's fields, and the password always starts empty. |
| ClientLists.SubmitCustomer | src/components/admin/CustomerManager.jsx:407-414 | Saving happens exactly when the form validates, as an edit exactly for a customer with a nonzero id. |
| ClientLists.UntouchedEditSendsCustomer | src/components/admin/CustomerManager.jsx:345-414 | Opening a customer and saving sends their own details to their own URL. |
| ClientLists.HistorySorted | src/components/CustomerProfile.jsx:557-570 | The history is a permutation in the chosen order, and unsorted without a key. |
| ClientLists.PromptFor | src/components/CustomerProfile.jsx:252-271 | No prompt without an active rental; the early-return warning exactly when today is before due. |
| ClientLists.WarningMatchesFee | src/components/CustomerProfile.jsx:252-269 | The warning appears exactly when the server would charge the early fee. |
| ClientLists.SortCarsOrders | src/components/CustomerCarSearch.jsx:77-82 | Ascending or descending by rate, or server order for Featured; always a permutation. |
| ClientLists.SetFavorite | src/components/CustomerCarSearch.jsx:89-92 | Only cars with the matching id get the new flag. |
| ClientLists.ToggleFavorite | src/components/CustomerCarSearch.jsx:84-122 | Without a token nothing changes and nothing is sent. With one, the call is made. |
| ClientLists.ToggleFlipsOneCar | src/components/CustomerCarSearch.jsx:87-110 | A successful toggle flips that car's flag and no other. It sends DELETE for a favourite and POST with a body otherwise. |
| ClientLists.FailedToggleRollsBack | src/components/CustomerCarSearch.jsx:114-121 | A failed request restores the list. |
| ClientLists.ToggleTwiceRestores | src/components/CustomerCarSearch.jsx:87-110 | Two successful toggles restore the list. |
| Sorting.LexLessTransitive | src/components/CustomerProfile.jsx:564-565 | String order is transitive. |
| Sorting.LexLessTotal | src/components/CustomerProfile.jsx:564-565 | Distinct strings are always ordered one way. |
| Sorting.SortBySorted | src/components/CustomerProfile.jsx:557-570 | The sort returns a sorted permutation of its input. |
| Sorting.ComparatorIsStrictOrder | src/components/admin/CustomerManager.jsx:189-197 | The comparator in either direction is a strict order. |
| Sorting.SortedByKey | src/components/admin/CustomerManager.jsx:188-198 | A sorted permutation by key, in the chosen direction. |
| Sorting.RequestSort | src/components/CustomerProfile.jsx:572-578 | The key becomes the clicked one. Descending exactly when it was already that key ascending. |
| Sorting.RequestSortAlternates | src/components/admin/CustomerManager.jsx:205-216 | Repeated clicks on one key alternate the direction, starting ascending. |
| Blog.SlugShape | src/components/admin/BlogManager.jsx:128 | A slug holds only `a-z`, `0-9` and `-`, with no dash at either end and never two in a row. |
| Blog.SlugIdempotent | src/components/admin/BlogManager.jsx:128 | The slug of a slug is itself. |
| Blog.SlugKeepsAlphanumerics | src/components/admin/BlogManager.jsx:128 | The slug keeps every lower-case letter and digit of the lower-cased title, in order. |
| Blog.HandleChange | src/components/admin/BlogManager.jsx:122-131 | Typing a title for a new post sets the slug from it; editing a post never touches the slug but through its own field. |
| Blog.EditingKeepsSlug | src/components/admin/BlogManager.jsx:122-131 | Any edits to an existing post other than the slug keep the slug. |
| Blog.CreatingSlugFollowsTitle | src/components/admin/BlogManager.jsx:122-131 | For a new post whose last edit was the title, the slug is that title's slug. |
| Blog.ToggleCategory | src/components/admin/BlogManager.jsx:133-140 | Toggling flips one id's membership and leaves the others. |
| Blog.ToggleCategoryTwice | src/components/admin/BlogManager.jsx:133-140 | Toggling keeps ids distinct. Twice restores the list for an absent id, and its members always. |
| Blog.TogglePublish | src/components/admin/BlogManager.jsx:331 | Published becomes draft; anything else becomes published. |
| Blog.TogglePublishTwice | src/components/admin/BlogManager.jsx:331 | Toggling twice restores a draft or published status. |
| Blog.SavePost | src/components/admin/BlogManager.jsx:174-182 | A PUT exactly when editing, a POST otherwise, with the form as body. |
| Blog.SaveTargetsPost | src/components/admin/BlogManager.jsx:179 | The PUT goes to that post's URL. |
| Blog.StoredSlug | server/index.js:1335 | The server keeps a given slug and generates a well-formed one from the title otherwise. |
| Blog.CreatedPublishedAt | server/index.js:1342 | A publication time is set on create exactly for a published post. |
| Blog.UpdatedPublishedAt | server/index.js:1388-1391 | An update never changes an existing publication time. |
| Blog.ToggledPublishedAt | server/index.js:1454-1459 | The publish toggle keeps an existing time and always sets one when publishing. |
| Blog.PublicationRoutesAgree | server/index.js:1388-1391 | The two routes differ exactly when publishing a never-published post whose stored status is not draft. |
| EmployeeForm.InitialForm | src/components/admin/EmployeeFormModal.jsx:17-24 | The form copies the employee's fields, or is empty when adding. The password starts empty. |
| EmployeeForm.PayloadOf | src/components/admin/EmployeeFormModal.jsx:48-56 | The password is dropped exactly when editing with an empty password; all else is copied. |
| EmployeeForm.SaveRequest | src/components/admin/EmployeeFormModal.jsx:61-64 | A PUT exactly when editing, a POST otherwise. |
| EmployeeForm.UntouchedEditSendsEmployee | src/components/admin/EmployeeFormModal.jsx:17-64 | Opening and saving an employee sends their details to their own URL and leaves the password alone. |
| EmployeeForm.PasswordSentWhen | src/components/admin/EmployeeFormModal.jsx:48-56 | A password is sent exactly when adding or when one was typed. |

## Left out

- **Transport and sessions.** HTTP routing, status codes, redirects, session storage and flash messages are left out. Replies are result tags, and the principal is a parameter.
- **Cryptography and login.** JWT issuance and verification, bcrypt, `password_hash` and login are left out. A token is `NoToken`, `BadToken` or `Valid(id)`, and the hash is a function parameter.
- **Foreign code.**
  - PHP's email filter and `new DateTime` parsing are function parameters.
  - `is_numeric` is modelled over ASCII digit strings.
  - SQL `LIKE` is modelled as a substring test.
  - SQL collation and case-insensitive comparison are not modelled.
- **Database errors.** PDO and mysql2 exceptions are one fault index per transaction. Driver messages are not modelled. Failed read queries are not modelled either, such as the SELECT in get_form.php that answers 500 when it throws.
- **Money.** Money is exact `real`. JavaScript's floating-point sums, `parseFloat` on DECIMAL strings, and `toFixed` display are left out.
- **Time.** Clocks are parameters: whole days, plus the second of the day where the PHP return needs it. Time zones and locale formatting are left out.
- **Side effects.**
  - The audit log, e-mail and the upload move are left out. The upload is an outcome parameter: none, moved, or failed.
  - `uniqid` file names are taken as given.
- **The calendar grid.** Only the month arithmetic and the per-day rental predicate are modelled. The `FETCH_GROUP` grid rendering and `cal_days_in_month` are left out.
- AdminPages.DayRentedSpan: as written, the calendar page marks no cell. `PDO::FETCH_GROUP` keys the rows by car id and drops that column, so the `car_id` comparison at calendar_view.php line 62 never holds. This lemma and AdminPages.OnlyRentalsPickedUpThisMonth state the date test at lines 63-66 as it would apply to a matched row.
- **Read-only and rendering pages.** These are the other PHP pages, CSV export, the reports, the EJS routes, and the blog and metrics SQL.
- **Browser-only state.** Clearing error messages while typing, loading flags and modal visibility are left out.
- **Other routes.** The payment-method and favourites server routes are left out, as is the single-row `delete_record.php`. The browser's favourite request is modelled; the server's handling of it is not.
- **Concurrency.** Transactions run one at a time.
- ClientLists.FilterCustomersKeeps: `toLowerCase` is modelled for ASCII letters only; other characters are compared as they are.
- Sorting.SortBySorted: `Array.prototype.sort` is modelled as a stable insertion sort. The proofs assume a comparator that is a strict order, so comparisons involving NaN rates are not covered.
- RentalFlow.ToggleTwice: toggling a selected add-on twice moves it to the end, so only the members are restored in that case, not the order.
- Blog.ToggleCategoryTwice: the same holds for a category id that was already selected.
- Blog.SlugShape: `toLowerCase` is modelled for ASCII letters only. A character whose full lower case is ASCII, such as the Kelvin sign U+212A (lower case `k`), becomes a dash in the model but survives in the component.
- RecordBuilders.UpdateRecord: only integer-shaped keys convert, meaning blanks around an optionally signed digit run. PHP 8 also converts float-shaped strings such as `1e2` or `12.0`, and leading-numeric strings such as `12abc` with a warning. The model refuses all of these with `KeyNotInteger`. It also does not bound the key to PHP's 64-bit integer range.
- PhpRentals.RentCar: `car_id` names a row only when it is a plain ASCII digit string. Any other string rolls back. MySQL's own conversion of strings bound to integer columns, such as blanks or a sign, is not modelled.
- PhpRentals.ReturnRental: the same holds for `rental_id` and `car_id`. This member is the intended return; the script as written never commits (see Findings).
- AdminPages.LiveSearch: the page parameter is taken after PHP's `(int)` cast, which reads a missing number or junk as 0 and so leads to the refused-offset error. The cast itself is not modelled. Neither is the COUNT query, which runs before the page query fails.
- Availability.ListedCarsByOverlap: stated for rentals whose pickup is not after their return. Inverted rows follow the literal three-way test, which is left unsummarised. The lemma covers only the price and date conditions of the `/cars` WHERE clause. It leaves out the other parts of that page, an EJS route: the search, type and location conditions; the inner join on Car_Types, which drops a car with no type row; the nine-per-page limit and offset; and the sort order. A `maxPrice` that parses to 0 becomes 999999 upstream, and the model takes the bounds after that.
- Availability.UndatedIgnoresStatus: the same limits apply. Without dates, the search, type and location conditions, the Car_Types join and the page limit still decide whether the page shows a car. The lemma says only that status plays no part in the price and date conditions.

## Findings

| source | as written | input that shows it | evidently intended | confidence | as-written member | corrected member |
|---|---|---|---|---|---|---|
| car_rental/actions/return_rental.php:46-62 | The payment amount calls `plus`, which `\Decimal\Decimal` does not define. The late fee passes the float 0.25 to `mul`, which takes only a Decimal, an int or a string. Either raises a PHP `Error`, which `catch (Exception $e)` does not catch. The script dies before `commit`, and the open transaction is discarded. | An employee requests `rental_id=1&car_id=1` for an existing rental of an existing car, with no database failure. | Add with `add` and multiply by `'0.25'`. Then the three writes commit: the rental finalised, the car Available, and one payment of total plus late fee. | not executed | PhpRentals.ReturnRentalAsWritten, PhpRentals.ReturnAsWrittenNeverPays | PhpRentals.ReturnRental, PhpRentals.ReturnPaymentAmount |

=== FILE: accounts.dfy ===
/** The PHP admin's customer-account scripts: self-registration, which
    checks the posted fields in a fixed order before a single insert, and
    the profile update, which collects its errors and then changes only the
    contact columns of the session's customer. */
module Accounts {
  import opened Basics
  import opened Store
  import opened PhpSession
  import Validation

  // ---------------------------------------------------------------------------
  // actions/register_action.php
  // ---------------------------------------------------------------------------

  /** The posted registration fields; an absent field reads as "". */
  datatype RegisterForm = RegisterForm(
    firstName: Option<string>,
    lastName: Option<string>,
    email: Option<string>,
    phone: Option<string>,
    password: Option<string>)

  /** Why a registration was sent back to the form, in the order checked. */
  datatype RegisterError =
    | NotPost               // any method but POST: back to the form, no message
    | AllFieldsRequired
    | InvalidEmailFormat
    | PasswordTooShort
    | EmailTaken
    | DatabaseError

  datatype Registration = Registration(db: Db, reply: Result<nat, RegisterError>)

  /** The fields as the script reads them: names, email and phone trimmed,
      the password taken verbatim. */
  datatype Fields = Fields(firstName: string, lastName: string, email: string, phone: string, password: string)

  function ReadFields(form: RegisterForm): (f: Fields)
    ensures f.password == form.password.GetOr("")
    ensures f.email == Trim(form.email.GetOr(""))
  {
    Fields(Trim(form.firstName.GetOr("")), Trim(form.lastName.GetOr("")), Trim(form.email.GetOr("")),
           Trim(form.phone.GetOr("")), form.password.GetOr(""))
  }

  predicate AllFilled(f: Fields) {
    !PhpEmpty(f.firstName) && !PhpEmpty(f.lastName) && !PhpEmpty(f.email) && !PhpEmpty(f.phone) && !PhpEmpty(f.password)
  }

  /** Some customer row already holds this email. */
  predicate EmailRegistered(db: Db, email: string) {
    exists k :: k in db.customers && db.customers[k].email == email
  }

  /** The row inserted for a new account: no address yet, and the password
      stored only through `hash` (standing for `password_hash`). */
  function NewCustomer(f: Fields, hash: string -> string): (c: Customer)
    ensures c.firstName == f.firstName && c.lastName == f.lastName && c.email == f.email && c.phone == f.phone
    ensures c.passwordHash == hash(f.password)
    ensures c.address.None? && c.city.None? && c.state.None? && c.zip.None?
  {
    Customer(f.firstName, f.lastName, f.email, f.phone, None, None, None, None, hash(f.password))
  }

  /** The first check the fields fail, if any. */
  function FirstFailure(db: Db, f: Fields, isEmail: string -> bool): (r: Option<RegisterError>)
    ensures r.None? <==> AllFilled(f) && isEmail(f.email) && Utf8Length(f.password) >= 8 && !EmailRegistered(db, f.email)
  {
    if !AllFilled(f) then Some(AllFieldsRequired)
    else if !isEmail(f.email) then Some(InvalidEmailFormat)
    else if Utf8Length(f.password) < 8 then Some(PasswordTooShort)
    else if EmailRegistered(db, f.email) then Some(EmailTaken)
    else None
  }

  /** Registers a customer; the reply is the new customer id. `isEmail`
      stands for PHP's email validation filter. */
  function Register(db: Db, isPost: bool, form: RegisterForm, isEmail: string -> bool, hash: string -> string,
                    fault: Option<nat>): (r: Registration)
    ensures r.reply.Err? ==> r.db == db
    ensures !isPost ==> r.reply == Err(NotPost)
    ensures var f := ReadFields(form);
      r.reply.Ok? <==>
        && isPost && AllFilled(f) && isEmail(f.email) && Utf8Length(f.password) >= 8 && !EmailRegistered(db, f.email)
        && db.nextCustomerId !in db.customers && !Hits(fault, 1)
    ensures r.reply.Ok? ==>
      && r.reply.value == db.nextCustomerId
      && r.db == db.(customers := db.customers[db.nextCustomerId := NewCustomer(ReadFields(form), hash)],
                     nextCustomerId := db.nextCustomerId + 1)
  {
    var f := ReadFields(form);
    if !isPost then Registration(db, Err(NotPost))
    else match FirstFailure(db, f, isEmail)
      case Some(e) => Registration(db, Err(e))
      case None =>
        var ws := [InsertCustomer(NewCustomer(f, hash))];
        InsertCustomerRun(db, NewCustomer(f, hash), fault);
        if Exec(db, ws, fault).None? then Registration(db, Err(DatabaseError))
        else Registration(Exec(db, ws, fault).value, Ok(db.nextCustomerId))
  }

  lemma InsertCustomerRun(db: Db, c: Customer, fault: Option<nat>)
    ensures Exec(db, [InsertCustomer(c)], fault) ==
      if Hits(fault, 1) || db.nextCustomerId in db.customers then None
      else Some(db.(customers := db.customers[db.nextCustomerId := c], nextCustomerId := db.nextCustomerId + 1))
  {
    ExecFault(db, [InsertCustomer(c)], fault);
    ExecOne(db, InsertCustomer(c));
  }

  /** The checks run in a fixed order and the first failing one decides the
      message: a missing field hides every other problem, and the email is
      looked up only for otherwise valid input. */
  lemma RegisterRejections(db: Db, isPost: bool, form: RegisterForm, isEmail: string -> bool, hash: string -> string,
                           fault: Option<nat>)
    ensures var f := ReadFields(form);
      var r := Register(db, isPost, form, isEmail, hash, fault);
      && (r.reply == Err(AllFieldsRequired) <==> isPost && !AllFilled(f))
      && (r.reply == Err(InvalidEmailFormat) <==> isPost && AllFilled(f) && !isEmail(f.email))
      && (r.reply == Err(PasswordTooShort) <==> isPost && AllFilled(f) && isEmail(f.email) && Utf8Length(f.password) < 8)
      && (r.reply == Err(EmailTaken) <==>
            isPost && AllFilled(f) && isEmail(f.email) && Utf8Length(f.password) >= 8 && EmailRegistered(db, f.email))
  {
  }

  /** Once an email is registered, registering it again is refused and
      changes nothing. */
  lemma RegisterTwiceRefused(db: Db, form: RegisterForm, other: RegisterForm, isEmail: string -> bool,
                             hash: string -> string)
    requires Register(db, true, form, isEmail, hash, None).reply.Ok?
    requires Trim(other.email.GetOr("")) == Trim(form.email.GetOr(""))
    requires AllFilled(ReadFields(other)) && Utf8Length(ReadFields(other).password) >= 8
    ensures var first := Register(db, true, form, isEmail, hash, None);
      Register(first.db, true, other, isEmail, hash, None) == Registration(first.db, Err(EmailTaken))
  {
    var first := Register(db, true, form, isEmail, hash, None);
    var f, g := ReadFields(form), ReadFields(other);
    assert g.email == f.email;
    assert first.db.customers[db.nextCustomerId] == NewCustomer(f, hash);
    assert EmailRegistered(first.db, g.email);
    RegisterRejections(first.db, true, other, isEmail, hash, None);
  }

  /** A name of blanks alone is a missing field. */
  lemma BlankNameMissing(db: Db, form: RegisterForm, isEmail: string -> bool, hash: string -> string, fault: Option<nat>)
    requires form.firstName.Some? && forall i :: 0 <= i < |form.firstName.value| ==> IsTrimmed(form.firstName.value[i])
    ensures Register(db, true, form, isEmail, hash, fault).reply == Err(AllFieldsRequired)
  {
    TrimAllBlank(form.firstName.value);
    RegisterRejections(db, true, form, isEmail, hash, fault);
  }

  /** The password alone is not trimmed: eight blanks are a valid password,
      and it is their hash that is stored. */
  lemma BlankPasswordAccepted(db: Db, form: RegisterForm, isEmail: string -> bool, hash: string -> string)
    requires form.password == Some("        ")
    requires var f := ReadFields(form);
      && !PhpEmpty(f.firstName) && !PhpEmpty(f.lastName) && !PhpEmpty(f.email) && !PhpEmpty(f.phone)
      && isEmail(f.email) && !EmailRegistered(db, f.email) && db.nextCustomerId !in db.customers
    ensures var r := Register(db, true, form, isEmail, hash, None);
      r.reply.Ok? && r.db.customers[db.nextCustomerId].passwordHash == hash("        ")
  {
  }

  /** The length rule counts bytes: four accented letters, two UTF-8 bytes
      each, make an acceptable password although they are four characters. */
  lemma PasswordMeasuredInBytes(db: Db, form: RegisterForm, isEmail: string -> bool, hash: string -> string)
    requires form.password == Some("\U{E9}\U{E9}\U{E9}\U{E9}")
    requires var f := ReadFields(form);
      && !PhpEmpty(f.firstName) && !PhpEmpty(f.lastName) && !PhpEmpty(f.email) && !PhpEmpty(f.phone)
      && isEmail(f.email) && !EmailRegistered(db, f.email) && db.nextCustomerId !in db.customers
    ensures |form.password.value| == 4
    ensures Register(db, true, form, isEmail, hash, None).reply.Ok?
  {
  }

  // ---------------------------------------------------------------------------
  // actions/update_profile.php
  // ---------------------------------------------------------------------------

  /** The posted contact fields; an absent field reads as "". */
  datatype ProfileForm = ProfileForm(
    phone: Option<string>,
    address: Option<string>,
    city: Option<string>,
    state: Option<string>,
    zip: Option<string>)

  datatype ProfileError = AllRequired | PhoneNotTenDigits

  function ProfileMessage(e: ProfileError): string {
    match e
    case AllRequired => "All fields are required."
    case PhoneNotTenDigits => "Phone number must be exactly 10 digits."
  }

  datatype ProfileOutcome =
    | LoginRedirect                        // not a POST, or not a customer session
    | Invalid(errors: seq<ProfileError>)   // stored in the session; nothing written
    | Saved
    | SaveFailed                           // the UPDATE threw

  datatype ProfileUpdate = ProfileUpdate(db: Db, outcome: ProfileOutcome)

  datatype Contact = Contact(phone: string, address: string, city: string, state: string, zip: string)

  function ReadContact(form: ProfileForm): Contact {
    Contact(Trim(form.phone.GetOr("")), Trim(form.address.GetOr("")), Trim(form.city.GetOr("")),
            Trim(form.state.GetOr("")), Trim(form.zip.GetOr("")))
  }

  /** The two independent checks, in order; an empty phone fails both. */
  function ProfileErrors(c: Contact): (errors: seq<ProfileError>)
    ensures AllRequired in errors <==>
      PhpEmpty(c.phone) || PhpEmpty(c.address) || PhpEmpty(c.city) || PhpEmpty(c.state) || PhpEmpty(c.zip)
    ensures PhoneNotTenDigits in errors <==> !Validation.TenDigits(c.phone)
    ensures |errors| <= 2
  {
    (if PhpEmpty(c.phone) || PhpEmpty(c.address) || PhpEmpty(c.city) || PhpEmpty(c.state) || PhpEmpty(c.zip)
     then [AllRequired] else [])
    + (if !Validation.TenDigits(c.phone) then [PhoneNotTenDigits] else [])
  }

  /** A trimmed phone passes the pattern exactly when it is ten digits. */
  lemma TrimmedPhoneRule(raw: string)
    ensures Validation.TenDigits(Trim(raw)) <==> |Trim(raw)| == 10 && AllDigits(Trim(raw))
  {
  }

  /** Updates the session customer's contact columns, and nothing else. A
      customer session without an id updates no row. */
  function UpdateProfile(db: Db, isPost: bool, session: Session, form: ProfileForm, fault: Option<nat>): (r: ProfileUpdate)
    ensures !isPost || !IsCustomer(session) ==> r == ProfileUpdate(db, LoginRedirect)
    ensures r.outcome != Saved ==> r.db == db
    ensures r.outcome.Invalid? <==> isPost && IsCustomer(session) && ProfileErrors(ReadContact(form)) != []
    ensures r.outcome.Invalid? ==> r.outcome.errors == ProfileErrors(ReadContact(form))
    ensures r.outcome == Saved <==> isPost && IsCustomer(session) && ProfileErrors(ReadContact(form)) == [] && !Hits(fault, 1)
    ensures r.outcome == Saved ==>
      var c := ReadContact(form);
      r.db == if session.customerId.None? then db
              else db.(customers := WithContact(db.customers, session.customerId.value,
                                                c.phone, c.address, c.city, c.state, c.zip))
  {
    if !isPost || !IsCustomer(session) then ProfileUpdate(db, LoginRedirect)
    else
      var c := ReadContact(form);
      var errors := ProfileErrors(c);
      if errors != [] then ProfileUpdate(db, Invalid(errors))
      else if Hits(fault, 1) then ProfileUpdate(db, SaveFailed)
      else match session.customerId
        case None => ProfileUpdate(db, Saved)
        case Some(id) => ProfileUpdate(db.(customers := WithContact(db.customers, id, c.phone, c.address, c.city, c.state, c.zip)), Saved)
  }

  /** The saved state is what the script's single UPDATE statement commits. */
  lemma ProfileSaveIsOneUpdate(db: Db, session: Session, form: ProfileForm, fault: Option<nat>)
    requires IsCustomer(session) && session.customerId.Some?
    ensures var c := ReadContact(form);
      var r := UpdateProfile(db, true, session, form, fault);
      r.outcome == Saved ==>
        Exec(db, [SetContact(session.customerId.value, c.phone, c.address, c.city, c.state, c.zip)], fault) == Some(r.db)
  {
    var r := UpdateProfile(db, true, session, form, fault);
    if r.outcome == Saved {
      ContactStatement(db, session.customerId.value, ReadContact(form), fault);
    }
  }

  lemma ContactStatement(db: Db, id: nat, c: Contact, fault: Option<nat>)
    requires !Hits(fault, 1)
    ensures Exec(db, [SetContact(id, c.phone, c.address, c.city, c.state, c.zip)], fault)
         == Some(db.(customers := WithContact(db.customers, id, c.phone, c.address, c.city, c.state, c.zip)))
  {
    var w := SetContact(id, c.phone, c.address, c.city, c.state, c.zip);
    ExecFault(db, [w], fault);
    ExecOne(db, w);
  }

  /** A profile update never touches a customer's name, email or password. */
  lemma ProfileKeepsIdentity(db: Db, isPost: bool, session: Session, form: ProfileForm, fault: Option<nat>, k: nat)
    requires k in db.customers
    ensures var after := UpdateProfile(db, isPost, session, form, fault).db;
      && k in after.customers
      && after.customers[k].firstName == db.customers[k].firstName
      && after.customers[k].lastName == db.customers[k].lastName
      && after.customers[k].email == db.customers[k].email
      && after.customers[k].passwordHash == db.customers[k].passwordHash
      && (session.customerId != Some(k) ==> after.customers[k] == db.customers[k])
      && after.(customers := db.customers) == db
  {
    var r := UpdateProfile(db, isPost, session, form, fault);
    ContactOnlyChange(db, r.db, session.customerId, ReadContact(form), k);
  }

  lemma ContactOnlyChange(db: Db, after: Db, id: Option<nat>, c: Contact, k: nat)
    requires k in db.customers
    requires after == db || (id.Some? && after == db.(customers := WithContact(db.customers, id.value,
                                                         c.phone, c.address, c.city, c.state, c.zip)))
    ensures && k in after.customers
      && after.customers[k].firstName == db.customers[k].firstName
      && after.customers[k].lastName == db.customers[k].lastName
      && after.customers[k].email == db.customers[k].email
      && after.customers[k].passwordHash == db.customers[k].passwordHash
      && (id != Some(k) ==> after.customers[k] == db.customers[k])
      && after.(customers := db.customers) == db
  {
  }

  /** An empty phone is reported twice: as a missing field and as a bad
      phone number. */
  lemma EmptyPhoneTwoErrors(db: Db, session: Session, form: ProfileForm, fault: Option<nat>)
    requires IsCustomer(session) && ReadContact(form).phone == ""
    ensures UpdateProfile(db, true, session, form, fault) == ProfileUpdate(db, Invalid([AllRequired, PhoneNotTenDigits]))
  {
    EmptyPhoneErrors(ReadContact(form));
  }

  lemma EmptyPhoneErrors(c: Contact)
    requires c.phone == ""
    ensures ProfileErrors(c) == [AllRequired, PhoneNotTenDigits]
  {
  }
}

=== FILE: admin_pages.dfy ===
/** The PHP admin's page plumbing: which view a session sees, the
    parameters of the live table search and its pagination, the add/edit
    form a table gets, and the calendar's month navigation. */
module AdminPages {
  import opened Basics
  import opened Schema

  // ---------------------------------------------------------------------------
  // index.php: table and view resolution
  // ---------------------------------------------------------------------------

  datatype View = ToLogin | ReportsView | CalendarView | TableView(table: string)

  predicate IsTableName(name: string) { Lookup(name).Some? }

  /** The table the page shows after its three corrections, for a logged-in role. */
  function CurrentTable(role: string, requested: Option<string>): string {
    var asked := requested.GetOr("Cars");
    var t1 := if role == "customer" && asked != "Cars" then "Cars" else asked;
    var t2 := if !IsTableName(t1) && t1 != "Reports" && t1 != "Calendar" then "Cars" else t1;
    if role == "customer" && (t2 == "Reports" || t2 == "Calendar") then "Cars" else t2
  }

  /** The page index.php renders for a session role and a `table` parameter. */
  function Index(role: Option<string>, requested: Option<string>): (v: View)
    ensures v == ToLogin <==> role.None?
    ensures role == Some("customer") ==> v == TableView("Cars")
    ensures v == ReportsView <==> role == Some("employee") && requested == Some("Reports")
    ensures v == CalendarView <==> role == Some("employee") && requested == Some("Calendar")
    ensures role == Some("employee") && requested.Some? && IsTableName(requested.value) ==> v == TableView(requested.value)
    ensures role == Some("employee") && requested.None? ==> v == TableView("Cars")
    ensures (&& role == Some("employee") && requested.Some? && !IsTableName(requested.value)
             && requested.value != "Reports" && requested.value != "Calendar") ==> v == TableView("Cars")
  {
    if role.None? then ToLogin
    else
      var t := CurrentTable(role.value, requested);
      if t == "Reports" && role.value == "employee" then ReportsView
      else if t == "Calendar" && role.value == "employee" then CalendarView
      else TableView(t)
  }

  /** Employees and customers only ever reach a table view of a catalogued
      table. */
  lemma IndexShowsKnownTables(role: Option<string>, requested: Option<string>)
    requires role == Some("employee") || role == Some("customer")
    ensures Index(role, requested).TableView? ==> IsTableName(Index(role, requested).table)
  {
    assert Lookup("Cars") == Some(Cars);
  }

  /** A `table` parameter naming a catalogued table or one of the two
      special pages. */
  predicate PageOrTable(requested: Option<string>) {
    requested.Some? && (IsTableName(requested.value) || requested.value == "Reports" || requested.value == "Calendar")
  }

  /** Any other logged-in role always gets a table view: of the requested
      table when it is catalogued, of a table named after the reports or
      calendar page when one of those is asked for, and of Cars otherwise. */
  lemma OtherRolesGetTableViews(role: Option<string>, requested: Option<string>)
    requires role.Some? && role.value != "employee" && role.value != "customer"
    ensures var v := Index(role, requested);
      && v.TableView?
      && (PageOrTable(requested) ==> v.table == requested.value)
      && (!PageOrTable(requested) ==> v.table == "Cars")
  {
  }

  // ---------------------------------------------------------------------------
  // actions/live_search.php: query parameters
  // ---------------------------------------------------------------------------

  const PageSize: nat := 15

  /** The sort column: the requested one when it is a column of the table,
      otherwise the primary key. */
  function SortColumn(cols: seq<string>, requested: string): (c: string)
    requires |cols| > 0
    ensures c in cols
    ensures c == requested || c == cols[0]
    ensures !PhpEmpty(requested) && requested in cols ==> c == requested
  {
    if PhpEmpty(requested) || requested !in cols then cols[0] else requested
  }

  /** A sort column already normalised is kept as it is. */
  lemma SortColumnIdempotent(t: Table, requested: string)
    ensures SortColumn(Columns(t), SortColumn(Columns(t), requested)) == SortColumn(Columns(t), requested)
  {
    var pk := Columns(t)[0];
    assert EndsWith(pk, "_id");
    assert |pk| >= 3;
  }

  /** The order parameter reads DESC, in any letter case. */
  predicate Descending(order: string) { Upper(order) == "DESC" }

  lemma DescendingIgnoresCase()
    ensures Descending("desc") && Descending("Desc") && Descending("DESC")
    ensures !Descending("descending") && !Descending("") && !Descending("ASC")
  {
    assert Upper("desc") == "DESC";
    assert Upper("Desc") == "DESC";
    assert Upper("DESC") == "DESC";
  }

  /** The row offset of a page: pages are consecutive windows of fifteen
      rows, the first page starting at row 0. */
  function Offset(page: int): (offset: int)
    ensures page >= 1 <==> offset >= 0
  {
    (page - 1) * PageSize
  }

  /** The number of pages: the row count over fifteen, rounded up. */
  function TotalPages(records: nat): (pages: nat)
    ensures pages == 0 <==> records == 0
    ensures records <= pages * PageSize
    ensures records > 0 ==> (pages - 1) * PageSize < records
  {
    (records + PageSize - 1) / PageSize
  }

  /** Every row falls on a page from 1 to the page count, at the offset
      that page's query starts from. */
  lemma EveryRowOnSomePage(records: nat, row: nat)
    requires row < records
    ensures var page := row / PageSize + 1;
      1 <= page <= TotalPages(records) && Offset(page) <= row < Offset(page) + PageSize
  {
    var page := row / PageSize + 1;
    assert (page - 1) * PageSize <= row;
    assert row < TotalPages(records) * PageSize;
  }

  /** One WHERE condition of the listing. */
  datatype Filter =
    | AnyColumnLike(columns: seq<string>)  // `(col1 LIKE ? OR col2 LIKE ? …)`
    | OnlyAvailable                        // `status = 'Available'`

  datatype Listing = Listing(
    table: Table,
    sortColumn: string,
    descending: bool,
    offset: int,
    filters: seq<Filter>,
    params: seq<string>)

  /** One `%term%` pattern per column. */
  function LikeParams(cols: seq<string>, term: string): (ps: seq<string>)
    ensures |ps| == |cols|
    ensures forall i :: 0 <= i < |ps| ==> ps[i] == "%" + term + "%"
  {
    seq(|cols|, _ => "%" + term + "%")
  }

  /** Why the search answers with an error (HTTP 500 and a JSON error
      body): an unknown table, or a page below 1, whose negative OFFSET
      the database refuses when the page query runs (prepares are not
      emulated, so the value reaches the server as bound). */
  datatype SearchError = InvalidTable | OffsetRefused

  /** The query live_search.php runs for its parameters (absent ones take
      their defaults: no table, no search, page 1, no sort, ASC, and the
      role `guest`). */
  function LiveSearch(tableParam: Option<string>, search: Option<string>, page: Option<int>, sort: Option<string>,
                      order: Option<string>, role: Option<string>): (r: Result<Listing, SearchError>)
    ensures r == Err(InvalidTable) <==> Lookup(tableParam.GetOr("")).None?
    ensures r == Err(OffsetRefused) <==> Lookup(tableParam.GetOr("")).Some? && page.GetOr(1) < 1
    ensures r.Ok? ==>
      var l := r.value;
      var cols := Columns(l.table);
      var searching := !PhpEmpty(search.GetOr(""));
      && Name(l.table) == tableParam.value
      && l.sortColumn == SortColumn(cols, sort.GetOr(""))
      && (sort.Some? && !PhpEmpty(sort.value) && sort.value in cols ==> l.sortColumn == sort.value)
      && l.descending == Descending(order.GetOr("ASC"))
      && l.offset == Offset(page.GetOr(1)) && l.offset >= 0
      && (AnyColumnLike(cols) in l.filters <==> searching)
      && (OnlyAvailable in l.filters <==> role == Some("customer") && l.table == Cars)
      && |l.params| == (if searching then |cols| else 0)
      && (forall p :: p in l.params ==> p == "%" + search.value + "%")
  {
    match Lookup(tableParam.GetOr(""))
    case None => Err(InvalidTable)
    case Some(t) =>
      if page.GetOr(1) < 1 then Err(OffsetRefused) else
      var cols := Columns(t);
      var term := search.GetOr("");
      var searching := !PhpEmpty(term);
      var filters := (if searching then [AnyColumnLike(cols)] else [])
                     + (if role.GetOr("guest") == "customer" && t == Cars then [OnlyAvailable] else []);
      Ok(Listing(t, SortColumn(cols, sort.GetOr("")), Descending(order.GetOr("ASC")), Offset(page.GetOr(1)),
                 filters, if searching then LikeParams(cols, term) else []))
  }

  /** The SQL text of one condition. */
  function FilterSql(f: Filter): string {
    match f
    case AnyColumnLike(cols) => "(" + Join(" OR ", Backticked(cols, " LIKE ?")) + ")"
    case OnlyAvailable => "`status` = 'Available'"
  }

  function FilterSqls(fs: seq<Filter>): (r: seq<string>)
    ensures |r| == |fs|
    ensures forall i :: 0 <= i < |fs| ==> r[i] == FilterSql(fs[i])
  {
    if fs == [] then [] else [FilterSql(fs[0])] + FilterSqls(fs[1..])
  }

  /** `FROM table [WHERE c1 AND c2]`, shared by the count and the page query. */
  function BaseSql(l: Listing): string {
    "FROM `" + Name(l.table) + "`" + if l.filters == [] then "" else " WHERE " + Join(" AND ", FilterSqls(l.filters))
  }

  /** The number of values the conditions bind: one per searched column. */
  function Marks(fs: seq<Filter>): nat {
    if fs == [] then 0 else (if fs[0].AnyColumnLike? then |fs[0].columns| else 0) + Marks(fs[1..])
  }

  predicate PlainColumns(fs: seq<Filter>) {
    forall i :: 0 <= i < |fs| && fs[i].AnyColumnLike? ==> forall c :: c in fs[i].columns ==> '?' !in c
  }

  lemma {:induction false} MarksAppend(a: seq<Filter>, b: seq<Filter>)
    ensures Marks(a + b) == Marks(a) + Marks(b)
    decreases |a|
  {
    if a == [] {
      assert a + b == b;
    } else {
      assert (a + b)[0] == a[0];
      assert (a + b)[1..] == a[1..] + b;
      MarksAppend(a[1..], b);
    }
  }

  lemma {:induction false} FilterSqlMarks(f: Filter)
    requires f.AnyColumnLike? ==> forall c :: c in f.columns ==> '?' !in c
    ensures Count(FilterSql(f), '?') == if f.AnyColumnLike? then |f.columns| else 0
  {
    match f
    case OnlyAvailable =>
      CountAbsent(FilterSql(f), '?');
    case AnyColumnLike(cols) =>
      var likes := Backticked(cols, " LIKE ?");
      LikeClausesMarks(cols);
      CountAbsent(" OR ", '?');
      CountJoin(" OR ", likes, '?');
      ParenthesisedMarks(Join(" OR ", likes));
  }

  /** One `?` per `` `col` LIKE ? `` clause. */
  lemma LikeClausesMarks(cols: seq<string>)
    requires forall c :: c in cols ==> '?' !in c
    ensures CountEach(Backticked(cols, " LIKE ?"), '?') == |cols|
  {
    LikeSuffixMark();
    BacktickedMarks(cols, " LIKE ?", '?');
  }

  lemma LikeSuffixMark()
    ensures Count(" LIKE ?", '?') == 1
  {
    CountAbsent(" LIKE ", '?');
    CountAppend(" LIKE ", "?", '?');
    assert " LIKE " + "?" == " LIKE ?";
  }

  /** Brackets add no `?`. */
  lemma ParenthesisedMarks(s: string)
    ensures Count("(" + s + ")", '?') == Count(s, '?')
  {
    CountAppend("(", s, '?');
    CountAppend("(" + s, ")", '?');
  }

  lemma {:induction false} FilterSqlsMarks(fs: seq<Filter>)
    requires PlainColumns(fs)
    ensures CountEach(FilterSqls(fs), '?') == Marks(fs)
    decreases |fs|
  {
    if fs != [] {
      FilterSqlMarks(fs[0]);
      assert FilterSqls(fs)[0] == FilterSql(fs[0]);
      assert FilterSqls(fs)[1..] == FilterSqls(fs[1..]);
      assert PlainColumns(fs[1..]) by {
        forall i | 0 <= i < |fs[1..]| && fs[1..][i].AnyColumnLike?
          ensures forall c :: c in fs[1..][i].columns ==> '?' !in c
        {
          assert fs[1..][i] == fs[i + 1];
        }
      }
      FilterSqlsMarks(fs[1..]);
    }
  }

  /** The base query carries exactly one `?` per value its conditions bind. */
  lemma {:induction false} BaseSqlMarks(l: Listing)
    requires PlainColumns(l.filters)
    ensures Count(BaseSql(l), '?') == Marks(l.filters)
  {
    var head := "FROM `" + Name(l.table) + "`";
    NamePlain(l.table);
    assert '?' !in "FROM `" && '?' !in "`";
    assert '?' !in head;
    CountAbsent(head, '?');
    if l.filters == [] {
      CountAppend(head, "", '?');
    } else {
      var parts := FilterSqls(l.filters);
      FilterSqlsMarks(l.filters);
      CountAbsent(" AND ", '?');
      CountJoin(" AND ", parts, '?');
      CountAbsent(" WHERE ", '?');
      CountAppend(" WHERE ", Join(" AND ", parts), '?');
      CountAppend(head, " WHERE " + Join(" AND ", parts), '?');
    }
  }

  /** The conditions live_search.php may add bind one value per column
      searched, and their columns carry no `?`. */
  lemma SearchFilterMarks(cols: seq<string>, searching: bool, customerCars: bool)
    requires forall c :: c in cols ==> '?' !in c
    ensures var fs := (if searching then [AnyColumnLike(cols)] else []) + (if customerCars then [OnlyAvailable] else []);
      && Marks(fs) == (if searching then |cols| else 0)
      && PlainColumns(fs)
  {
    var like: seq<Filter> := if searching then [AnyColumnLike(cols)] else [];
    var avail: seq<Filter> := if customerCars then [OnlyAvailable] else [];
    MarksAppend(like, avail);
    assert Marks(like) == (if searching then |cols| else 0) by {
      if searching {
        assert like[1..] == [];
      }
    }
    assert Marks(avail) == 0 by {
      if customerCars {
        assert avail[1..] == [];
      }
    }
  }

  /** The query text carries exactly one `?` per bound parameter, so the
      positional binding of the search patterns lines up. */
  lemma PlaceholdersMatchParams(tableParam: Option<string>, search: Option<string>, page: Option<int>,
                                sort: Option<string>, order: Option<string>, role: Option<string>)
    requires LiveSearch(tableParam, search, page, sort, order, role).Ok?
    ensures var l := LiveSearch(tableParam, search, page, sort, order, role).value;
      Count(BaseSql(l), '?') == |l.params|
  {
    var l := LiveSearch(tableParam, search, page, sort, order, role).value;
    var t := Lookup(tableParam.GetOr("")).value;
    var cols := Columns(t);
    var searching := !PhpEmpty(search.GetOr(""));
    var customerCars := role.GetOr("guest") == "customer" && t == Cars;
    assert l.table == t;
    assert l.filters == (if searching then [AnyColumnLike(cols)] else []) + (if customerCars then [OnlyAvailable] else []);
    ColumnsPlain(t);
    SearchFilterMarks(cols, searching, customerCars);
    BaseSqlMarks(l);
  }

  // ---------------------------------------------------------------------------
  // actions/live_search.php: pagination links
  // ---------------------------------------------------------------------------

  datatype PageLink = Previous(target: int) | Numbered(page: int, active: bool) | Next(target: int)

  function NumberedLinks(from: int, to: int, current: int): (r: seq<PageLink>)
    ensures |r| == if from <= to then to - from + 1 else 0
    ensures forall j :: 0 <= j < |r| ==> r[j] == Numbered(from + j, from + j == current)
    decreases if from <= to then to - from + 1 else 0
  {
    if from > to then [] else [Numbered(from, from == current)] + NumberedLinks(from + 1, to, current)
  }

  function Pagination(current: int, totalPages: nat): (r: seq<PageLink>)
    ensures totalPages <= 1 ==> r == []
    ensures totalPages > 1 ==>
      |r| == totalPages + (if current > 1 then 1 else 0) + (if current < totalPages then 1 else 0)
  {
    if totalPages <= 1 then []
    else
      (if current > 1 then [Previous(current - 1)] else [])
      + NumberedLinks(1, totalPages, current)
      + (if current < totalPages then [Next(current + 1)] else [])
  }

  /** Previous and Next appear exactly when there is a page to go to, every
      page from 1 to the count gets one link, and only the current page's
      link is marked active. */
  lemma PaginationLinks(current: int, totalPages: nat)
    requires totalPages > 1
    ensures var r := Pagination(current, totalPages);
      && ((exists i :: 0 <= i < |r| && r[i].Previous?) <==> current > 1)
      && ((exists i :: 0 <= i < |r| && r[i].Next?) <==> current < totalPages)
      && (forall i :: 0 <= i < |r| && r[i].Previous? ==> r[i].target == current - 1)
      && (forall i :: 0 <= i < |r| && r[i].Next? ==> r[i].target == current + 1)
      && (forall p, a :: Numbered(p, a) in r <==> 1 <= p <= totalPages && a == (p == current))
  {
    var r := Pagination(current, totalPages);
    var prev := if current > 1 then [Previous(current - 1)] else [];
    var nums := NumberedLinks(1, totalPages, current);
    var next := if current < totalPages then [Next(current + 1)] else [];
    assert r == prev + nums + next;
    if current > 1 {
      assert r[0].Previous?;
    }
    if current < totalPages {
      assert r[|r| - 1].Next?;
    }
    forall p, a ensures Numbered(p, a) in r <==> 1 <= p <= totalPages && a == (p == current) {
      if 1 <= p <= totalPages && a == (p == current) {
        assert nums[p - 1] == Numbered(p, a);
      }
    }
  }

  // ---------------------------------------------------------------------------
  // actions/get_form.php
  // ---------------------------------------------------------------------------

  datatype Mode = Add | Edit

  datatype InputKind = TextInput | DateInput | NumberInput(cents: bool)  // cents: `step="0.01"`

  datatype FormField =
    | HiddenKey(column: string)                                      // the key of a new record
    | ImageUpload(current: string)                                   // `image_path`: a file input
    | Input(column: string, kind: InputKind, value: string, readonly: bool)

  datatype FormPage = AccessDenied | UnknownTable | Form(mode: Mode, action: string, fields: seq<FormField>)

  /** The input type chosen from the column's name, tests in order. */
  function InputKindOf(column: string): (k: InputKind)
    ensures Contains(column, "date") ==> k == DateInput
    ensures k == DateInput ==> Contains(column, "date")
    ensures k == NumberInput(true) <==>
      !Contains(column, "date") && (Contains(column, "rate") || Contains(column, "cost") || Contains(column, "amount"))
    ensures k == TextInput ==> column != "year" && !Contains(column, "_id")
  {
    if Contains(column, "date") then DateInput
    else if Contains(column, "rate") || Contains(column, "cost") || Contains(column, "amount") then NumberInput(true)
    else if column == "year" || Contains(column, "_id") then NumberInput(false)
    else TextInput
  }

  /** The fetched value of a column, or empty when the row lacks it. */
  function ValueOf(record: map<string, string>, column: string): string {
    if column in record then record[column] else ""
  }

  function FieldFor(column: string, pk: string, mode: Mode, record: map<string, string>): FormField {
    if column == pk && mode == Add then HiddenKey(column)
    else if column == "image_path" then ImageUpload(ValueOf(record, column))
    else Input(column, InputKindOf(column), ValueOf(record, column), column == pk && mode == Edit)
  }

  /** The add/edit form for a table. `record` is the row fetched for the
      `id` parameter (empty when there is none or it was not found). */
  function GetForm(role: Option<string>, tableParam: Option<string>, idParam: Option<string>,
                   record: map<string, string>): (page: FormPage)
    ensures role != Some("employee") ==> page == AccessDenied
    ensures role == Some("employee") && Lookup(tableParam.GetOr("")).None? ==> page == UnknownTable
    ensures page.Form? <==> role == Some("employee") && Lookup(tableParam.GetOr("")).Some?
    ensures page.Form? ==>
      && (page.mode == Edit <==> Truthy(idParam))
      && (page.action == if page.mode == Add then "actions/create_record.php" else "actions/update_record.php")
      && |page.fields| == |Columns(Lookup(tableParam.value).value)|
  {
    if role != Some("employee") then AccessDenied
    else match Lookup(tableParam.GetOr(""))
      case None => UnknownTable
      case Some(t) =>
        var mode := if Truthy(idParam) then Edit else Add;
        var cols := Columns(t);
        Form(mode, if mode == Add then "actions/create_record.php" else "actions/update_record.php",
             seq(|cols|, i requires 0 <= i < |cols| => FieldFor(cols[i], cols[0], mode, record)))
  }

  /** Field by field: the key is hidden when adding and read-only when
      editing, `image_path` is always a file input, and every other column
      is an editable input of its name's type showing the fetched value. */
  lemma FormFields(tableParam: Option<string>, idParam: Option<string>, record: map<string, string>, i: int)
    requires GetForm(Some("employee"), tableParam, idParam, record).Form?
    requires 0 <= i < |GetForm(Some("employee"), tableParam, idParam, record).fields|
    ensures var page := GetForm(Some("employee"), tableParam, idParam, record);
      var cols := Columns(Lookup(tableParam.value).value);
      var f := page.fields[i];
      && (f.HiddenKey? <==> i == 0 && page.mode == Add)
      && (f.ImageUpload? <==> cols[i] == "image_path")
      && (f.Input? ==> f.column == cols[i] && f.kind == InputKindOf(cols[i]) && f.value == ValueOf(record, cols[i]))
      && (f.Input? ==> (f.readonly <==> i == 0))
  {
    var cols := Columns(Lookup(tableParam.value).value);
    assert cols[0] != "image_path" by {
      assert EndsWith(cols[0], "_id");
    }
    if i > 0 {
      assert cols[i] != cols[0] by {
        KeyListedOnce(Lookup(tableParam.value).value);
      }
    }
  }

  /** The primary key is listed once. */
  lemma KeyListedOnce(t: Table)
    ensures forall i :: 0 < i < |Columns(t)| ==> Columns(t)[i] != Columns(t)[0]
  {
    KeyNotRepeated(t);
    forall i | 0 < i < |Columns(t)| ensures Columns(t)[i] != Columns(t)[0] {
      assert Columns(t)[i] == OtherColumns(t)[i - 1];
    }
  }

  // ---------------------------------------------------------------------------
  // views/calendar_view.php
  // ---------------------------------------------------------------------------

  function PrevMonth(month: int, year: int): (r: (int, int)) {
    if month == 1 then (12, year - 1) else (month - 1, year)
  }

  function NextMonth(month: int, year: int): (r: (int, int)) {
    if month == 12 then (1, year + 1) else (month + 1, year)
  }

  /** Months counted from year 0. */
  function MonthIndex(month: int, year: int): int { year * 12 + month - 1 }

  /** For a real month the links move exactly one month back and forth,
      stay within 1..12, and undo each other. */
  lemma MonthNavigation(month: int, year: int)
    requires 1 <= month <= 12
    ensures var (pm, py) := PrevMonth(month, year);
      var (nm, ny) := NextMonth(month, year);
      && 1 <= pm <= 12 && 1 <= nm <= 12
      && MonthIndex(pm, py) == MonthIndex(month, year) - 1
      && MonthIndex(nm, ny) == MonthIndex(month, year) + 1
      && NextMonth(pm, py) == (month, year)
      && PrevMonth(nm, ny) == (month, year)
  {
  }

  /** A calendar date; dates compare like `DateTime` values at midnight. */
  datatype Date = Date(year: int, month: int, day: int)

  predicate DateLe(a: Date, b: Date) {
    a.year < b.year || (a.year == b.year && (a.month < b.month || (a.month == b.month && a.day <= b.day)))
  }

  /** The date test a rental row applies to a day's cell: from pickup
      through the return date, or through today while the car is still out.
      The page as written never reaches it, because `FETCH_GROUP` removes
      the `car_id` column the row is first matched on. */
  predicate DayRented(day: Date, pickup: Date, returnDate: Option<Date>, today: Date) {
    DateLe(pickup, day) && DateLe(day, returnDate.GetOr(today))
  }

  /** Under the date test, a rental returned on its pickup day covers
      exactly that day, a later return covers every day an earlier one did,
      and a car still out counts as if it came back today. */
  lemma DayRentedSpan(day: Date, pickup: Date, returnDate: Option<Date>, later: Date, today: Date)
    ensures DayRented(day, pickup, Some(pickup), today) <==> day == pickup
    ensures returnDate.Some? && DateLe(returnDate.value, later) && DayRented(day, pickup, returnDate, today) ==>
      DayRented(day, pickup, Some(later), today)
    ensures DayRented(day, pickup, None, today) <==> DayRented(day, pickup, Some(today), today)
  {
  }

  /** The calendar fetches the rentals picked up in the month shown. */
  predicate Fetched(pickup: Date, year: int, month: int) {
    pickup.year == year && pickup.month == month
  }

  /** Among the rows fetched, the date test holds for a day of the
      displayed month only for rentals picked up on or before it. A rental
      running over from the previous month passes the date test but is
      never fetched. */
  lemma OnlyRentalsPickedUpThisMonth(year: int, month: int, i: int, pickup: Date, returnDate: Option<Date>, today: Date)
    requires Fetched(pickup, year, month) && DayRented(Date(year, month, i), pickup, returnDate, today)
    ensures pickup.day <= i
    ensures var carried := Date(year, month - 1, 28);
      month > 1 && i >= 1 ==>
        !Fetched(carried, year, month) && DayRented(Date(year, month, i), carried, Some(Date(year, month, i)), today)
  {
  }
}

=== FILE: availability.dfy ===
/** The date filter of the public car listing: a car is offered for a
    requested range only when it is Available and no reserved or active
    rental of it overlaps the range. */
module Availability {
  import opened Basics
  import opened Store
  import NodeRentals

  /** The three disjuncts of the exclusion subquery, on closed day ranges.
      A NULL return date makes each comparison unknown, so such a rental
      never matches. */
  predicate DatesClash(r: Rental, pickup: int, dropoff: int) {
    r.returnDate.Some? &&
    var back := r.returnDate.value;
    || (r.pickup <= dropoff && back >= pickup)
    || (r.pickup <= pickup && back >= dropoff)
    || (r.pickup >= pickup && back <= dropoff)
  }

  /** A rental holds its car while Reserved or Active; a NULL status holds nothing. */
  predicate Holding(r: Rental) {
    r.status == Some("Reserved") || r.status == Some("Active")
  }

  predicate Blocks(r: Rental, pickup: int, dropoff: int) {
    Holding(r) && DatesClash(r, pickup, dropoff)
  }

  /** Reference definition: closed intervals [a, b] and [c, d] intersect. */
  ghost predicate Intersect(a: int, b: int, c: int, d: int) {
    exists day :: InRange(day, a, b) && InRange(day, c, d)
  }

  predicate InRange(day: int, lo: int, hi: int) { lo <= day <= hi }

  lemma IntersectBounds(a: int, b: int, c: int, d: int)
    requires a <= b && c <= d
    ensures Intersect(a, b, c, d) <==> a <= d && c <= b
  {
    if a <= d && c <= b {
      var day := Max(a, c);
      assert InRange(day, a, b) && InRange(day, c, d);
    }
    if Intersect(a, b, c, d) {
      var day :| InRange(day, a, b) && InRange(day, c, d);
    }
  }

  /** For well-formed ranges the second and third disjuncts are subsumed by
      the first, which is exactly interval intersection. */
  lemma DatesClashIsOverlap(r: Rental, pickup: int, dropoff: int)
    requires r.returnDate.Some? && r.pickup <= r.returnDate.value && pickup <= dropoff
    ensures DatesClash(r, pickup, dropoff) <==> r.pickup <= dropoff && r.returnDate.value >= pickup
    ensures DatesClash(r, pickup, dropoff) <==> Intersect(r.pickup, r.returnDate.value, pickup, dropoff)
  {
    IntersectBounds(r.pickup, r.returnDate.value, pickup, dropoff);
  }

  /** Without well-formed ranges the three disjuncts are not one test: a
      reversed request range is still caught by the third. */
  lemma ReversedRangeStillClashes()
    ensures var r := Rental(1, 1, 5, None, Some(5), None, None, Some("Active"));
      && DatesClash(r, 4, 6)
      && DatesClash(r, 6, 4) && !Intersect(5, 5, 6, 4)
  {
  }

  /** The listing's filter. `dates` is present only when both the pickup
      and the drop-off parameters are non-empty; the price bounds default
      to 0 and 999999 upstream. */
  datatype CarQuery = CarQuery(minPrice: real, maxPrice: real, dates: Option<(int, int)>)

  predicate Listed(db: Db, q: CarQuery, carId: nat)
    requires carId in db.cars
  {
    && q.minPrice <= db.cars[carId].dailyRate <= q.maxPrice
    && (q.dates.Some? ==>
          && db.cars[carId].status == Available
          && !exists k :: k in db.rentals && db.rentals[k].carId == carId && Blocks(db.rentals[k], q.dates.value.0, q.dates.value.1))
  }

  function ListedCars(db: Db, q: CarQuery): (ids: set<nat>)
    ensures ids <= db.cars.Keys
  {
    set carId | carId in db.cars && Listed(db, q, carId)
  }

  /** Rentals whose ranges are well formed. */
  predicate RangesWellFormed(db: Db) {
    forall k :: k in db.rentals && db.rentals[k].returnDate.Some? ==> db.rentals[k].pickup <= db.rentals[k].returnDate.value
  }

  /** For a dated query over well-formed data, a car is listed iff its price
      is in range, it is Available, and no holding rental's days intersect
      the requested days. */
  lemma ListedCarsByOverlap(db: Db, q: CarQuery, carId: nat)
    requires RangesWellFormed(db) && q.dates.Some? && q.dates.value.0 <= q.dates.value.1
    ensures carId in ListedCars(db, q) <==>
      && carId in db.cars
      && q.minPrice <= db.cars[carId].dailyRate <= q.maxPrice
      && db.cars[carId].status == Available
      && forall k :: k in db.rentals && db.rentals[k].carId == carId && Holding(db.rentals[k]) && db.rentals[k].returnDate.Some? ==>
           !Intersect(db.rentals[k].pickup, db.rentals[k].returnDate.value, q.dates.value.0, q.dates.value.1)
  {
    var (p, d) := q.dates.value;
    forall k | k in db.rentals && db.rentals[k].returnDate.Some?
      ensures DatesClash(db.rentals[k], p, d) <==> Intersect(db.rentals[k].pickup, db.rentals[k].returnDate.value, p, d)
    {
      DatesClashIsOverlap(db.rentals[k], p, d);
    }
  }

  /** Without dates the status and the rentals are not consulted at all. */
  lemma UndatedIgnoresStatus(db: Db, q: CarQuery, carId: nat)
    requires q.dates.None? && carId in db.cars
    ensures carId in ListedCars(db, q) <==> q.minPrice <= db.cars[carId].dailyRate <= q.maxPrice
  {
  }

  /** A rental booked through the API carries neither a status nor a return
      date, so it never takes its car out of a dated listing; only the car's
      Rented status does. */
  lemma BookedRentalNeverBlocks(db: Db, customerId: nat, req: NodeRentals.BookingRequest, fault: Option<nat>, pickup: int, dropoff: int)
    requires NodeRentals.CreateRental(db, NodeRentals.Valid(customerId), req, fault).reply.Ok?
    ensures var after := NodeRentals.CreateRental(db, NodeRentals.Valid(customerId), req, fault).db;
      && db.nextRentalId in after.rentals
      && !Blocks(after.rentals[db.nextRentalId], pickup, dropoff)
      && after.cars[req.carId].status == Rented
  {
  }
}

=== FILE: basics.dfy ===
/** Shared vocabulary: optional values, results, and the small string
    operations (ASCII case mapping, digit stripping, PHP `trim`/`empty`,
    substring search) that both the PHP and the JavaScript code rely on. */
module Basics {

  datatype Option<+T> = None | Some(value: T) {
    function GetOr(default: T): T {
      match this
      case Some(v) => v
      case None => default
    }
  }

  datatype Result<+T, +E> = Ok(value: T) | Err(error: E)

  function Max(a: int, b: int): int {
    if a < b then b else a
  }

  // ---------------------------------------------------------------------------
  // Characters
  // ---------------------------------------------------------------------------

  predicate IsDigit(c: char) { '0' <= c <= '9' }
  predicate IsUpper(c: char) { 'A' <= c <= 'Z' }
  predicate IsLower(c: char) { 'a' <= c <= 'z' }
  predicate IsLetter(c: char) { IsUpper(c) || IsLower(c) }

  /** ASCII lower-casing; every other character is left alone. */
  function LowerChar(c: char): (r: char)
    ensures IsUpper(c) ==> IsLower(r)
    ensures !IsUpper(c) ==> r == c
  {
    if IsUpper(c) then (c as int + 32) as char else c
  }

  /** ASCII upper-casing; every other character is left alone. */
  function UpperChar(c: char): (r: char)
    ensures IsLower(c) ==> IsUpper(r)
    ensures !IsLower(c) ==> r == c
  {
    if IsLower(c) then (c as int - 32) as char else c
  }

  predicate AllDigits(s: string) { forall i :: 0 <= i < |s| ==> IsDigit(s[i]) }

  /** Non-empty run of ASCII digits. */
  predicate IsDigits(s: string) { |s| > 0 && AllDigits(s) }

  // ---------------------------------------------------------------------------
  // Strings
  // ---------------------------------------------------------------------------

  function Lower(s: string): (r: string)
    ensures |r| == |s|
    ensures forall i :: 0 <= i < |s| ==> r[i] == LowerChar(s[i])
  {
    if s == [] then [] else [LowerChar(s[0])] + Lower(s[1..])
  }

  function Upper(s: string): (r: string)
    ensures |r| == |s|
    ensures forall i :: 0 <= i < |s| ==> r[i] == UpperChar(s[i])
  {
    if s == [] then [] else [UpperChar(s[0])] + Upper(s[1..])
  }

  /** The ASCII digits of s, in order, everything else dropped. */
  function KeepDigits(s: string): (r: string)
    ensures AllDigits(r)
    ensures |r| <= |s|
  {
    if s == [] then []
    else if IsDigit(s[0]) then [s[0]] + KeepDigits(s[1..])
    else KeepDigits(s[1..])
  }

  /** The ASCII letters of s, in order, everything else dropped. */
  function KeepLetters(s: string): (r: string)
    ensures forall i :: 0 <= i < |r| ==> IsLetter(r[i])
    ensures |r| <= |s|
  {
    if s == [] then []
    else if IsLetter(s[0]) then [s[0]] + KeepLetters(s[1..])
    else KeepLetters(s[1..])
  }

  lemma {:induction false} KeepDigitsConcat(a: string, b: string)
    ensures KeepDigits(a + b) == KeepDigits(a) + KeepDigits(b)
  {
    if a == [] {
      assert a + b == b;
    } else {
      assert (a + b)[0] == a[0];
      assert (a + b)[1..] == a[1..] + b;
      KeepDigitsConcat(a[1..], b);
    }
  }

  lemma {:induction false} KeepDigitsOfDigits(s: string)
    requires AllDigits(s)
    ensures KeepDigits(s) == s
  {
    if s != [] {
      KeepDigitsOfDigits(s[1..]);
    }
  }

  /** The first n characters, or all of s when shorter. */
  function Take(s: string, n: nat): (r: string)
    ensures |r| == if |s| < n then |s| else n
    ensures r == s[..|r|]
  {
    if |s| <= n then s else s[..n]
  }

  /** The last n characters, or all of s when shorter. */
  function TakeLast(s: string, n: nat): (r: string)
    ensures |r| == if |s| < n then |s| else n
    ensures r == s[|s| - |r|..]
  {
    if |s| <= n then s else s[|s| - n..]
  }

  predicate StartsWith(s: string, prefix: string) {
    |prefix| <= |s| && s[..|prefix|] == prefix
  }

  predicate EndsWith(s: string, suffix: string) {
    |suffix| <= |s| && s[|s| - |suffix|..] == suffix
  }

  /** Substring test (`String.prototype.includes`, PHP `str_contains`,
      and SQL `LIKE '%term%'`). */
  predicate Contains(hay: string, needle: string) {
    exists i | 0 <= i <= |hay| - |needle| :: OccursAt(hay, needle, i)
  }

  predicate OccursAt(hay: string, needle: string, i: int) {
    0 <= i <= |hay| - |needle| && hay[i..i + |needle|] == needle
  }

  lemma EmptyNeedle(hay: string)
    ensures Contains(hay, "")
  {
    assert OccursAt(hay, "", 0);
  }

  // ---------------------------------------------------------------------------
  // Joining and counting
  // ---------------------------------------------------------------------------

  /** The parts with sep between each two (PHP implode, JavaScript join). */
  function Join(sep: string, parts: seq<string>): string
    decreases |parts|
  {
    if |parts| == 0 then "" else if |parts| == 1 then parts[0] else parts[0] + sep + Join(sep, parts[1..])
  }

  /** The bytes one character takes in UTF-8: code points below 0x80 take
      one, below 0x800 two, below 0x10000 three, the rest four. */
  function Utf8Width(c: char): (n: nat)
    ensures 1 <= n <= 4
  {
    if c as int < 0x80 then 1 else if c as int < 0x800 then 2 else if c as int < 0x10000 then 3 else 4
  }

  /** The length of a string in UTF-8 bytes, which is what PHP's `strlen`
      measures. */
  function Utf8Length(s: string): (n: nat)
    ensures |s| <= n <= 4 * |s|
    decreases |s|
  {
    if s == [] then 0 else Utf8Width(s[0]) + Utf8Length(s[1..])
  }

  /** Byte length adds up over concatenation. */
  lemma {:induction false} Utf8LengthAppend(a: string, b: string)
    ensures Utf8Length(a + b) == Utf8Length(a) + Utf8Length(b)
    decreases |a|
  {
    if a == [] {
      assert a + b == b;
    } else {
      assert (a + b)[0] == a[0];
      assert (a + b)[1..] == a[1..] + b;
      Utf8LengthAppend(a[1..], b);
    }
  }

  /** On ASCII text bytes and characters agree; any other character makes
      the byte length strictly larger. */
  lemma {:induction false} Utf8LengthAscii(s: string)
    ensures Utf8Length(s) == |s| <==> forall i :: 0 <= i < |s| ==> s[i] as int < 0x80
    decreases |s|
  {
    if s != [] {
      Utf8LengthAscii(s[1..]);
      assert forall i :: 1 <= i < |s| ==> s[i] == s[1..][i - 1];
    }
  }

  /** How many times a character occurs in a string. */
  function Count(s: string, c: char): (n: nat)
    ensures n <= |s|
  {
    if s == [] then 0 else (if s[0] == c then 1 else 0) + Count(s[1..], c)
  }

  lemma {:induction false} CountAppend(a: string, b: string, c: char)
    ensures Count(a + b, c) == Count(a, c) + Count(b, c)
    decreases |a|
  {
    if a == [] {
      assert a + b == b;
    } else {
      assert (a + b)[0] == a[0];
      assert (a + b)[1..] == a[1..] + b;
      CountAppend(a[1..], b, c);
    }
  }

  /** The occurrences in each part, added up. */
  function CountEach(parts: seq<string>, c: char): nat
    decreases |parts|
  {
    if parts == [] then 0 else Count(parts[0], c) + CountEach(parts[1..], c)
  }

  /** Joining adds one separator between each two parts and nothing else. */
  lemma {:induction false} CountJoin(sep: string, parts: seq<string>, c: char)
    ensures Count(Join(sep, parts), c) == CountEach(parts, c) + (if parts == [] then 0 else (|parts| - 1) * Count(sep, c))
    decreases |parts|
  {
    if |parts| == 1 {
      assert parts[1..] == [];
    } else if |parts| > 1 {
      CountAppend(parts[0], sep, c);
      CountAppend(parts[0] + sep, Join(sep, parts[1..]), c);
      CountJoin(sep, parts[1..], c);
    }
  }

  /** A string without `c` counts none. */
  lemma {:induction false} CountAbsent(s: string, c: char)
    requires c !in s
    ensures Count(s, c) == 0
    decreases |s|
  {
    if s != [] {
      assert s[0] != c;
      assert forall x :: x in s[1..] ==> x in s;
      CountAbsent(s[1..], c);
    }
  }

  /** Each column name between backticks, followed by `suffix`: the pieces
      of an SQL column list (`` `c` ``, `` `c` = ? ``, `` `c` LIKE ? ``). */
  function Backticked(cols: seq<string>, suffix: string): (r: seq<string>)
    ensures |r| == |cols|
    ensures forall i :: 0 <= i < |cols| ==> r[i] == "`" + cols[i] + "`" + suffix
  {
    if cols == [] then [] else ["`" + cols[0] + "`" + suffix] + Backticked(cols[1..], suffix)
  }

  /** When no column name holds `c`, every occurrence comes from a suffix. */
  lemma {:induction false} BacktickedMarks(cols: seq<string>, suffix: string, c: char)
    requires c != '`' && forall col :: col in cols ==> c !in col
    ensures CountEach(Backticked(cols, suffix), c) == |cols| * Count(suffix, c)
    decreases |cols|
  {
    if cols != [] {
      var k := Count(suffix, c);
      BacktickedOneMarks(cols[0], suffix, c);
      assert Backticked(cols, suffix)[1..] == Backticked(cols[1..], suffix);
      BacktickedMarks(cols[1..], suffix, c);
      assert (|cols| - 1) * k + k == |cols| * k;
    }
  }

  lemma BacktickedOneMarks(col: string, suffix: string, c: char)
    requires c != '`' && c !in col
    ensures Count("`" + col + "`" + suffix, c) == Count(suffix, c)
  {
    CountAbsent(col, c);
    assert Count("`", c) == 0;
    CountAppend("`", col, c);
    CountAppend("`" + col, "`", c);
    CountAppend("`" + col + "`", suffix, c);
  }

  /** `a` occurs in `b` in order, not necessarily contiguously. */
  predicate IsSubsequence<T(==)>(a: seq<T>, b: seq<T>)
    decreases |b|
  {
    if a == [] then true
    else if b == [] then false
    else (a[0] == b[0] && IsSubsequence(a[1..], b[1..])) || IsSubsequence(a, b[1..])
  }

  // ---------------------------------------------------------------------------
  // PHP string semantics
  // ---------------------------------------------------------------------------

  /** PHP `empty()` on a string: true for "" and for "0". */
  predicate PhpEmpty(s: string) { s == "" || s == "0" }

  /** A request or session value that may be absent (null), read through
      PHP's truthiness: absent, "" and "0" are all falsy. */
  predicate Truthy(v: Option<string>) { v.Some? && !PhpEmpty(v.value) }

  /** The characters PHP's `trim` strips by default. */
  predicate IsTrimmed(c: char) {
    c == ' ' || c == '\t' || c == '\n' || c == '\r' || c == '\0' || c == 11 as char
  }

  function TrimLeft(s: string): (r: string)
    ensures |r| <= |s| && r == s[|s| - |r|..]
    ensures r == [] || !IsTrimmed(r[0])
  {
    if s != [] && IsTrimmed(s[0]) then TrimLeft(s[1..]) else s
  }

  function TrimRight(s: string): (r: string)
    ensures |r| <= |s| && r == s[..|r|]
    ensures r == [] || !IsTrimmed(r[|r| - 1])
  {
    if s != [] && IsTrimmed(s[|s| - 1]) then TrimRight(s[..|s| - 1]) else s
  }

  /** PHP's trim with its default character list. */
  function Trim(s: string): (r: string)
    ensures r == [] || (!IsTrimmed(r[0]) && !IsTrimmed(r[|r| - 1]))
    ensures |r| <= |s|
  {
    TrimRight(TrimLeft(s))
  }

  /** A string of blanks trims to nothing. */
  lemma {:induction false} TrimAllBlank(s: string)
    requires forall i :: 0 <= i < |s| ==> IsTrimmed(s[i])
    ensures Trim(s) == ""
    decreases |s|
  {
    if s != [] {
      TrimAllBlank(s[1..]);
    }
  }

  /** A string with no blank at either end is its own trim. */
  lemma TrimKeeps(s: string)
    requires s == [] || (!IsTrimmed(s[0]) && !IsTrimmed(s[|s| - 1]))
    ensures Trim(s) == s
  {
  }

  lemma TrimIdempotent(s: string)
    ensures Trim(Trim(s)) == Trim(s)
  {
    TrimKeeps(Trim(s));
  }

  /** Decimal rendering of a natural number, as an id is written into a URL. */
  function NatToString(n: nat): (r: string)
    ensures IsDigits(r)
  {
    if n < 10 then [('0' as int + n) as char]
    else NatToString(n / 10) + [('0' as int + n % 10) as char]
  }

  /** The value of a string of decimal digits (leading zeros allowed). */
  function DigitsValue(s: string): nat
    requires AllDigits(s)
  {
    if s == [] then 0 else DigitsValue(s[..|s| - 1]) * 10 + (s[|s| - 1] as int - '0' as int)
  }

  /** A request parameter read as a row id: only a plain decimal numeral
      names a row. */
  function ParseNat(s: string): (r: Option<nat>)
    ensures r.Some? <==> IsDigits(s)
  {
    if IsDigits(s) then Some(DigitsValue(s)) else None
  }

  lemma {:induction false} ParseNatToString(n: nat)
    ensures ParseNat(NatToString(n)) == Some(n)
  {
    var s := NatToString(n);
    if n >= 10 {
      var a := NatToString(n / 10);
      ParseNatToString(n / 10);
      assert s == a + [('0' as int + n % 10) as char];
      assert s[..|s| - 1] == a;
      assert DigitsValue(a) == n / 10;
      assert DigitsValue(s) == (n / 10) * 10 + n % 10;
    } else {
      assert s[..|s| - 1] == [];
    }
  }

  // ---------------------------------------------------------------------------
  // PHP integer coercion
  // ---------------------------------------------------------------------------

  /** The blanks PHP 8 allows before and after a numeric string. */
  predicate IsNumericBlank(c: char) {
    c == ' ' || c == '\t' || c == '\n' || c == '\r' || c == 11 as char || c == 12 as char
  }

  /** An optionally signed run of decimal digits. */
  function SignedDigits(s: string): (r: Option<int>)
    ensures IsDigits(s) ==> r == Some(DigitsValue(s))
    ensures r.Some? ==> |s| > 0 && (IsDigit(s[0]) || s[0] == '-' || s[0] == '+')
  {
    if |s| > 0 && s[0] == '-' && IsDigits(s[1..]) then Some(0 - DigitsValue(s[1..]))
    else if |s| > 0 && s[0] == '+' && IsDigits(s[1..]) then Some(DigitsValue(s[1..]))
    else if IsDigits(s) then Some(DigitsValue(s))
    else None
  }

  /** The integer PHP 8 makes of an integer-shaped string passed where an
      `int` is declared (no `strict_types`): blanks on either side of an
      optionally signed run of digits. `None` stands for the TypeError. */
  function PhpIntString(s: string): (r: Option<int>)
    ensures ParseNat(s).Some? ==> r == Some(ParseNat(s).value)
    decreases |s|
  {
    if |s| > 0 && IsNumericBlank(s[0]) then PhpIntString(s[1..])
    else if |s| > 0 && IsNumericBlank(s[|s| - 1]) then PhpIntString(s[..|s| - 1])
    else SignedDigits(s)
  }

  /** Blanks on either side never change the value or the verdict. */
  lemma {:induction false} PhpIntStringBlanks(s: string, c: char)
    requires IsNumericBlank(c)
    ensures PhpIntString([c] + s) == PhpIntString(s)
    ensures PhpIntString(s + [c]) == PhpIntString(s)
    decreases |s|
  {
    assert ([c] + s)[1..] == s;
    var t := s + [c];
    assert t[|t| - 1] == c && t[..|t| - 1] == s;
    if |s| > 0 && IsNumericBlank(s[0]) {
      assert t[0] == s[0] && t[1..] == s[1..] + [c];
      PhpIntStringBlanks(s[1..], c);
    }
  }

  /** A sign in front of a digit run gives the signed value. */
  lemma PhpIntStringSigned(s: string)
    requires IsDigits(s)
    ensures PhpIntString("-" + s) == Some(0 - DigitsValue(s))
    ensures PhpIntString("+" + s) == Some(DigitsValue(s))
  {
    assert ("-" + s)[1..] == s && ("+" + s)[1..] == s;
    assert ("-" + s)[|"-" + s| - 1] == s[|s| - 1];
    assert ("+" + s)[|"+" + s| - 1] == s[|s| - 1];
  }

  /** Every character of an accepted string is a blank, a sign or a digit:
      text with a letter in it is never an integer. */
  lemma {:induction false} PhpIntStringNoLetters(s: string)
    ensures PhpIntString(s).Some? ==> forall j :: 0 <= j < |s| ==> !IsLetter(s[j])
    decreases |s|
  {
    if |s| > 0 && IsNumericBlank(s[0]) {
      PhpIntStringNoLetters(s[1..]);
      assert forall j :: 1 <= j < |s| ==> s[j] == s[1..][j - 1];
    } else if |s| > 0 && IsNumericBlank(s[|s| - 1]) {
      PhpIntStringNoLetters(s[..|s| - 1]);
      assert forall j :: 0 <= j < |s| - 1 ==> s[j] == s[..|s| - 1][j];
    } else if |s| > 0 && (s[0] == '-' || s[0] == '+') && IsDigits(s[1..]) {
      assert forall j :: 1 <= j < |s| ==> s[j] == s[1..][j - 1];
    }
  }

}

=== FILE: blog.dfy ===
/** The blog editor and the blog routes: slugs made from titles, the
    category picker, the publish toggle, where a save is sent, and when
    the server stamps `published_at`. */
module Blog {
  import opened Basics

  // ---------------------------------------------------------------------------
  // Slugs: the lower-cased title, each run of other characters one dash,
  // no dash at either end
  // ---------------------------------------------------------------------------

  predicate IsSlugChar(c: char) { IsLower(c) || IsDigit(c) }

  /** Each maximal run of characters outside `[a-z0-9]` becomes one dash;
      `inRun` says the previous character already opened a run. */
  function Collapse(s: string, inRun: bool): (r: string)
    ensures |r| <= |s|
    decreases |s|
  {
    if s == [] then []
    else if IsSlugChar(s[0]) then [s[0]] + Collapse(s[1..], false)
    else (if inRun then [] else "-") + Collapse(s[1..], true)
  }

  /** The leading dashes removed. */
  function DropLeadingDashes(s: string): (r: string)
    ensures |r| <= |s| && r == s[|s| - |r|..]
    decreases |s|
  {
    if s != [] && s[0] == '-' then DropLeadingDashes(s[1..]) else s
  }

  /** The trailing dashes removed. */
  function DropTrailingDashes(s: string): (r: string)
    ensures |r| <= |s| && r == s[..|r|]
    decreases |s|
  {
    if s != [] && s[|s| - 1] == '-' then DropTrailingDashes(s[..|s| - 1]) else s
  }

  function Slug(title: string): string {
    DropTrailingDashes(DropLeadingDashes(Collapse(Lower(title), false)))
  }

  predicate SlugAlphabet(s: string) {
    forall i :: 0 <= i < |s| ==> IsSlugChar(s[i]) || s[i] == '-'
  }

  predicate NoDoubleDash(s: string) {
    forall i :: 0 <= i < |s| - 1 ==> s[i] != '-' || s[i + 1] != '-'
  }

  /** What a slug looks like: lower-case letters, digits and single dashes,
      with no dash at either end. */
  predicate IsSlug(s: string) {
    && SlugAlphabet(s)
    && NoDoubleDash(s)
    && (s != [] ==> s[0] != '-' && s[|s| - 1] != '-')
  }

  lemma {:induction false} CollapseShape(s: string, inRun: bool)
    ensures SlugAlphabet(Collapse(s, inRun))
    ensures NoDoubleDash(Collapse(s, inRun))
    ensures inRun && Collapse(s, inRun) != [] ==> Collapse(s, inRun)[0] != '-'
    decreases |s|
  {
    if s != [] {
      var rest := Collapse(s[1..], !IsSlugChar(s[0]));
      CollapseShape(s[1..], !IsSlugChar(s[0]));
      var head: string := if IsSlugChar(s[0]) then [s[0]] else if inRun then [] else "-";
      assert Collapse(s, inRun) == head + rest;
      var r := head + rest;
      if head != [] {
        forall i | 0 <= i < |r| - 1 ensures r[i] != '-' || r[i + 1] != '-' {
          if i > 0 {
            assert r[i] == rest[i - 1] && r[i + 1] == rest[i];
          }
        }
      }
    }
  }

  lemma {:induction false} DropLeadingShape(s: string)
    requires SlugAlphabet(s) && NoDoubleDash(s)
    ensures var r := DropLeadingDashes(s);
      SlugAlphabet(r) && NoDoubleDash(r) && (r != [] ==> r[0] != '-')
    decreases |s|
  {
    if s != [] && s[0] == '-' {
      DropLeadingShape(s[1..]);
    }
  }

  lemma {:induction false} DropTrailingShape(s: string)
    requires SlugAlphabet(s) && NoDoubleDash(s) && (s != [] ==> s[0] != '-')
    ensures IsSlug(DropTrailingDashes(s))
    decreases |s|
  {
    if s != [] && s[|s| - 1] == '-' {
      DropTrailingShape(s[..|s| - 1]);
    }
  }

  /** Every slug made from a title has the slug shape. */
  lemma SlugShape(title: string)
    ensures IsSlug(Slug(title))
  {
    var c := Collapse(Lower(title), false);
    CollapseShape(Lower(title), false);
    DropLeadingShape(c);
    DropTrailingShape(DropLeadingDashes(c));
  }

  lemma {:induction false} CollapseOfSlugShaped(s: string, inRun: bool)
    requires SlugAlphabet(s) && NoDoubleDash(s)
    requires inRun && s != [] ==> s[0] != '-'
    ensures Collapse(s, inRun) == s
    decreases |s|
  {
    if s != [] {
      CollapseOfSlugShaped(s[1..], !IsSlugChar(s[0]));
    }
  }

  lemma LowerOfSlugAlphabet(s: string)
    requires SlugAlphabet(s)
    ensures Lower(s) == s
  {
  }

  /** Slugging a slug changes nothing. */
  lemma SlugIdempotent(title: string)
    ensures Slug(Slug(title)) == Slug(title)
  {
    var s := Slug(title);
    SlugShape(title);
    LowerOfSlugAlphabet(s);
    CollapseOfSlugShaped(s, false);
  }

  /** The letters and digits of a string, in order. */
  function Alphanumerics(s: string): (r: string)
    decreases |s|
  {
    if s == [] then [] else (if IsSlugChar(s[0]) then [s[0]] else []) + Alphanumerics(s[1..])
  }

  lemma {:induction false} AlphanumericsAppend(a: string, b: string)
    ensures Alphanumerics(a + b) == Alphanumerics(a) + Alphanumerics(b)
    decreases |a|
  {
    if a == [] {
      assert a + b == b;
    } else {
      var h: string := if IsSlugChar(a[0]) then [a[0]] else [];
      assert (a + b)[0] == a[0] && (a + b)[1..] == a[1..] + b;
      assert Alphanumerics(a + b) == h + Alphanumerics(a[1..] + b);
      AlphanumericsAppend(a[1..], b);
      assert Alphanumerics(a) == h + Alphanumerics(a[1..]);
      assert h + (Alphanumerics(a[1..]) + Alphanumerics(b)) == (h + Alphanumerics(a[1..])) + Alphanumerics(b);
    }
  }

  lemma {:induction false} CollapseKeepsAlphanumerics(s: string, inRun: bool)
    ensures Alphanumerics(Collapse(s, inRun)) == Alphanumerics(s)
    decreases |s|
  {
    if s != [] {
      var head: string := if IsSlugChar(s[0]) then [s[0]] else if inRun then [] else "-";
      CollapseKeepsAlphanumerics(s[1..], !IsSlugChar(s[0]));
      AlphanumericsAppend(head, Collapse(s[1..], !IsSlugChar(s[0])));
    }
  }

  lemma {:induction false} DropLeadingKeepsAlphanumerics(s: string)
    ensures Alphanumerics(DropLeadingDashes(s)) == Alphanumerics(s)
    decreases |s|
  {
    if s != [] && s[0] == '-' {
      DropLeadingKeepsAlphanumerics(s[1..]);
    }
  }

  lemma {:induction false} DropTrailingKeepsAlphanumerics(s: string)
    ensures Alphanumerics(DropTrailingDashes(s)) == Alphanumerics(s)
    decreases |s|
  {
    if s != [] && s[|s| - 1] == '-' {
      DropTrailingKeepsAlphanumerics(s[..|s| - 1]);
      AlphanumericsAppend(s[..|s| - 1], "-");
      assert s[..|s| - 1] + "-" == s;
    }
  }

  /** The slug keeps exactly the lower-cased title's letters and digits, in
      order; everything else only ever becomes a separating dash. */
  lemma SlugKeepsAlphanumerics(title: string)
    ensures Alphanumerics(Slug(title)) == Alphanumerics(Lower(title))
  {
    var c := Collapse(Lower(title), false);
    CollapseKeepsAlphanumerics(Lower(title), false);
    DropLeadingKeepsAlphanumerics(c);
    DropTrailingKeepsAlphanumerics(DropLeadingDashes(c));
  }

  // ---------------------------------------------------------------------------
  // The editor (BlogFormModal)
  // ---------------------------------------------------------------------------

  datatype PostForm = PostForm(title: string, slug: string, excerpt: string, content: string,
                               featuredImage: string, status: string, categoryIds: seq<nat>)

  /** An editor input sets its own field of the form and no other. */
  function SetField(f: PostForm, name: string, value: string): (r: PostForm)
    ensures name == "title" ==> r.title == value
    ensures name != "slug" ==> r.slug == f.slug
    ensures r.categoryIds == f.categoryIds
  {
    match name
    case "title" => f.(title := value)
    case "slug" => f.(slug := value)
    case "excerpt" => f.(excerpt := value)
    case "content" => f.(content := value)
    case "featured_image" => f.(featuredImage := value)
    case "status" => f.(status := value)
    case _ => f
  }

  /** An input edit. While creating, a title edit also rewrites the slug;
      when editing an existing post it never does. */
  function HandleChange(f: PostForm, name: string, value: string, editingPost: bool): (r: PostForm)
    ensures name == "title" && !editingPost ==> r.title == value && r.slug == Slug(value)
    ensures editingPost && name != "slug" ==> r.slug == f.slug
    ensures r.categoryIds == f.categoryIds
  {
    var edited := SetField(f, name, value);
    if name == "title" && !editingPost then edited.(slug := Slug(value)) else edited
  }

  function ApplyEdits(f: PostForm, edits: seq<(string, string)>, editingPost: bool): PostForm
    decreases |edits|
  {
    if edits == [] then f else ApplyEdits(HandleChange(f, edits[0].0, edits[0].1, editingPost), edits[1..], editingPost)
  }

  /** Editing an existing post keeps its slug unless the slug input itself
      is edited, whatever happens to the title. */
  lemma {:induction false} EditingKeepsSlug(f: PostForm, edits: seq<(string, string)>)
    requires forall e :: e in edits ==> e.0 != "slug"
    ensures ApplyEdits(f, edits, true).slug == f.slug
    decreases |edits|
  {
    if edits != [] {
      assert edits[0] in edits;
      assert forall e :: e in edits[1..] ==> e in edits;
      EditingKeepsSlug(HandleChange(f, edits[0].0, edits[0].1, true), edits[1..]);
    }
  }

  /** While creating, right after a title edit the slug is that title's
      slug, whatever was typed before. */
  lemma {:induction false} CreatingSlugFollowsTitle(f: PostForm, edits: seq<(string, string)>)
    requires edits != [] && edits[|edits| - 1].0 == "title"
    ensures var r := ApplyEdits(f, edits, false);
      r.slug == Slug(r.title) && r.title == edits[|edits| - 1].1 && IsSlug(r.slug)
    decreases |edits|
  {
    var next := HandleChange(f, edits[0].0, edits[0].1, false);
    if |edits| > 1 {
      assert edits[1..][|edits[1..]| - 1] == edits[|edits| - 1];
      CreatingSlugFollowsTitle(next, edits[1..]);
    } else {
      assert ApplyEdits(f, edits, false) == ApplyEdits(next, [], false) == next;
      SlugShape(edits[0].1);
    }
  }

  /** A ticked category is appended; an unticked one is removed wherever it occurs. */
  function ToggleCategory(ids: seq<nat>, id: nat): (r: seq<nat>)
    ensures id in r <==> id !in ids
    ensures forall x :: x != id ==> (x in r <==> x in ids)
  {
    if id in ids then Without(ids, id) else ids + [id]
  }

  function Without(ids: seq<nat>, id: nat): (r: seq<nat>)
    ensures forall x :: x in r <==> x in ids && x != id
    decreases |ids|
  {
    if ids == [] then [] else (if ids[0] == id then [] else [ids[0]]) + Without(ids[1..], id)
  }

  lemma {:induction false} WithoutAbsent(ids: seq<nat>, id: nat)
    requires id !in ids
    ensures Without(ids, id) == ids
    decreases |ids|
  {
    if ids != [] {
      WithoutAbsent(ids[1..], id);
    }
  }

  lemma {:induction false} WithoutDistinct(ids: seq<nat>, id: nat)
    requires Distinct(ids)
    ensures Distinct(Without(ids, id))
    decreases |ids|
  {
    if ids != [] {
      WithoutDistinct(ids[1..], id);
      var rest := Without(ids[1..], id);
      if ids[0] != id {
        var r := [ids[0]] + rest;
        forall i, j | 0 <= i < j < |r| ensures r[i] != r[j] {
          if i == 0 {
            assert r[j] in ids[1..];
          }
        }
      }
    }
  }

  predicate Distinct(ids: seq<nat>) {
    forall i, j :: 0 <= i < j < |ids| ==> ids[i] != ids[j]
  }

  /** The picker never lists a category twice, and a second click undoes
      the first: exactly for a category that was not ticked, and up to
      order (it moves to the end) for one that was. */
  lemma ToggleCategoryTwice(ids: seq<nat>, id: nat)
    requires Distinct(ids)
    ensures Distinct(ToggleCategory(ids, id))
    ensures id !in ids ==> ToggleCategory(ToggleCategory(ids, id), id) == ids
    ensures forall x :: x in ToggleCategory(ToggleCategory(ids, id), id) <==> x in ids
  {
    if id in ids {
      WithoutDistinct(ids, id);
    } else {
      var r := ids + [id];
      forall i, j | 0 <= i < j < |r| ensures r[i] != r[j] {
        if j == |ids| {
          assert r[i] in ids;
        }
      }
      WithoutAbsent(ids, id);
      WithoutAppend(ids, id);
    }
  }

  lemma {:induction false} WithoutAppend(ids: seq<nat>, id: nat)
    ensures Without(ids + [id], id) == Without(ids, id)
    decreases |ids|
  {
    if ids == [] {
      assert [id][1..] == [];
    } else {
      assert (ids + [id])[1..] == ids[1..] + [id];
      WithoutAppend(ids[1..], id);
    }
  }

  /** The list's publish button: published becomes draft, anything else
      becomes published. */
  function TogglePublish(status: string): (r: string)
    ensures r == "draft" || r == "published"
    ensures r == "published" <==> status != "published"
  {
    if status == "published" then "draft" else "published"
  }

  lemma TogglePublishTwice(status: string)
    requires status == "draft" || status == "published"
    ensures TogglePublish(TogglePublish(status)) == status
  {
  }

  datatype SaveRequest = SaveRequest(verb: string, url: string, body: PostForm)

  /** handleSubmit: an existing post is updated at its own URL, a new one
      is created at the collection URL; the form goes as it is. */
  function SavePost(editing: Option<nat>, f: PostForm): (r: SaveRequest)
    ensures r.body == f
    ensures r.verb == "PUT" <==> editing.Some?
    ensures r.verb == "PUT" || r.verb == "POST"
  {
    match editing
    case Some(id) => SaveRequest("PUT", "http://localhost:3001/api/admin/blog/" + NatToString(id), f)
    case None => SaveRequest("POST", "http://localhost:3001/api/admin/blog", f)
  }

  /** An update names the post it edits in its URL. */
  lemma SaveTargetsPost(id: nat, f: PostForm)
    ensures var prefix := "http://localhost:3001/api/admin/blog/";
      var url := SavePost(Some(id), f).url;
      StartsWith(url, prefix) && ParseNat(url[|prefix|..]) == Some(id)
  {
    var prefix := "http://localhost:3001/api/admin/blog/";
    var url := prefix + NatToString(id);
    assert url[..|prefix|] == prefix && url[|prefix|..] == NatToString(id);
    ParseNatToString(id);
  }

  // ---------------------------------------------------------------------------
  // Server: the slug stored and the publication date
  // ---------------------------------------------------------------------------

  /** The form's slug unless it is empty, else the title's slug. */
  function StoredSlug(title: string, slug: string): (r: string)
    ensures slug != "" ==> r == slug
    ensures slug == "" ==> IsSlug(r)
  {
    SlugShape(title);
    if slug != "" then slug else Slug(title)
  }

  /** Creating: stamped with the current time only when created published. */
  function CreatedPublishedAt(status: string, now: int): (at: Option<int>)
    ensures at.Some? <==> status == "published"
  {
    if status == "published" then Some(now) else None
  }

  /** Saving the editor: the first move from draft to published stamps the
      time; any existing stamp is kept. */
  function UpdatedPublishedAt(currentStatus: string, current: Option<int>, status: string, now: int): (at: Option<int>)
    ensures current.Some? ==> at == current
  {
    if status == "published" && currentStatus == "draft" && current.None? then Some(now) else current
  }

  /** The publish button's route: publishing a post never stamped before
      stamps it; any existing stamp is kept. */
  function ToggledPublishedAt(current: Option<int>, status: string, now: int): (at: Option<int>)
    ensures current.Some? ==> at == current
    ensures status == "published" ==> at.Some?
  {
    if status == "published" && current.None? then Some(now) else current
  }

  /** The two update routes agree except on a post stamped with nothing
      and stored under a status other than draft: only the publish button
      stamps that one. Neither ever moves an existing stamp. */
  lemma PublicationRoutesAgree(currentStatus: string, current: Option<int>, status: string, now: int)
    ensures (UpdatedPublishedAt(currentStatus, current, status, now) != ToggledPublishedAt(current, status, now))
        <==> status == "published" && current.None? && currentStatus != "draft"
  {
  }
}

=== FILE: client_lists.dfy ===
/** List and request logic of the React screens: the admin's customer
    table (search, sort, save routing), the customer's rental history
    sort and early-return prompt, and the customer's car search (price
    sort and the optimistic favourite toggle with its rollback). */
module ClientLists {
  import opened Basics
  import opened Sorting
  import opened ContactForm
  import NodeRentals

  // ---------------------------------------------------------------------------
  // CustomerManager: search and sort
  // ---------------------------------------------------------------------------

  /** A row of the admin's customer list; the phone may be NULL. */
  datatype CustomerRow = CustomerRow(customerId: nat, firstName: string, lastName: string, email: string,
                                     phone: Option<string>, address: Option<string>, city: Option<string>,
                                     state: Option<string>, zip: Option<string>)

  /** What the search box looks in: the names, the email and the phone (empty
      when NULL), separated by spaces. */
  function SearchText(c: CustomerRow): string {
    c.firstName + " " + c.lastName + " " + c.email + " " + c.phone.GetOr("")
  }

  predicate MatchesSearch(c: CustomerRow, term: string) {
    Contains(Lower(SearchText(c)), Lower(term))
  }

  /** The rows whose search text contains the term, ignoring ASCII case. */
  function FilterCustomers(rows: seq<CustomerRow>, term: string): (r: seq<CustomerRow>)
    ensures |r| <= |rows|
  {
    if rows == [] then []
    else (if MatchesSearch(rows[0], term) then [rows[0]] else []) + FilterCustomers(rows[1..], term)
  }

  /** A row is kept iff it matches; the kept rows keep their order. */
  lemma {:induction false} FilterCustomersKeeps(rows: seq<CustomerRow>, term: string)
    ensures forall c :: c in FilterCustomers(rows, term) <==> c in rows && MatchesSearch(c, term)
    ensures IsSubsequence(FilterCustomers(rows, term), rows)
    decreases |rows|
  {
    if rows != [] {
      FilterCustomersKeeps(rows[1..], term);
      var rest := FilterCustomers(rows[1..], term);
      assert rows == [rows[0]] + rows[1..];
      if MatchesSearch(rows[0], term) {
        assert ([rows[0]] + rest)[1..] == rest;
      } else {
        assert FilterCustomers(rows, term) == rest;
        assert rest == [] || IsSubsequence(rest, rows[1..]);
      }
    }
  }

  /** An empty search keeps every row. */
  lemma {:induction false} EmptySearchKeepsAll(rows: seq<CustomerRow>)
    ensures FilterCustomers(rows, "") == rows
    decreases |rows|
  {
    if rows != [] {
      EmptyNeedle(Lower(SearchText(rows[0])));
      EmptySearchKeepsAll(rows[1..]);
    }
  }

  /** A column's value by name, '' when NULL or not a column. */
  function ColumnValue(c: CustomerRow, key: string): string {
    match key
    case "first_name" => c.firstName
    case "last_name" => c.lastName
    case "email" => c.email
    case "phone_number" => c.phone.GetOr("")
    case "address" => c.address.GetOr("")
    case "city" => c.city.GetOr("")
    case "state" => c.state.GetOr("")
    case "zip_code" => c.zip.GetOr("")
    case _ => ""
  }

  /** The table the admin sees: the filtered rows, sorted by the lower-cased
      column when a sort key is set. */
  function ProcessCustomers(rows: seq<CustomerRow>, term: string, config: SortConfig): seq<CustomerRow> {
    var kept := FilterCustomers(rows, term);
    match config.key
    case None => kept
    case Some(key) => SortBy(kept, Comparator((c: CustomerRow) => Lower(ColumnValue(c, key)), config.direction))
  }

  /** The table shows exactly the matching rows, each as often as in the
      list, ordered by the lower-cased column in the chosen direction. */
  lemma ProcessedCustomers(rows: seq<CustomerRow>, term: string, config: SortConfig)
    ensures var r := ProcessCustomers(rows, term, config);
      && multiset(r) == multiset(FilterCustomers(rows, term))
      && (forall c :: c in r <==> c in rows && MatchesSearch(c, term))
      && (config.key.Some? ==>
            var keyOf := (c: CustomerRow) => Lower(ColumnValue(c, config.key.value));
            forall i, j :: 0 <= i < j < |r| ==>
              if config.direction == Ascending then !LexLess(keyOf(r[j]), keyOf(r[i]))
              else !LexLess(keyOf(r[i]), keyOf(r[j])))
  {
    FilterCustomersKeeps(rows, term);
    var kept := FilterCustomers(rows, term);
    var r := ProcessCustomers(rows, term, config);
    if config.key.Some? {
      SortedByKey(kept, (c: CustomerRow) => Lower(ColumnValue(c, config.key.value)), config.direction);
    }
    forall c ensures c in r <==> c in kept {
      assert c in r <==> c in multiset(r);
      assert c in kept <==> c in multiset(kept);
    }
  }

  // ---------------------------------------------------------------------------
  // CustomerManager: submitting the form and routing the save
  // ---------------------------------------------------------------------------

  /** The modal's inputs. */
  datatype CustomerForm = CustomerForm(firstName: string, lastName: string, email: string, phone: string,
                                       address: string, city: string, state: string, zip: string, password: string)

  /** The JSON body sent to the server, in its column names; the password
      is only sent when registering. */
  datatype CustomerBody = CustomerBody(first_name: string, last_name: string, email: string, phone_number: string,
                                       address: string, city: string, state: string, zip_code: string,
                                       password: Option<string>)

  datatype SaveRequest = SaveRequest(verb: string, url: string, body: CustomerBody)

  const ApiBase := "http://localhost:3001/api"

  function Body(f: CustomerForm, password: Option<string>): CustomerBody {
    CustomerBody(f.firstName, f.lastName, f.email, f.phone, f.address, f.city, f.state, f.zip, password)
  }

  /** handleSubmit then handleSaveCustomer: nothing is sent unless the form
      validates; a truthy `customer_id` (the edited customer's) means an
      update through the admin route, anything else a registration. */
  function SaveCustomer(f: CustomerForm, editing: Option<nat>): (r: Option<SaveRequest>)
    ensures r.Some? <==> Validate(f.phone, f.state, f.zip)
    ensures r.Some? ==>
      && (r.value.verb == "PUT" <==> editing.Some? && editing.value != 0)
      && (r.value.verb == "PUT" || r.value.verb == "POST")
      && (r.value.body.password.Some? <==> r.value.verb == "POST")
      && r.value.body.(password := None) == Body(f, None)
  {
    if !Validate(f.phone, f.state, f.zip) then None
    else if editing.Some? && editing.value != 0 then
      Some(SaveRequest("PUT", ApiBase + "/admin/customers/" + NatToString(editing.value), Body(f, None)))
    else
      Some(SaveRequest("POST", ApiBase + "/customers/register", Body(f, Some(f.password))))
  }

  /** An update goes to the edited customer's own URL: the id read back
      from the path is that customer's. */
  lemma SaveTargetsEditedCustomer(f: CustomerForm, id: nat)
    requires Validate(f.phone, f.state, f.zip) && id != 0
    ensures var prefix := ApiBase + "/admin/customers/";
      var url := SaveCustomer(f, Some(id)).value.url;
      && StartsWith(url, prefix)
      && ParseNat(url[|prefix|..]) == Some(id)
  {
    var prefix := ApiBase + "/admin/customers/";
    var url := prefix + NatToString(id);
    assert url[..|prefix|] == prefix;
    assert url[|prefix|..] == NatToString(id);
    ParseNatToString(id);
  }

  /** The dialog's first state: the customer's details (empty for NULL), or
      all empty when adding; the password box always starts empty. */
  function InitialForm(customer: Option<CustomerRow>): (f: CustomerForm)
    ensures f.password == ""
    ensures customer.None? ==> f == CustomerForm("", "", "", "", "", "", "", "", "")
  {
    match customer
    case None => CustomerForm("", "", "", "", "", "", "", "", "")
    case Some(c) => CustomerForm(c.firstName, c.lastName, c.email, c.phone.GetOr(""), c.address.GetOr(""),
                                 c.city.GetOr(""), c.state.GetOr(""), c.zip.GetOr(""), "")
  }

  /** handleSubmit hands the edited customer's id along with the form. */
  function SubmitCustomer(f: CustomerForm, customer: Option<CustomerRow>): (r: Option<SaveRequest>)
    ensures r.Some? <==> Validate(f.phone, f.state, f.zip)
    ensures r.Some? ==> (r.value.verb == "PUT" <==> customer.Some? && customer.value.customerId != 0)
  {
    SaveCustomer(f, if customer.Some? then Some(customer.value.customerId) else None)
  }

  /** Opening a customer whose stored contact fields pass the checks and
      saving at once sends their own details back, without a password, to
      their own URL. */
  lemma UntouchedEditSendsCustomer(c: CustomerRow)
    requires c.customerId != 0
    requires Validate(c.phone.GetOr(""), c.state.GetOr(""), c.zip.GetOr(""))
    ensures var r := SubmitCustomer(InitialForm(Some(c)), Some(c));
      && r.Some? && r.value.verb == "PUT"
      && r.value.body == CustomerBody(c.firstName, c.lastName, c.email, c.phone.GetOr(""), c.address.GetOr(""),
                                      c.city.GetOr(""), c.state.GetOr(""), c.zip.GetOr(""), None)
      && ParseNat(r.value.url[|ApiBase + "/admin/customers/"|..]) == Some(c.customerId)
  {
    SaveTargetsEditedCustomer(InitialForm(Some(c)), c.customerId);
  }

  // ---------------------------------------------------------------------------
  // CustomerProfile: rental history and the return prompt
  // ---------------------------------------------------------------------------

  /** A history row as the API returns it: column name to text. */
  type HistoryRow = map<string, string>

  function HistoryValue(row: HistoryRow, key: string): string {
    if key in row then row[key] else ""
  }

  /** sortedHistory: server order until a header is chosen. */
  function SortHistory(history: seq<HistoryRow>, config: SortConfig): seq<HistoryRow> {
    match config.key
    case None => history
    case Some(key) => SortBy(history, Comparator((row: HistoryRow) => HistoryValue(row, key), config.direction))
  }

  /** The sorted history holds the same rows, ordered by the column. */
  lemma HistorySorted(history: seq<HistoryRow>, config: SortConfig)
    ensures var r := SortHistory(history, config);
      && multiset(r) == multiset(history)
      && (config.key.None? ==> r == history)
      && (config.key.Some? ==>
            forall i, j :: 0 <= i < j < |r| ==>
              var a, b := HistoryValue(r[i], config.key.value), HistoryValue(r[j], config.key.value);
              if config.direction == Ascending then !LexLess(b, a) else !LexLess(a, b))
  {
    if config.key.Some? {
      SortedByKey(history, (row: HistoryRow) => HistoryValue(row, config.key.value), config.direction);
    }
  }

  datatype ReturnPrompt = EarlyReturnConfirmation | ConfirmReturn

  /** handleReturnCar: with an active rental, the early-return warning iff
      today is before the due day. A missing due date behaves like the
      epoch, so it never warns. */
  function PromptFor(activeDue: Option<Option<int>>, today: int): (p: Option<ReturnPrompt>)
    ensures p.None? <==> activeDue.None?
    ensures p == Some(EarlyReturnConfirmation) <==> activeDue.Some? && activeDue.value.Some? && today < activeDue.value.value
  {
    match activeDue
    case None => None
    case Some(due) => Some(if due.Some? && today < due.value then EarlyReturnConfirmation else ConfirmReturn)
  }

  /** The warning appears exactly when the server will charge the flat
      early-return fee on the same day. */
  lemma WarningMatchesFee(due: Option<int>, today: int)
    ensures PromptFor(Some(due), today) == Some(EarlyReturnConfirmation) <==> NodeRentals.EarlyReturnFee(due, today) == 25.0
  {
  }

  // ---------------------------------------------------------------------------
  // CustomerCarSearch: price sort and favourites
  // ---------------------------------------------------------------------------

  /** A car card; `favorite` is the API's 0/1 `is_favorite`. */
  datatype CarCard = CarCard(carId: nat, dailyRate: real, favorite: int)

  datatype SortOption = Featured | PriceLowToHigh | PriceHighToLow

  function PriceOrder(option: SortOption): (CarCard, CarCard) -> bool {
    (a: CarCard, b: CarCard) =>
      if option == PriceLowToHigh then a.dailyRate < b.dailyRate
      else if option == PriceHighToLow then a.dailyRate > b.dailyRate
      else false
  }

  function SortCars(cars: seq<CarCard>, option: SortOption): seq<CarCard> {
    if option == Featured then cars else SortBy(cars, PriceOrder(option))
  }

  /** Low to high gives nondecreasing rates, high to low nonincreasing,
      Featured the server's order; always the same cards. */
  lemma SortCarsOrders(cars: seq<CarCard>, option: SortOption)
    ensures var r := SortCars(cars, option);
      && multiset(r) == multiset(cars)
      && (option == Featured ==> r == cars)
      && (option == PriceLowToHigh ==> forall i, j :: 0 <= i < j < |r| ==> r[i].dailyRate <= r[j].dailyRate)
      && (option == PriceHighToLow ==> forall i, j :: 0 <= i < j < |r| ==> r[i].dailyRate >= r[j].dailyRate)
  {
    if option != Featured {
      assert StrictOrder(PriceOrder(option));
      SortBySorted(cars, PriceOrder(option));
    }
  }

  /** The cards with the given car's favourite flag set, the rest untouched. */
  function SetFavorite(cars: seq<CarCard>, id: nat, value: int): (r: seq<CarCard>)
    ensures |r| == |cars|
    ensures forall i :: 0 <= i < |cars| ==> r[i] == if cars[i].carId == id then cars[i].(favorite := value) else cars[i]
  {
    seq(|cars|, i requires 0 <= i < |cars| => if cars[i].carId == id then cars[i].(favorite := value) else cars[i])
  }

  /** The request the toggle sends. */
  datatype FavoriteRequest = FavoriteRequest(verb: string, url: string, body: Option<nat>)

  function FavoriteCall(car: CarCard): FavoriteRequest {
    if car.favorite != 0 then FavoriteRequest("DELETE", ApiBase + "/customers/favorites/" + NatToString(car.carId), None)
    else FavoriteRequest("POST", ApiBase + "/customers/favorites", Some(car.carId))
  }

  /** handleToggleFavorite: nothing without a token; otherwise the card is
      flipped at once and the request sent; if the request fails the card
      gets its old value back. */
  function ToggleFavorite(cars: seq<CarCard>, car: CarCard, hasToken: bool, succeeded: bool):
    (r: (seq<CarCard>, Option<FavoriteRequest>))
    ensures !hasToken ==> r == (cars, None)
    ensures hasToken ==> r.1 == Some(FavoriteCall(car))
  {
    if !hasToken then (cars, None)
    else
      var flipped := SetFavorite(cars, car.carId, if car.favorite != 0 then 0 else 1);
      (if succeeded then flipped else SetFavorite(flipped, car.carId, car.favorite), Some(FavoriteCall(car)))
  }

  /** A successful toggle sets that car's cards to 0 if it was a favourite
      and 1 otherwise, and leaves every other card alone; favourited cars
      are removed with DELETE on their own URL, others added with POST. */
  lemma ToggleFlipsOneCar(cars: seq<CarCard>, car: CarCard, i: int)
    requires 0 <= i < |cars|
    ensures var r := ToggleFavorite(cars, car, true, true);
      && |r.0| == |cars|
      && (cars[i].carId == car.carId ==> r.0[i] == cars[i].(favorite := if car.favorite != 0 then 0 else 1))
      && (cars[i].carId != car.carId ==> r.0[i] == cars[i])
      && (r.1.value.verb == "DELETE" <==> car.favorite != 0)
      && (r.1.value.body.Some? <==> r.1.value.verb == "POST")
  {
  }

  /** A failed request leaves the list as it was, provided the cards of
      that car showed the value the toggle started from. */
  lemma FailedToggleRollsBack(cars: seq<CarCard>, car: CarCard)
    requires forall k :: 0 <= k < |cars| && cars[k].carId == car.carId ==> cars[k].favorite == car.favorite
    ensures ToggleFavorite(cars, car, true, false).0 == cars
  {
    var r := ToggleFavorite(cars, car, true, false).0;
    forall k | 0 <= k < |cars| ensures r[k] == cars[k] {
    }
  }

  /** Two successful toggles from the list's own card restore a 0/1 flag. */
  lemma ToggleTwiceRestores(cars: seq<CarCard>, i: int)
    requires 0 <= i < |cars| && (cars[i].favorite == 0 || cars[i].favorite == 1)
    requires forall k :: 0 <= k < |cars| && cars[k].carId == cars[i].carId ==> cars[k].favorite == cars[i].favorite
    ensures var once := ToggleFavorite(cars, cars[i], true, true).0;
      ToggleFavorite(once, once[i], true, true).0 == cars
  {
    var once := ToggleFavorite(cars, cars[i], true, true).0;
    var twice := ToggleFavorite(once, once[i], true, true).0;
    forall k | 0 <= k < |cars| ensures twice[k] == cars[k] {
    }
  }
}

=== FILE: contact_form.dfy ===
/** The contact-field formatters and the validator shared, character for
    character, by the customer's profile form and the admin's customer
    form: phone, state and ZIP are normalised as they are typed and
    checked on submit. */
module ContactForm {
  import opened Basics

  // ---------------------------------------------------------------------------
  // Patterns the validator tests
  // ---------------------------------------------------------------------------

  /** Three digits, a dash, three digits, a dash, four digits. */
  predicate PhonePattern(s: string) {
    && |s| == 12 && s[3] == '-' && s[7] == '-'
    && AllDigits(s[..3]) && AllDigits(s[4..7]) && AllDigits(s[8..])
  }

  /** Exactly two upper-case ASCII letters. */
  predicate StatePattern(s: string) {
    |s| == 2 && IsUpper(s[0]) && IsUpper(s[1])
  }

  /** Exactly five ASCII digits. */
  predicate ZipPattern(s: string) {
    |s| == 5 && AllDigits(s)
  }

  // ---------------------------------------------------------------------------
  // Formatters (handleChange / handleInputChange)
  // ---------------------------------------------------------------------------

  /** The groups of up to three, three and four digits the formatter cuts
      from at most ten digits: each group greedy, so a later group is
      non-empty only when the earlier ones are full. */
  function Groups(digits: string): (g: (string, string, string))
    requires |digits| <= 10
    ensures g.0 + g.1 + g.2 == digits
    ensures |g.0| == Min(|digits|, 3)
    ensures |g.1| == Min(|digits| - |g.0|, 3)
  {
    var a := Take(digits, 3);
    var b := Take(digits[|a|..], 3);
    assert a + b + digits[|a| + |b|..] == digits;
    (a, b, digits[|a| + |b|..])
  }

  function Min(a: int, b: int): int {
    if a <= b then a else b
  }

  /** The phone input: its digits regrouped 3-3-4, with a dash only before
      a non-empty group; with more than ten digits the regular expression
      fails and the input is kept as typed. */
  function FormatPhone(value: string): string {
    var digits := KeepDigits(value);
    if |digits| > 10 then value
    else
      var g := Groups(digits);
      if g.1 == "" then g.0 else g.0 + "-" + g.1 + (if g.2 != "" then "-" + g.2 else "")
  }

  /** The state input: its ASCII letters, at most two, in upper case. */
  function FormatState(value: string): (r: string)
    ensures |r| <= 2
    ensures forall i :: 0 <= i < |r| ==> IsUpper(r[i])
  {
    var letters := Take(KeepLetters(value), 2);
    assert forall i :: 0 <= i < |letters| ==> IsLetter(letters[i]);
    Upper(letters)
  }

  /** The ZIP input: its digits, at most five. */
  function FormatZip(value: string): (r: string)
    ensures |r| <= 5 && AllDigits(r)
  {
    Take(KeepDigits(value), 5)
  }

  /** The value stored for an edited input; other inputs are kept as typed. */
  function FormatInput(name: string, value: string): (r: string)
    ensures name != "phone_number" && name != "state" && name != "zip_code" ==> r == value
  {
    if name == "phone_number" then FormatPhone(value)
    else if name == "state" then FormatState(value)
    else if name == "zip_code" then FormatZip(value)
    else value
  }

  /** With at most ten digits the formatted phone is the digits with a dash
      after the third and after the sixth, each only when more digits follow;
      with more the input comes back unchanged. */
  lemma PhoneGrouping(value: string)
    ensures var d, r := KeepDigits(value), FormatPhone(value);
      && (|d| <= 3 ==> r == d)
      && (3 < |d| <= 6 ==> r == d[..3] + "-" + d[3..])
      && (6 < |d| <= 10 ==> r == d[..3] + "-" + d[3..6] + "-" + d[6..])
      && (|d| > 10 ==> r == value)
  {
    var d := KeepDigits(value);
    if |d| <= 10 {
      var g := Groups(d);
      assert g.0 == d[..|g.0|];
      assert g.1 == d[|g.0|..|g.0| + |g.1|];
      assert g.2 == d[|g.0| + |g.1|..];
    }
  }

  lemma DashesAreNotDigits()
    ensures KeepDigits("-") == ""
  {
  }

  lemma DashJoinDigits(a: string, b: string)
    requires AllDigits(a) && AllDigits(b)
    ensures KeepDigits(a + "-" + b) == a + b
  {
    assert KeepDigits(a + "-") == a by {
      KeepDigitsConcat(a, "-");
      KeepDigitsOfDigits(a);
      DashesAreNotDigits();
      assert a + "" == a;
    }
    KeepDigitsConcat(a + "-", b);
    KeepDigitsOfDigits(b);
  }

  lemma GroupsAllDigits(d: string)
    requires |d| <= 10 && AllDigits(d)
    ensures var g := Groups(d); AllDigits(g.0) && AllDigits(g.1) && AllDigits(g.2)
    ensures var g := Groups(d); g.1 == "" ==> g.2 == ""
  {
    var g := Groups(d);
    assert g.0 == d[..|g.0|];
    assert g.1 == d[|g.0|..|g.0| + |g.1|];
    assert g.2 == d[|g.0| + |g.1|..];
  }

  /** The dashes the formatter puts between digit groups carry no digit. */
  lemma DashedGroupsDigits(a: string, b: string, c: string)
    requires AllDigits(a) && AllDigits(b) && AllDigits(c) && (b == "" ==> c == "")
    ensures KeepDigits(if b == "" then a else a + "-" + b + (if c != "" then "-" + c else "")) == a + b + c
  {
    if b == "" {
      KeepDigitsOfDigits(a);
      assert a + b + c == a;
    } else if c == "" {
      DashJoinDigits(a, b);
      assert a + "-" + b + "" == a + "-" + b;
      assert a + b + c == a + b;
    } else {
      DashJoinDigits(a, b);
      DashJoinDigits("", c);
      assert "" + "-" + c == "-" + c;
      assert "" + c == c;
      KeepDigitsConcat(a + "-" + b, "-" + c);
    }
  }

  /** Formatting never adds, drops or reorders a digit. */
  lemma PhoneKeepsDigits(value: string)
    ensures KeepDigits(FormatPhone(value)) == KeepDigits(value)
  {
    var d := KeepDigits(value);
    if |d| <= 10 {
      var g := Groups(d);
      GroupsAllDigits(d);
      DashedGroupsDigits(g.0, g.1, g.2);
    }
  }

  /** Re-formatting a formatted phone changes nothing. */
  lemma PhoneIdempotent(value: string)
    ensures FormatPhone(FormatPhone(value)) == FormatPhone(value)
  {
    PhoneKeepsDigits(value);
    PhoneGrouping(value);
    PhoneGrouping(FormatPhone(value));
  }

  /** Ten digits, however typed, come out in the validator's format. */
  lemma TenDigitsMatchPattern(value: string)
    requires |KeepDigits(value)| == 10
    ensures PhonePattern(FormatPhone(value))
  {
    var d := KeepDigits(value);
    PhoneGrouping(value);
    var r := FormatPhone(value);
    assert r[..3] == d[..3] && r[4..7] == d[3..6] && r[8..] == d[6..];
  }

  /** A string in the phone format holds exactly ten digits. */
  lemma PatternHasTenDigits(s: string)
    requires PhonePattern(s)
    ensures |KeepDigits(s)| == 10
  {
    assert s == s[..3] + "-" + s[4..7] + "-" + s[8..];
    KeepDigitsOfDigits(s[..3]);
    KeepDigitsOfDigits(s[4..7]);
    KeepDigitsOfDigits(s[8..]);
    DashesAreNotDigits();
    KeepDigitsConcat(s[..3], "-");
    KeepDigitsConcat(s[..3] + "-", s[4..7]);
    KeepDigitsConcat(s[..3] + "-" + s[4..7], "-");
    KeepDigitsConcat(s[..3] + "-" + s[4..7] + "-", s[8..]);
  }

  lemma {:induction false} KeepLettersOfLetters(s: string)
    requires forall i :: 0 <= i < |s| ==> IsLetter(s[i])
    ensures KeepLetters(s) == s
  {
    if s != [] {
      KeepLettersOfLetters(s[1..]);
    }
  }

  /** Re-formatting a formatted state or ZIP changes nothing. */
  lemma StateZipIdempotent(value: string)
    ensures FormatState(FormatState(value)) == FormatState(value)
    ensures FormatZip(FormatZip(value)) == FormatZip(value)
  {
    var s := FormatState(value);
    KeepLettersOfLetters(s);
    assert Upper(s) == s;
    KeepDigitsOfDigits(FormatZip(value));
  }

  // ---------------------------------------------------------------------------
  // validate / validateForm
  // ---------------------------------------------------------------------------

  datatype Field = Phone | State | Zip

  /** Which of the two forms is speaking; only the messages differ. */
  datatype Screen = ProfileScreen | AdminScreen

  function Message(screen: Screen, f: Field): string {
    match f
    case Phone => if screen == ProfileScreen then "Phone must be in xxx-xxx-xxxx format." else "Phone must be in XXX-XXX-XXXX format."
    case State => "State must be 2 capital letters."
    case Zip => if screen == ProfileScreen then "ZIP must be 5 numbers." else "ZIP Code must be 5 numbers."
  }

  /** The error keys set, in the order the checks run; an empty field is
      never checked. */
  function ContactErrors(phone: string, state: string, zip: string): (errs: seq<Field>)
    ensures Phone in errs <==> phone != "" && !PhonePattern(phone)
    ensures State in errs <==> state != "" && !StatePattern(state)
    ensures Zip in errs <==> zip != "" && !ZipPattern(zip)
    ensures |errs| <= 3
  {
    (if phone != "" && !PhonePattern(phone) then [Phone] else [])
    + (if state != "" && !StatePattern(state) then [State] else [])
    + (if zip != "" && !ZipPattern(zip) then [Zip] else [])
  }

  /** The form is valid when no field has an error. */
  function Validate(phone: string, state: string, zip: string): (ok: bool)
    ensures ok <==> (phone == "" || PhonePattern(phone)) && (state == "" || StatePattern(state)) && (zip == "" || ZipPattern(zip))
  {
    |ContactErrors(phone, state, zip)| == 0
  }

  /** Empty contact fields always pass. */
  lemma EmptyFieldsPass()
    ensures Validate("", "", "")
  {
  }

  /** A value typed through the formatters fails only when it is
      incomplete: a phone with some but not ten digits, a single state
      letter, a ZIP with one to four digits. */
  lemma FormattedFailsIffIncomplete(phoneTyped: string, stateTyped: string, zipTyped: string)
    ensures var errs := ContactErrors(FormatPhone(phoneTyped), FormatState(stateTyped), FormatZip(zipTyped));
      && (Phone in errs <==> |KeepDigits(phoneTyped)| != 0 && |KeepDigits(phoneTyped)| != 10)
      && (State in errs <==> |KeepLetters(stateTyped)| == 1)
      && (Zip in errs <==> 0 < |KeepDigits(zipTyped)| < 5)
  {
    var p := FormatPhone(phoneTyped);
    var d := KeepDigits(phoneTyped);
    PhoneGrouping(phoneTyped);
    PhoneKeepsDigits(phoneTyped);
    if |d| == 10 {
      TenDigitsMatchPattern(phoneTyped);
    } else if PhonePattern(p) {
      PatternHasTenDigits(p);
    }
  }
}

=== FILE: employee_form.dfy ===
/** The admin's add/edit employee dialog: how it is filled in, what it
    sends, and where. */
module EmployeeForm {
  import opened Basics

  /** An employee as the list hands it to the dialog; text columns may be
      NULL. */
  datatype Employee = Employee(employeeId: nat, firstName: Option<string>, lastName: Option<string>,
                               jobTitle: Option<string>, email: Option<string>, username: Option<string>)

  datatype Form = Form(firstName: string, lastName: string, jobTitle: string, email: string,
                       username: string, password: string)

  /** The JSON body; `password` absent means "leave the password as it is". */
  datatype Payload = Payload(firstName: string, lastName: string, jobTitle: string, email: string,
                             username: string, password: Option<string>)

  /** The dialog's first state: the employee's details (empty for NULL),
      or all empty when adding; the password box always starts empty. */
  function InitialForm(employee: Option<Employee>): (f: Form)
    ensures f.password == ""
    ensures employee.None? ==> f == Form("", "", "", "", "", "")
    ensures employee.Some? ==>
      && f.firstName == employee.value.firstName.GetOr("")
      && f.username == employee.value.username.GetOr("")
  {
    match employee
    case None => Form("", "", "", "", "", "")
    case Some(e) => Form(e.firstName.GetOr(""), e.lastName.GetOr(""), e.jobTitle.GetOr(""),
                         e.email.GetOr(""), e.username.GetOr(""), "")
  }

  /** The form copied; when editing, an empty password is dropped. */
  function PayloadOf(f: Form, editing: bool): (p: Payload)
    ensures p.password.None? <==> editing && f.password == ""
    ensures p.password.Some? ==> p.password.value == f.password
    ensures p.(password := None) == Payload(f.firstName, f.lastName, f.jobTitle, f.email, f.username, None)
  {
    Payload(f.firstName, f.lastName, f.jobTitle, f.email, f.username,
            if editing && f.password == "" then None else Some(f.password))
  }

  datatype Request = Request(verb: string, url: string, body: Payload)

  const EmployeesUrl := "http://localhost:3001/api/admin/employees"

  /** handleSubmit: PUT to the employee's own URL when editing, POST to the
      collection when adding. */
  function SaveRequest(employee: Option<Employee>, f: Form): (r: Request)
    ensures r.verb == "PUT" <==> employee.Some?
    ensures r.verb == "PUT" || r.verb == "POST"
    ensures r.body == PayloadOf(f, employee.Some?)
  {
    match employee
    case Some(e) => Request("PUT", EmployeesUrl + "/" + NatToString(e.employeeId), PayloadOf(f, true))
    case None => Request("POST", EmployeesUrl, PayloadOf(f, false))
  }

  /** Opening an employee and saving at once sends their own details back to
      their own URL, and leaves the password alone. */
  lemma UntouchedEditSendsEmployee(e: Employee)
    ensures var r := SaveRequest(Some(e), InitialForm(Some(e)));
      && r.body == Payload(e.firstName.GetOr(""), e.lastName.GetOr(""), e.jobTitle.GetOr(""),
                           e.email.GetOr(""), e.username.GetOr(""), None)
      && StartsWith(r.url, EmployeesUrl + "/")
      && ParseNat(r.url[|EmployeesUrl + "/"|..]) == Some(e.employeeId)
  {
    var prefix := EmployeesUrl + "/";
    var url := prefix + NatToString(e.employeeId);
    assert url[..|prefix|] == prefix && url[|prefix|..] == NatToString(e.employeeId);
    ParseNatToString(e.employeeId);
  }

  /** Adding always sends a password, even an empty one; editing sends one
      only when something was typed. */
  lemma PasswordSentWhen(employee: Option<Employee>, f: Form)
    ensures SaveRequest(employee, f).body.password.Some? <==> employee.None? || f.password != ""
  {
  }
}

=== FILE: node_rentals.dfy ===
/** The rental handlers of the Node API: booking, customer return, deletion
    of a completed rental, and the admin return and maintenance transitions.
    Each runs its statements in one transaction; `fault` is the index of the
    statement the database rejects, if any. */
module NodeRentals {
  import opened Basics
  import opened Store
  import opened Pricing

  /** What the bearer-token middleware finds in the Authorization header.
      The customer and the admin middleware verify the signature only and
      never look at the role, so a valid token carries just the user id. */
  datatype Token = NoToken | BadToken | Valid(userId: nat)

  function Authenticate(token: Token): (r: Result<nat, Rejection>)
    ensures r.Ok? <==> token.Valid?
    ensures token.NoToken? ==> r == Err(Unauthenticated)
    ensures token.BadToken? ==> r == Err(Forbidden)
  {
    match token
    case NoToken => Err(Unauthenticated)
    case BadToken => Err(Forbidden)
    case Valid(id) => Ok(id)
  }

  // ---------------------------------------------------------------------------
  // POST /api/rentals/create
  // ---------------------------------------------------------------------------

  datatype BookingRequest = BookingRequest(carId: nat, pickup: int, due: int, addonIds: seq<nat>)

  /** One RentalAddons row per listed id, in list order. */
  function AddonRows(rentalId: nat, ids: seq<nat>): (rows: seq<RentalAddon>)
    ensures |rows| == |ids|
    ensures forall i :: 0 <= i < |ids| ==> rows[i] == RentalAddon(rentalId, ids[i])
  {
    seq(|ids|, i requires 0 <= i < |ids| => RentalAddon(rentalId, ids[i]))
  }

  function BookingCharge(db: Db, req: BookingRequest): real
    requires req.carId in db.cars
  {
    BookingTotal(db.cars[req.carId].dailyRate, req.pickup, req.due, db.addons, req.addonIds)
  }

  function BookingWrites(db: Db, customerId: nat, req: BookingRequest): (ws: seq<Write>)
    requires req.carId in db.cars
    ensures |ws| == if |req.addonIds| > 0 then 4 else 3
  {
    var id := db.nextRentalId;
    var total := BookingCharge(db, req);
    [InsertRental(Rental(customerId, req.carId, req.pickup, Some(req.due), None, Some(total), None, None))]
    + (if |req.addonIds| > 0 then [InsertRentalAddons(AddonRows(id, req.addonIds))] else [])
    + [InsertPayment(Payment(id, total, req.pickup, "Card on File")), SetCarStatus(req.carId, Rented)]
  }

  /** When the database accepts every booking statement: the car and the
      customer exist, every add-on id is in the catalogue, and the next
      keys are free. The car's status is not among the conditions. */
  predicate BookingAccepted(db: Db, customerId: nat, req: BookingRequest) {
    && req.carId in db.cars
    && customerId in db.customers
    && db.nextRentalId !in db.rentals
    && db.nextPaymentId !in db.payments
    && (forall a :: a in req.addonIds ==> a in db.addons)
  }

  /** The database a committed booking leaves: one new rental (no return
      date, the charged total), its add-on rows, one payment of the same
      amount dated at pickup, the car marked Rented, and nothing else. */
  predicate Booked(db: Db, after: Db, customerId: nat, req: BookingRequest)
    requires req.carId in db.cars
  {
    var id := db.nextRentalId;
    var total := BookingCharge(db, req);
    after == db.(
      rentals := db.rentals[id := Rental(customerId, req.carId, req.pickup, Some(req.due), None, Some(total), None, None)],
      rentalAddons := db.rentalAddons + AddonRows(id, req.addonIds),
      payments := db.payments[db.nextPaymentId := Payment(id, total, req.pickup, "Card on File")],
      cars := db.cars[req.carId := db.cars[req.carId].(status := Rented)],
      nextRentalId := id + 1,
      nextPaymentId := db.nextPaymentId + 1)
  }

  lemma AddonRowsKnown(db: Db, rentalId: nat, ids: seq<nat>)
    requires rentalId in db.rentals
    ensures RowsReferenceKnown(db, AddonRows(rentalId, ids)) <==> forall a :: a in ids ==> a in db.addons
  {
    var rows := AddonRows(rentalId, ids);
    if forall a :: a in ids ==> a in db.addons {
      forall x | x in rows ensures x.rentalId in db.rentals && x.addonId in db.addons {
        var i :| 0 <= i < |rows| && rows[i] == x;
        assert ids[i] in ids;
      }
    }
    if RowsReferenceKnown(db, rows) {
      forall a | a in ids ensures a in db.addons {
        var i :| 0 <= i < |ids| && ids[i] == a;
        assert rows[i] in rows;
      }
    }
  }

  /** The optional add-on statement of a booking. */
  lemma AddonStepRun(d: Db, rentalId: nat, ids: seq<nat>)
    requires rentalId in d.rentals
    ensures var mid := if |ids| > 0 then [InsertRentalAddons(AddonRows(rentalId, ids))] else [];
      Exec(d, mid, None) ==
        if forall a :: a in ids ==> a in d.addons
        then Some(d.(rentalAddons := d.rentalAddons + AddonRows(rentalId, ids)))
        else None
  {
    if |ids| > 0 {
      ExecOne(d, InsertRentalAddons(AddonRows(rentalId, ids)));
      AddonRowsKnown(d, rentalId, ids);
    } else {
      assert AddonRows(rentalId, ids) == [];
      assert d.rentalAddons + [] == d.rentalAddons;
    }
  }

  lemma PaymentStepRun(d: Db, p: Payment)
    requires p.rentalId in d.rentals
    ensures Apply(d, InsertPayment(p)) ==
      if d.nextPaymentId in d.payments then None
      else Some(d.(payments := d.payments[d.nextPaymentId := p], nextPaymentId := d.nextPaymentId + 1))
  {
  }

  lemma StatusStepRun(d: Db, carId: nat, s: CarStatus)
    ensures Apply(d, SetCarStatus(carId, s)) == Some(d.(cars := WithCarStatus(d.cars, carId, s)))
  {
  }

  /** The payment and the status flip that close a booking. */
  lemma PayAndFlipRun(d: Db, p: Payment, carId: nat)
    requires p.rentalId in d.rentals && carId in d.cars
    ensures Exec(d, [InsertPayment(p), SetCarStatus(carId, Rented)], None) ==
      if d.nextPaymentId in d.payments then None
      else Some(d.(payments := d.payments[d.nextPaymentId := p], nextPaymentId := d.nextPaymentId + 1,
                   cars := d.cars[carId := d.cars[carId].(status := Rented)]))
  {
    ExecTwo(d, InsertPayment(p), SetCarStatus(carId, Rented));
    PaymentStepRun(d, p);
    if d.nextPaymentId !in d.payments {
      StatusStepRun(Apply(d, InsertPayment(p)).value, carId, Rented);
    }
  }

  lemma RentalStepRun(d: Db, r: Rental)
    ensures Apply(d, InsertRental(r)) ==
      if d.nextRentalId in d.rentals || r.carId !in d.cars || r.customerId !in d.customers then None
      else Some(d.(rentals := d.rentals[d.nextRentalId := r], nextRentalId := d.nextRentalId + 1))
  {
  }

  /** The three steps of a committed booking, composed, leave the booked
      database. */
  lemma BookedAfterSteps(db: Db, customerId: nat, req: BookingRequest, d1: Db, d2: Db, d3: Db)
    requires req.carId in db.cars
    requires d1 == db.(rentals := db.rentals[db.nextRentalId := Rental(customerId, req.carId, req.pickup, Some(req.due),
                                               None, Some(BookingCharge(db, req)), None, None)],
                       nextRentalId := db.nextRentalId + 1)
    requires d2 == d1.(rentalAddons := d1.rentalAddons + AddonRows(db.nextRentalId, req.addonIds))
    requires d3 == d2.(payments := d2.payments[d2.nextPaymentId := Payment(db.nextRentalId, BookingCharge(db, req), req.pickup, "Card on File")],
                       nextPaymentId := d2.nextPaymentId + 1,
                       cars := d2.cars[req.carId := d2.cars[req.carId].(status := Rented)])
    ensures Booked(db, d3, customerId, req)
  {
  }

  lemma BookingWritesRun(db: Db, customerId: nat, req: BookingRequest)
    requires req.carId in db.cars
    ensures Exec(db, BookingWrites(db, customerId, req), None).Some? <==> BookingAccepted(db, customerId, req)
    ensures Exec(db, BookingWrites(db, customerId, req), None).Some? ==>
      Booked(db, Exec(db, BookingWrites(db, customerId, req), None).value, customerId, req)
  {
    var id := db.nextRentalId;
    var total := BookingCharge(db, req);
    var ins := InsertRental(Rental(customerId, req.carId, req.pickup, Some(req.due), None, Some(total), None, None));
    var rows := AddonRows(id, req.addonIds);
    var mid := if |req.addonIds| > 0 then [InsertRentalAddons(rows)] else [];
    var tail := [InsertPayment(Payment(id, total, req.pickup, "Card on File")), SetCarStatus(req.carId, Rented)];
    assert BookingWrites(db, customerId, req) == [ins] + (mid + tail);
    ExecAppend(db, [ins], mid + tail);
    ExecOne(db, ins);
    RentalStepRun(db, ins.rental);
    if Apply(db, ins).Some? {
      var d1 := Apply(db, ins).value;
      ExecAppend(d1, mid, tail);
      AddonStepRun(d1, id, req.addonIds);
      if forall a :: a in req.addonIds ==> a in db.addons {
        var d2 := d1.(rentalAddons := d1.rentalAddons + rows);
        PayAndFlipRun(d2, Payment(id, total, req.pickup, "Card on File"), req.carId);
        if d2.nextPaymentId !in d2.payments {
          BookedAfterSteps(db, customerId, req, d1, d2, Exec(d2, tail, None).value);
        }
      }
    }
  }

  /** Books a car for the token's customer. */
  function CreateRental(db: Db, token: Token, req: BookingRequest, fault: Option<nat>): (r: Response<nat>)
    ensures token.NoToken? ==> r == Response(db, Err(Unauthenticated))
    ensures token.BadToken? ==> r == Response(db, Err(Forbidden))
    ensures token.Valid? && req.carId !in db.cars ==> r == Response(db, Err(RolledBack))
    ensures r.reply.Err? ==> r.db == db
    ensures r.reply.Ok? <==>
      token.Valid? && BookingAccepted(db, token.userId, req) && !Hits(fault, if |req.addonIds| > 0 then 4 else 3)
    ensures r.reply.Ok? ==> r.reply.value == db.nextRentalId && Booked(db, r.db, token.userId, req)
  {
    match Authenticate(token)
    case Err(why) => Reject(db, why)
    case Ok(customerId) =>
      if req.carId !in db.cars then Response(db, Err(RolledBack))
      else
        var ws := BookingWrites(db, customerId, req);
        BookingWritesRun(db, customerId, req);
        ExecFault(db, ws, fault);
        Commit(db, ws, fault, db.nextRentalId)
  }

  /** Booking never consults the car's status: a rented or serviced car is
      booked again exactly as an available one would be. */
  lemma BookingIgnoresCarStatus(db: Db, token: Token, req: BookingRequest, fault: Option<nat>, s: CarStatus)
    requires req.carId in db.cars
    ensures var other := db.(cars := db.cars[req.carId := db.cars[req.carId].(status := s)]);
      CreateRental(db, token, req, fault).reply == CreateRental(other, token, req, fault).reply
  {
    var other := db.(cars := db.cars[req.carId := db.cars[req.carId].(status := s)]);
    if token.Valid? {
      assert BookingAccepted(db, token.userId, req) <==> BookingAccepted(other, token.userId, req);
    }
  }

  // ---------------------------------------------------------------------------
  // PUT /api/rentals/return-by-customer/:rentalId
  // ---------------------------------------------------------------------------

  /** The flat early-return fee: charged iff today is before the due date
      (a missing due date never charges). */
  function EarlyReturnFee(due: Option<int>, today: int): (fee: real)
    ensures fee == 25.0 || fee == 0.0
    ensures fee == 25.0 <==> due.Some? && today < due.value
  {
    if due.Some? && today < due.value then 25.0 else 0.0
  }

  function CustomerReturnWrites(rental: Rental, rentalId: nat, today: int): (ws: seq<Write>)
    ensures |ws| == if EarlyReturnFee(rental.due, today) > 0.0 then 3 else 2
  {
    var fee := EarlyReturnFee(rental.due, today);
    (if fee > 0.0 then [SetLateFee(rentalId, fee)] else [])
    + [SetCarStatus(rental.carId, Available), SetReturnDate(rentalId, today)]
  }

  /** The database a committed return leaves: the rental dated today (and
      charged the fee when early), its car marked Available, nothing else. */
  predicate ReturnedByCustomer(db: Db, after: Db, rentalId: nat, today: int)
    requires rentalId in db.rentals
  {
    var rental := db.rentals[rentalId];
    var fee := EarlyReturnFee(rental.due, today);
    after == db.(
      rentals := db.rentals[rentalId := rental.(returnDate := Some(today),
                                                 lateFee := if fee > 0.0 then Some(fee) else rental.lateFee)],
      cars := WithCarStatus(db.cars, rental.carId, Available))
  }

  /** The status flip and the return date that both return handlers write. */
  lemma FreeCarAndDateRun(d: Db, carId: nat, rentalId: nat, today: int)
    requires rentalId in d.rentals
    ensures Exec(d, [SetCarStatus(carId, Available), SetReturnDate(rentalId, today)], None) ==
      Some(d.(cars := WithCarStatus(d.cars, carId, Available),
              rentals := d.rentals[rentalId := d.rentals[rentalId].(returnDate := Some(today))]))
  {
    ExecTwo(d, SetCarStatus(carId, Available), SetReturnDate(rentalId, today));
  }

  lemma LateFeeStepRun(d: Db, rentalId: nat, fee: real)
    requires rentalId in d.rentals
    ensures Apply(d, SetLateFee(rentalId, fee)) ==
      Some(d.(rentals := d.rentals[rentalId := d.rentals[rentalId].(lateFee := Some(fee))]))
  {
  }

  /** The fee step (when early) followed by the shared steps leaves the
      returned database. */
  lemma ReturnedAfterSteps(db: Db, rentalId: nat, today: int, d1: Db, after: Db)
    requires rentalId in db.rentals
    requires var rental := db.rentals[rentalId];
      var fee := EarlyReturnFee(rental.due, today);
      d1 == if fee > 0.0 then db.(rentals := db.rentals[rentalId := rental.(lateFee := Some(fee))]) else db
    requires after == d1.(cars := WithCarStatus(d1.cars, db.rentals[rentalId].carId, Available),
                          rentals := d1.rentals[rentalId := d1.rentals[rentalId].(returnDate := Some(today))])
    ensures ReturnedByCustomer(db, after, rentalId, today)
  {
  }

  lemma CustomerReturnWritesRun(db: Db, rentalId: nat, today: int)
    requires rentalId in db.rentals
    ensures Exec(db, CustomerReturnWrites(db.rentals[rentalId], rentalId, today), None).Some?
    ensures ReturnedByCustomer(db, Exec(db, CustomerReturnWrites(db.rentals[rentalId], rentalId, today), None).value,
                               rentalId, today)
  {
    var rental := db.rentals[rentalId];
    var fee := EarlyReturnFee(rental.due, today);
    var tail := [SetCarStatus(rental.carId, Available), SetReturnDate(rentalId, today)];
    var d1 := if fee > 0.0 then db.(rentals := db.rentals[rentalId := rental.(lateFee := Some(fee))]) else db;
    if fee > 0.0 {
      var charge := SetLateFee(rentalId, fee);
      assert CustomerReturnWrites(rental, rentalId, today) == [charge] + tail;
      ExecAppend(db, [charge], tail);
      ExecOne(db, charge);
      LateFeeStepRun(db, rentalId, fee);
    } else {
      assert CustomerReturnWrites(rental, rentalId, today) == tail;
    }
    FreeCarAndDateRun(d1, rental.carId, rentalId, today);
    ReturnedAfterSteps(db, rentalId, today, d1, Exec(d1, tail, None).value);
  }

  /** Returns one of the caller's rentals, whether or not it is still
      active; the reply is the fee applied. */
  function ReturnByCustomer(db: Db, token: Token, rentalId: nat, today: int, fault: Option<nat>): (r: Response<real>)
    ensures token.NoToken? ==> r == Response(db, Err(Unauthenticated))
    ensures token.BadToken? ==> r == Response(db, Err(Forbidden))
    ensures token.Valid? && rentalId !in db.rentals ==> r == Response(db, Err(NotFound))
    ensures token.Valid? && rentalId in db.rentals && db.rentals[rentalId].customerId != token.userId ==>
      r == Response(db, Err(Forbidden))
    ensures r.reply.Err? ==> r.db == db
    ensures r.reply.Ok? <==>
      && token.Valid? && rentalId in db.rentals && db.rentals[rentalId].customerId == token.userId
      && !Hits(fault, if EarlyReturnFee(db.rentals[rentalId].due, today) > 0.0 then 3 else 2)
    ensures r.reply.Ok? ==>
      && r.reply.value == EarlyReturnFee(db.rentals[rentalId].due, today)
      && ReturnedByCustomer(db, r.db, rentalId, today)
  {
    match Authenticate(token)
    case Err(why) => Reject(db, why)
    case Ok(customerId) =>
      if rentalId !in db.rentals then Reject(db, NotFound)
      else if db.rentals[rentalId].customerId != customerId then Reject(db, Forbidden)
      else
        var rental := db.rentals[rentalId];
        var ws := CustomerReturnWrites(rental, rentalId, today);
        CustomerReturnWritesRun(db, rentalId, today);
        ExecFault(db, ws, fault);
        Commit(db, ws, fault, EarlyReturnFee(rental.due, today))
  }

  /** The handler does not require the rental to be active: a completed
      rental is returned again and its return date overwritten. */
  lemma ReturnTwiceOverwrites(db: Db, customerId: nat, rentalId: nat, first: int, second: int)
    requires rentalId in db.rentals && db.rentals[rentalId].customerId == customerId
    ensures var r1 := ReturnByCustomer(db, Valid(customerId), rentalId, first, None);
      && r1.reply.Ok?
      && var r2 := ReturnByCustomer(r1.db, Valid(customerId), rentalId, second, None);
      && r2.reply.Ok?
      && r2.db.rentals[rentalId].returnDate == Some(second)
  {
    var r1 := ReturnByCustomer(db, Valid(customerId), rentalId, first, None);
    assert r1.db.rentals[rentalId].customerId == customerId;
  }

  // ---------------------------------------------------------------------------
  // DELETE /api/rentals/:rentalId
  // ---------------------------------------------------------------------------

  function DeletionWrites(rentalId: nat): seq<Write> {
    [DeleteRentalAddonsOf(rentalId), DeletePaymentsOf(rentalId), DeleteRental(rentalId)]
  }

  /** Once a rental's add-on and payment rows are gone, the rental row
      itself can be deleted. */
  lemma DeleteRentalStepRun(d: Db, rentalId: nat)
    requires forall x :: x in d.rentalAddons ==> x.rentalId != rentalId
    requires forall k :: k in d.payments ==> d.payments[k].rentalId != rentalId
    ensures Apply(d, DeleteRental(rentalId)) == Some(d.(rentals := d.rentals - {rentalId}))
  {
  }

  lemma DeletionWritesRun(db: Db, rentalId: nat)
    ensures Exec(db, DeletionWrites(rentalId), None) ==
      Some(db.(rentals := db.rentals - {rentalId},
               rentalAddons := AddonsOtherThan(db.rentalAddons, rentalId),
               payments := PaymentsOtherThan(db.payments, rentalId)))
  {
    var d1 := db.(rentalAddons := AddonsOtherThan(db.rentalAddons, rentalId));
    var d2 := d1.(payments := PaymentsOtherThan(d1.payments, rentalId));
    assert Apply(db, DeleteRentalAddonsOf(rentalId)) == Some(d1);
    assert Apply(d1, DeletePaymentsOf(rentalId)) == Some(d2);
    DeleteRentalStepRun(d2, rentalId);
    ExecThree(db, DeleteRentalAddonsOf(rentalId), DeletePaymentsOf(rentalId), DeleteRental(rentalId));
    ExecTwo(d1, DeletePaymentsOf(rentalId), DeleteRental(rentalId));
  }

  /** Deletes one of the caller's completed rentals together with its
      add-on and payment rows. */
  function DeleteRentalRecord(db: Db, token: Token, rentalId: nat, fault: Option<nat>): (r: Response<()>)
    ensures token.NoToken? ==> r == Response(db, Err(Unauthenticated))
    ensures token.BadToken? ==> r == Response(db, Err(Forbidden))
    ensures token.Valid? && (rentalId !in db.rentals || db.rentals[rentalId].Active()) ==>
      r == Response(db, Err(NotFound))
    ensures token.Valid? && rentalId in db.rentals && !db.rentals[rentalId].Active() ==>
      (db.rentals[rentalId].customerId != token.userId ==> r == Response(db, Err(Forbidden)))
    ensures r.reply.Err? ==> r.db == db
    ensures r.reply.Ok? <==>
      && token.Valid? && rentalId in db.rentals && !db.rentals[rentalId].Active()
      && db.rentals[rentalId].customerId == token.userId && !Hits(fault, 3)
    ensures r.reply.Ok? ==>
      r.db == db.(rentals := db.rentals - {rentalId},
                  rentalAddons := AddonsOtherThan(db.rentalAddons, rentalId),
                  payments := PaymentsOtherThan(db.payments, rentalId))
  {
    match Authenticate(token)
    case Err(why) => Reject(db, why)
    case Ok(customerId) =>
      if rentalId !in db.rentals || db.rentals[rentalId].Active() then Reject(db, NotFound)
      else if db.rentals[rentalId].customerId != customerId then Reject(db, Forbidden)
      else
        DeletionWritesRun(db, rentalId);
        ExecFault(db, DeletionWrites(rentalId), fault);
        Commit(db, DeletionWrites(rentalId), fault, ())
  }

  /** Every other rental survives a deletion unchanged. */
  lemma DeletionSparesOthers(db: Db, token: Token, rentalId: nat, fault: Option<nat>, k: nat)
    requires k in db.rentals && k != rentalId
    ensures var r := DeleteRentalRecord(db, token, rentalId, fault);
      k in r.db.rentals && r.db.rentals[k] == db.rentals[k]
  {
  }

  // ---------------------------------------------------------------------------
  // PUT /api/admin/rentals/return/:rental_id
  // ---------------------------------------------------------------------------

  function AdminReturnWrites(rental: Rental, rentalId: nat, today: int): seq<Write> {
    [SetCarStatus(rental.carId, Available), SetReturnDate(rentalId, today)]
  }

  /** Marks any rental returned today and its car Available; an unknown
      rental aborts the transaction. */
  function AdminReturn(db: Db, token: Token, rentalId: nat, today: int, fault: Option<nat>): (r: Response<()>)
    ensures token.NoToken? ==> r == Response(db, Err(Unauthenticated))
    ensures token.BadToken? ==> r == Response(db, Err(Forbidden))
    ensures r.reply.Err? ==> r.db == db
    ensures r.reply.Ok? <==> token.Valid? && rentalId in db.rentals && !Hits(fault, 2)
    ensures r.reply.Ok? ==>
      r.db == db.(cars := WithCarStatus(db.cars, db.rentals[rentalId].carId, Available),
                  rentals := db.rentals[rentalId := db.rentals[rentalId].(returnDate := Some(today))])
  {
    match Authenticate(token)
    case Err(why) => Reject(db, why)
    case Ok(_) =>
      if rentalId !in db.rentals then Response(db, Err(RolledBack))
      else
        var ws := AdminReturnWrites(db.rentals[rentalId], rentalId, today);
        FreeCarAndDateRun(db, db.rentals[rentalId].carId, rentalId, today);
        ExecFault(db, ws, fault);
        Commit(db, ws, fault, ())
  }

  // ---------------------------------------------------------------------------
  // POST /api/admin/maintenance and PUT /api/admin/maintenance/complete/:id
  // ---------------------------------------------------------------------------

  datatype MaintenanceRequest = MaintenanceRequest(
    carId: nat,
    serviceDate: int,
    serviceType: string,
    cost: Option<real>,
    notes: Option<string>,
    mileage: int)

  /** A missing or zero cost is stored as NULL. */
  function CostOrNull(cost: Option<real>): (r: Option<real>)
    ensures r.Some? <==> cost.Some? && cost.value != 0.0
    ensures r.Some? ==> r == cost
  {
    if cost == Some(0.0) then None else cost
  }

  /** Missing or empty notes are stored as NULL. */
  function NotesOrNull(notes: Option<string>): (r: Option<string>)
    ensures r.Some? <==> notes.Some? && notes.value != ""
    ensures r.Some? ==> r == notes
  {
    if notes == Some("") then None else notes
  }

  function OpenRecord(req: MaintenanceRequest): MaintenanceRecord {
    MaintenanceRecord(req.carId, req.serviceDate, req.serviceType, CostOrNull(req.cost), NotesOrNull(req.notes), None)
  }

  function ScheduleWrites(req: MaintenanceRequest): seq<Write> {
    [InsertMaintenance(OpenRecord(req)), SendCarToService(req.carId, req.mileage)]
  }

  lemma ScheduleWritesRun(db: Db, req: MaintenanceRequest)
    ensures Exec(db, ScheduleWrites(req), None).Some? <==>
      req.carId in db.cars && db.nextMaintenanceId !in db.maintenance
    ensures Exec(db, ScheduleWrites(req), None).Some? ==>
      Exec(db, ScheduleWrites(req), None).value ==
        db.(maintenance := db.maintenance[db.nextMaintenanceId := OpenRecord(req)],
            nextMaintenanceId := db.nextMaintenanceId + 1,
            cars := db.cars[req.carId := db.cars[req.carId].(status := Maintenance, mileage := req.mileage)])
  {
    var ws := ScheduleWrites(req);
    assert ws == [ws[0]] + [ws[1]];
    ExecAppend(db, [ws[0]], [ws[1]]);
    ExecOne(db, ws[0]);
    if Apply(db, ws[0]).Some? {
      ExecOne(Apply(db, ws[0]).value, ws[1]);
    }
  }

  /** Opens a maintenance record and takes the car out of service with the
      reported mileage, whatever the car's current status. */
  function ScheduleMaintenance(db: Db, token: Token, req: MaintenanceRequest, fault: Option<nat>): (r: Response<()>)
    ensures token.NoToken? ==> r == Response(db, Err(Unauthenticated))
    ensures token.BadToken? ==> r == Response(db, Err(Forbidden))
    ensures r.reply.Err? ==> r.db == db
    ensures r.reply.Ok? <==>
      token.Valid? && req.carId in db.cars && db.nextMaintenanceId !in db.maintenance && !Hits(fault, 2)
    ensures r.reply.Ok? ==>
      && r.db.maintenance == db.maintenance[db.nextMaintenanceId := OpenRecord(req)]
      && r.db.maintenance[db.nextMaintenanceId].completion.None?
      && r.db.cars == db.cars[req.carId := db.cars[req.carId].(status := Maintenance, mileage := req.mileage)]
      && r.db == db.(maintenance := r.db.maintenance, nextMaintenanceId := db.nextMaintenanceId + 1, cars := r.db.cars)
  {
    match Authenticate(token)
    case Err(why) => Reject(db, why)
    case Ok(_) =>
      ScheduleWritesRun(db, req);
      ExecFault(db, ScheduleWrites(req), fault);
      Commit(db, ScheduleWrites(req), fault, ())
  }

  function CompletionWrites(record: MaintenanceRecord, maintenanceId: nat, today: int): seq<Write> {
    [CloseMaintenance(maintenanceId, today), SetCarStatus(record.carId, Available)]
  }

  lemma CompletionWritesRun(db: Db, maintenanceId: nat, today: int)
    requires maintenanceId in db.maintenance
    ensures Exec(db, CompletionWrites(db.maintenance[maintenanceId], maintenanceId, today), None) ==
      Some(db.(maintenance := db.maintenance[maintenanceId := db.maintenance[maintenanceId].(completion := Some(today))],
               cars := WithCarStatus(db.cars, db.maintenance[maintenanceId].carId, Available)))
  {
    var ws := CompletionWrites(db.maintenance[maintenanceId], maintenanceId, today);
    assert ws == [ws[0]] + [ws[1]];
    ExecAppend(db, [ws[0]], [ws[1]]);
    ExecOne(db, ws[0]);
    ExecOne(Apply(db, ws[0]).value, ws[1]);
  }

  /** Closes a maintenance record today and returns its car to service; an
      unknown record aborts the transaction. */
  function CompleteMaintenance(db: Db, token: Token, maintenanceId: nat, today: int, fault: Option<nat>): (r: Response<()>)
    ensures token.NoToken? ==> r == Response(db, Err(Unauthenticated))
    ensures token.BadToken? ==> r == Response(db, Err(Forbidden))
    ensures r.reply.Err? ==> r.db == db
    ensures r.reply.Ok? <==> token.Valid? && maintenanceId in db.maintenance && !Hits(fault, 2)
    ensures r.reply.Ok? ==>
      r.db == db.(maintenance := db.maintenance[maintenanceId := db.maintenance[maintenanceId].(completion := Some(today))],
                  cars := WithCarStatus(db.cars, db.maintenance[maintenanceId].carId, Available))
  {
    match Authenticate(token)
    case Err(why) => Reject(db, why)
    case Ok(_) =>
      if maintenanceId !in db.maintenance then Response(db, Err(RolledBack))
      else
        var ws := CompletionWrites(db.maintenance[maintenanceId], maintenanceId, today);
        CompletionWritesRun(db, maintenanceId, today);
        ExecFault(db, ws, fault);
        Commit(db, ws, fault, ())
  }
}

=== FILE: php_rentals.dfy ===
/** The PHP admin's rental transactions: a customer renting a car on the
    spot, and an employee finalising a return with its charge and payment. */
module PhpRentals {
  import opened Basics
  import opened Store
  import opened Pricing
  import opened PhpSession

  // ---------------------------------------------------------------------------
  // actions/rent_car.php
  // ---------------------------------------------------------------------------

  function RentWrites(customerId: nat, carId: nat, today: int): seq<Write> {
    [InsertRental(Rental(customerId, carId, today, None, None, None, None, None)), SetCarStatus(carId, Rented)]
  }

  /** The rental opened by the script: picked up today, with no due date,
      return date, cost or fee. */
  function WalkInRental(customerId: nat, carId: nat, today: int): (r: Rental)
    ensures r.Active() && r.pickup == today && r.totalCost.None? && r.lateFee.None?
  {
    Rental(customerId, carId, today, None, None, None, None, None)
  }

  lemma RentWritesRun(db: Db, customerId: nat, carId: nat, today: int)
    ensures Exec(db, RentWrites(customerId, carId, today), None).Some? <==>
      carId in db.cars && customerId in db.customers && db.nextRentalId !in db.rentals
    ensures Exec(db, RentWrites(customerId, carId, today), None).Some? ==>
      Exec(db, RentWrites(customerId, carId, today), None).value ==
        db.(rentals := db.rentals[db.nextRentalId := WalkInRental(customerId, carId, today)],
            nextRentalId := db.nextRentalId + 1,
            cars := db.cars[carId := db.cars[carId].(status := Rented)])
  {
    var ins := InsertRental(WalkInRental(customerId, carId, today));
    ExecTwo(db, ins, SetCarStatus(carId, Rented));
    if Apply(db, ins).Some? {
      var d1 := db.(rentals := db.rentals[db.nextRentalId := ins.rental], nextRentalId := db.nextRentalId + 1);
      assert Apply(db, ins) == Some(d1);
      assert Apply(d1, SetCarStatus(carId, Rented)) == Some(d1.(cars := WithCarStatus(d1.cars, carId, Rented)));
    }
  }

  /** Rents the car named by the `car_id` parameter to the session's
      customer, whatever the car's status. */
  function RentCar(db: Db, session: Session, carParam: Option<string>, today: int, fault: Option<nat>): (r: Response<()>)
    ensures session.role != Some("customer") ==> r == Response(db, Err(Unauthenticated))
    ensures session.role == Some("customer") && (!Truthy(carParam) || !HasCustomer(session)) ==>
      r == Response(db, Err(BadRequest))
    ensures r.reply.Err? ==> r.db == db
    ensures r.reply.Ok? <==>
      && session.role == Some("customer") && Truthy(carParam) && HasCustomer(session)
      && ParseNat(carParam.value).Some?
      && ParseNat(carParam.value).value in db.cars
      && session.customerId.value in db.customers
      && db.nextRentalId !in db.rentals
      && !Hits(fault, 2)
    ensures r.reply.Ok? ==>
      var carId := ParseNat(carParam.value).value;
      r.db == db.(rentals := db.rentals[db.nextRentalId := WalkInRental(session.customerId.value, carId, today)],
                  nextRentalId := db.nextRentalId + 1,
                  cars := db.cars[carId := db.cars[carId].(status := Rented)])
  {
    if session.role != Some("customer") then Reject(db, Unauthenticated)
    else if !Truthy(carParam) || !HasCustomer(session) then Reject(db, BadRequest)
    else match ParseNat(carParam.value)
      case None => Response(db, Err(RolledBack))
      case Some(carId) =>
        var ws := RentWrites(session.customerId.value, carId, today);
        RentWritesRun(db, session.customerId.value, carId, today);
        ExecFault(db, ws, fault);
        Commit(db, ws, fault, ())
  }

  /** A car already out on rent or in service is rented again: the outcome
      does not depend on the car's status. */
  lemma RentCarIgnoresStatus(db: Db, session: Session, carParam: Option<string>, today: int, fault: Option<nat>, s: CarStatus)
    requires Truthy(carParam) && ParseNat(carParam.value).Some? && ParseNat(carParam.value).value in db.cars
    ensures var carId := ParseNat(carParam.value).value;
      var other := db.(cars := db.cars[carId := db.cars[carId].(status := s)]);
      RentCar(db, session, carParam, today, fault).reply == RentCar(other, session, carParam, today, fault).reply
  {
  }

  // ---------------------------------------------------------------------------
  // actions/return_rental.php
  // ---------------------------------------------------------------------------

  /** The charge the script computes from the rental's car and the clock. */
  function ReturnCharge(db: Db, rentalId: nat, now: Clock): (charge: (real, real))
    requires ValidClock(now) && rentalId in db.rentals && db.rentals[rentalId].carId in db.cars
  {
    var rental := db.rentals[rentalId];
    var rate := db.cars[rental.carId].dailyRate;
    (ReturnTotal(rate, now, rental.pickup), LateFee(rate, now, rental.pickup))
  }

  function ReturnWrites(rentalId: nat, carId: nat, now: Clock, total: real, fee: real): seq<Write> {
    [FinaliseRental(rentalId, now.day, total, fee),
     SetCarStatus(carId, Available),
     InsertPayment(Payment(rentalId, total + fee, now.day, "Credit Card"))]
  }

  /** The database a committed return leaves: the rental finalised today
      with its total and fee, the named car Available, one payment of
      total plus fee, and nothing else. */
  function Finalised(db: Db, rentalId: nat, carId: nat, now: Clock, total: real, fee: real): Db
    requires rentalId in db.rentals
  {
    db.(rentals := db.rentals[rentalId := db.rentals[rentalId].(returnDate := Some(now.day), totalCost := Some(total),
                                                               lateFee := Some(fee))],
        cars := WithCarStatus(db.cars, carId, Available),
        payments := db.payments[db.nextPaymentId := Payment(rentalId, total + fee, now.day, "Credit Card")],
        nextPaymentId := db.nextPaymentId + 1)
  }

  lemma ReturnWritesRun(db: Db, rentalId: nat, carId: nat, now: Clock, total: real, fee: real)
    requires rentalId in db.rentals
    ensures Exec(db, ReturnWrites(rentalId, carId, now, total, fee), None) ==
      if db.nextPaymentId in db.payments then None else Some(Finalised(db, rentalId, carId, now, total, fee))
  {
    var fin := FinaliseRental(rentalId, now.day, total, fee);
    var flip := SetCarStatus(carId, Available);
    var pay := InsertPayment(Payment(rentalId, total + fee, now.day, "Credit Card"));
    ExecThree(db, fin, flip, pay);
    var d1 := db.(rentals := db.rentals[rentalId := db.rentals[rentalId].(returnDate := Some(now.day),
                                                                          totalCost := Some(total), lateFee := Some(fee))]);
    assert Apply(db, fin) == Some(d1);
    ExecTwo(d1, flip, pay);
    var d2 := d1.(cars := WithCarStatus(d1.cars, carId, Available));
    assert Apply(d1, flip) == Some(d2);
    assert d2.payments == db.payments && d2.nextPaymentId == db.nextPaymentId;
    assert rentalId in d2.rentals;
    if db.nextPaymentId !in db.payments {
      var d3 := d2.(payments := d2.payments[d2.nextPaymentId := Payment(rentalId, total + fee, now.day, "Credit Card")],
                    nextPaymentId := d2.nextPaymentId + 1);
      assert Apply(d2, pay) == Some(d3);
      assert d3 == Finalised(db, rentalId, carId, now, total, fee);
    }
  }

  /** Finalises a rental for an employee; the reply is the total and the
      late fee charged. The rental need not be active, and the car made
      Available is the one the request names. */
  function ReturnRental(db: Db, session: Session, rentalParam: Option<string>, carParam: Option<string>,
                        now: Clock, fault: Option<nat>): (r: Response<(real, real)>)
    requires ValidClock(now)
    ensures session.role != Some("employee") ==> r == Response(db, Err(Unauthenticated))
    ensures session.role == Some("employee") && (!Truthy(rentalParam) || !Truthy(carParam)) ==>
      r == Response(db, Err(BadRequest))
    ensures r.reply.Err? ==> r.db == db
    ensures r.reply.Ok? <==>
      && session.role == Some("employee") && Truthy(rentalParam) && Truthy(carParam)
      && ParseNat(rentalParam.value).Some? && ParseNat(carParam.value).Some?
      && ParseNat(rentalParam.value).value in db.rentals
      && db.rentals[ParseNat(rentalParam.value).value].carId in db.cars
      && db.nextPaymentId !in db.payments
      && !Hits(fault, 3)
    ensures r.reply.Ok? ==>
      var rentalId := ParseNat(rentalParam.value).value;
      && r.reply.value == ReturnCharge(db, rentalId, now)
      && r.db == Finalised(db, rentalId, ParseNat(carParam.value).value, now, r.reply.value.0, r.reply.value.1)
  {
    if session.role != Some("employee") then Reject(db, Unauthenticated)
    else if !Truthy(rentalParam) || !Truthy(carParam) then Reject(db, BadRequest)
    else match (ParseNat(rentalParam.value), ParseNat(carParam.value))
      case (Some(rentalId), Some(carId)) =>
        if rentalId !in db.rentals || db.rentals[rentalId].carId !in db.cars then Response(db, Err(RolledBack))
        else
          var charge := ReturnCharge(db, rentalId, now);
          var ws := ReturnWrites(rentalId, carId, now, charge.0, charge.1);
          ReturnWritesRun(db, rentalId, carId, now, charge.0, charge.1);
          ExecFault(db, ws, fault);
          Commit(db, ws, fault, charge)
      case _ => Response(db, Err(RolledBack))
  }

  /** The script as it stands. `\Decimal\Decimal` has no `plus` method
      (line 62) and its `mul` accepts no float (line 46). The PHP `Error`
      these raise is not an `Exception`, so the catch block at lines 70-73
      never sees it. The script dies, and the open transaction goes with the
      connection. Only the two UPDATEs can fail inside the try and roll back. */
  function ReturnRentalAsWritten(db: Db, session: Session, rentalParam: Option<string>, carParam: Option<string>,
                                 now: Clock, fault: Option<nat>): (r: Response<(real, real)>)
    requires ValidClock(now)
    ensures r.db == db && r.reply.Err?
    ensures session.role != Some("employee") ==> r.reply == Err(Unauthenticated)
    ensures session.role == Some("employee") && (!Truthy(rentalParam) || !Truthy(carParam)) ==>
      r.reply == Err(BadRequest)
    ensures r.reply == Err(Crashed) <==>
      && session.role == Some("employee") && Truthy(rentalParam) && Truthy(carParam)
      && ParseNat(rentalParam.value).Some? && ParseNat(carParam.value).Some?
      && ParseNat(rentalParam.value).value in db.rentals
      && db.rentals[ParseNat(rentalParam.value).value].carId in db.cars
      && (AfterPickup(now, db.rentals[ParseNat(rentalParam.value).value].pickup) || !Hits(fault, 2))
  {
    if session.role != Some("employee") then Reject(db, Unauthenticated)
    else if !Truthy(rentalParam) || !Truthy(carParam) then Reject(db, BadRequest)
    else match (ParseNat(rentalParam.value), ParseNat(carParam.value))
      case (Some(rentalId), Some(carId)) =>
        if rentalId !in db.rentals || db.rentals[rentalId].carId !in db.cars then Response(db, Err(RolledBack))
        else if AfterPickup(now, db.rentals[rentalId].pickup) then Response(db, Err(Crashed))
        else if Hits(fault, 2) then Response(db, Err(RolledBack))
        else Response(db, Err(Crashed))
      case _ => Response(db, Err(RolledBack))
  }

  /** Whenever the intended return would commit, the script as written
      crashes instead: the rental stays open, the car keeps its status and
      the payment the intended return records is never inserted. */
  lemma ReturnAsWrittenNeverPays(db: Db, session: Session, rentalParam: Option<string>, carParam: Option<string>,
                                 now: Clock, fault: Option<nat>)
    requires ValidClock(now)
    requires ReturnRental(db, session, rentalParam, carParam, now, fault).reply.Ok?
    ensures var written := ReturnRentalAsWritten(db, session, rentalParam, carParam, now, fault);
      var intended := ReturnRental(db, session, rentalParam, carParam, now, fault);
      && written == Response(db, Err(Crashed))
      && db.nextPaymentId !in written.db.payments
      && db.nextPaymentId in intended.db.payments
  {
  }

  /** The single payment recorded is the total plus the late fee. */
  lemma ReturnPaymentAmount(db: Db, session: Session, rentalParam: Option<string>, carParam: Option<string>,
                            now: Clock, fault: Option<nat>)
    requires ValidClock(now)
    requires ReturnRental(db, session, rentalParam, carParam, now, fault).reply.Ok?
    ensures var r := ReturnRental(db, session, rentalParam, carParam, now, fault);
      var rental := db.rentals[ParseNat(rentalParam.value).value];
      var rate := db.cars[rental.carId].dailyRate;
      && r.db.payments.Keys == db.payments.Keys + {db.nextPaymentId}
      && r.db.payments[db.nextPaymentId].amount == ReturnTotal(rate, now, rental.pickup) + LateFee(rate, now, rental.pickup)
  {
  }

  /** Nothing stops a second return of the same rental: it is finalised
      again and a second payment is recorded. */
  lemma ReturnTwiceChargesTwice(db: Db, session: Session, rentalParam: Option<string>, carParam: Option<string>,
                                now: Clock, later: Clock)
    requires ValidClock(now) && ValidClock(later) && KeysBelowCounters(db)
    requires ReturnRental(db, session, rentalParam, carParam, now, None).reply.Ok?
    ensures var first := ReturnRental(db, session, rentalParam, carParam, now, None);
      var second := ReturnRental(first.db, session, rentalParam, carParam, later, None);
      var rentalId := ParseNat(rentalParam.value).value;
      && second.reply.Ok?
      && second.db.payments[db.nextPaymentId].rentalId == rentalId
      && second.db.payments[db.nextPaymentId + 1].rentalId == rentalId
  {
    var first := ReturnRental(db, session, rentalParam, carParam, now, None);
    assert first.db.nextPaymentId == db.nextPaymentId + 1;
    assert db.nextPaymentId + 1 !in first.db.payments;
  }

  /** The car put back in service is the request's `car_id`; when that is
      not the rental's car, the rental's car keeps its status. */
  lemma ReturnFreesNamedCar(db: Db, session: Session, rentalParam: Option<string>, carParam: Option<string>,
                            now: Clock, fault: Option<nat>)
    requires ValidClock(now)
    requires ReturnRental(db, session, rentalParam, carParam, now, fault).reply.Ok?
    ensures var r := ReturnRental(db, session, rentalParam, carParam, now, fault);
      var carId := ParseNat(carParam.value).value;
      var own := db.rentals[ParseNat(rentalParam.value).value].carId;
      && (carId in db.cars ==> r.db.cars[carId].status == Available)
      && (own != carId ==> r.db.cars[own] == db.cars[own])
  {
  }
}

=== FILE: php_session.dfy ===
/** The PHP session values the admin scripts consult. */
module PhpSession {
  import opened Basics

  /** The session's user role and customer id; either may be unset. */
  datatype Session = Session(role: Option<string>, customerId: Option<nat>)

  predicate IsEmployee(s: Session) { s.role == Some("employee") }

  predicate IsCustomer(s: Session) { s.role == Some("customer") }

  /** A session customer id counts only when set and nonzero. */
  predicate HasCustomer(s: Session) { s.customerId.Some? && s.customerId.value != 0 }
}

=== FILE: pricing.dfy ===
/** Money arithmetic of both stacks, on exact reals with dates as day
    numbers: the Node booking charge, the SQL add-on sum, the PHP return
    finalisation, and the active-rental estimate. */
module Pricing {
  import opened Basics

  // ---------------------------------------------------------------------------
  // Node booking charge
  // ---------------------------------------------------------------------------

  /** The days from pickup to due on whole-day dates, at least one. */
  function RentalDays(pickup: int, due: int): (days: int)
    ensures days >= 1
    ensures due - pickup >= 1 ==> days == due - pickup
    ensures due - pickup < 1 ==> days == 1
  {
    Max(1, due - pickup)
  }

  /** Any date range that is not at least one day long costs exactly one day. */
  lemma SameDayCostsOneDay(d: int)
    ensures RentalDays(d, d) == 1
  {
  }

  // ---------------------------------------------------------------------------
  // The add-on total the server looks up
  // ---------------------------------------------------------------------------

  /** The distinct catalogue ids named in the list. */
  function KnownIds(catalogue: map<nat, real>, ids: seq<nat>): set<nat> {
    set x | x in ids && x in catalogue
  }

  ghost function Pick(s: set<nat>): nat
    requires s != {}
  {
    var x :| x in s; x
  }

  /** Reference definition: the sum of the prices of a set of catalogue ids. */
  ghost function SetSum(catalogue: map<nat, real>, s: set<nat>): real
    requires s <= catalogue.Keys
    decreases |s|
  {
    if s == {} then 0.0
    else
      var x := Pick(s);
      catalogue[x] + SetSum(catalogue, s - {x})
  }

  lemma {:induction false} SetSumRemove(catalogue: map<nat, real>, s: set<nat>, y: nat)
    requires s <= catalogue.Keys && y in s
    ensures SetSum(catalogue, s) == catalogue[y] + SetSum(catalogue, s - {y})
    decreases |s|
  {
    var x := Pick(s);
    if x != y {
      SetSumRemove(catalogue, s - {x}, y);
      SetSumRemove(catalogue, s - {y}, x);
      assert s - {x} - {y} == s - {y} - {x};
    }
  }

  /** Sums the price of each id's first occurrence, skipping ids already
      counted (`seen`) and ids the catalogue does not hold. */
  function SumFirstOccurrences(catalogue: map<nat, real>, ids: seq<nat>, seen: set<nat>): real
    decreases |ids|
  {
    if ids == [] then 0.0
    else if ids[0] in seen || ids[0] !in catalogue then SumFirstOccurrences(catalogue, ids[1..], seen)
    else catalogue[ids[0]] + SumFirstOccurrences(catalogue, ids[1..], seen + {ids[0]})
  }

  /** What the booking adds for its add-ons: each matching catalogue row
      once, whatever the list's order or repetitions. An all-unknown or
      empty list adds 0 (the source skips a NULL or zero SUM). */
  function AddonTotal(catalogue: map<nat, real>, ids: seq<nat>): real {
    SumFirstOccurrences(catalogue, ids, {})
  }

  lemma {:induction false} SumFirstOccurrencesIsSetSum(catalogue: map<nat, real>, ids: seq<nat>, seen: set<nat>)
    ensures SumFirstOccurrences(catalogue, ids, seen) == SetSum(catalogue, KnownIds(catalogue, ids) - seen)
    decreases |ids|
  {
    if ids == [] {
      assert KnownIds(catalogue, ids) - seen == {};
    } else {
      var x := ids[0];
      var rest := ids[1..];
      assert KnownIds(catalogue, ids) == (if x in catalogue then {x} else {}) + KnownIds(catalogue, rest) by {
        assert forall y :: y in ids <==> y == x || y in rest;
      }
      if x in seen || x !in catalogue {
        assert KnownIds(catalogue, ids) - seen == KnownIds(catalogue, rest) - seen;
        SumFirstOccurrencesIsSetSum(catalogue, rest, seen);
      } else {
        var s := KnownIds(catalogue, ids) - seen;
        assert x in s;
        SetSumRemove(catalogue, s, x);
        assert s - {x} == KnownIds(catalogue, rest) - (seen + {x});
        SumFirstOccurrencesIsSetSum(catalogue, rest, seen + {x});
      }
    }
  }

  /** The add-on sum is the reference sum over the distinct known ids. */
  lemma AddonTotalIsSetSum(catalogue: map<nat, real>, ids: seq<nat>)
    ensures AddonTotal(catalogue, ids) == SetSum(catalogue, KnownIds(catalogue, ids))
  {
    SumFirstOccurrencesIsSetSum(catalogue, ids, {});
    assert KnownIds(catalogue, ids) - {} == KnownIds(catalogue, ids);
  }

  /** Order and repetition of the selected add-ons never change the charge. */
  lemma AddonTotalOrderIndependent(catalogue: map<nat, real>, a: seq<nat>, b: seq<nat>)
    requires forall x :: x in a <==> x in b
    ensures AddonTotal(catalogue, a) == AddonTotal(catalogue, b)
  {
    AddonTotalIsSetSum(catalogue, a);
    AddonTotalIsSetSum(catalogue, b);
    assert KnownIds(catalogue, a) == KnownIds(catalogue, b);
  }

  /** Node booking: the rental days times the daily rate, plus the add-on sum. */
  function BookingTotal(dailyRate: real, pickup: int, due: int, catalogue: map<nat, real>, ids: seq<nat>): real {
    RentalDays(pickup, due) as real * dailyRate + AddonTotal(catalogue, ids)
  }

  // ---------------------------------------------------------------------------
  // PHP return finalisation
  // ---------------------------------------------------------------------------

  /** The server's wall clock: a day number and the second within that day. */
  datatype Clock = Clock(day: int, second: nat)

  predicate ValidClock(now: Clock) { now.second < 86400 }

  /** The whole days between the clock reading and midnight of the pickup
      day, rounded down. */
  function WholeDaysApart(now: Clock, pickup: int): (d: nat)
    requires ValidClock(now)
    ensures now.day >= pickup ==> d == now.day - pickup
    ensures now.day < pickup ==> d == pickup - now.day || (now.second > 0 && d == pickup - now.day - 1)
  {
    if now.day >= pickup then now.day - pickup
    else if now.second == 0 then pickup - now.day
    else pickup - now.day - 1
  }

  /** The clock is past midnight of the pickup day. */
  predicate AfterPickup(now: Clock, pickup: int) {
    now.day > pickup || (now.day == pickup && now.second > 0)
  }

  function ReturnDays(now: Clock, pickup: int): (days: nat)
    requires ValidClock(now)
    ensures days >= 1
    ensures now.day > pickup ==> days == now.day - pickup
    ensures now.day == pickup ==> days == 1
    ensures now.day < pickup ==> days == if now.second == 0 then pickup - now.day else Max(1, pickup - now.day - 1)
  {
    Max(1, WholeDaysApart(now, pickup))
  }

  /** total_cost written on return: the daily rate times the whole days
      between the clock and midnight of the pickup day, at least one. A
      clock before the pickup day counts the days up to it, since the date
      difference is taken without sign. */
  function ReturnTotal(dailyRate: real, now: Clock, pickup: int): (total: real)
    requires ValidClock(now)
    ensures now.day > pickup ==> total == dailyRate * (now.day - pickup) as real
    ensures now.day == pickup ==> total == dailyRate
    ensures now.day < pickup && now.second == 0 ==> total == dailyRate * (pickup - now.day) as real
    ensures now.day < pickup && now.second > 0 ==> total == dailyRate * Max(1, pickup - now.day - 1) as real
    ensures dailyRate >= 0.0 ==> total >= dailyRate
  {
    dailyRate * ReturnDays(now, pickup) as real
  }

  /** late_fee written on return: a quarter of the daily rate for every
      whole day since pickup; measured from the pickup date (the PHP rentals
      carry no due date). */
  function LateFee(dailyRate: real, now: Clock, pickup: int): (fee: real)
    requires ValidClock(now)
    ensures now.day > pickup ==> fee == dailyRate * 0.25 * (now.day - pickup) as real
    ensures now.day <= pickup ==> fee == 0.0
  {
    if AfterPickup(now, pickup) then dailyRate * 0.25 * WholeDaysApart(now, pickup) as real else 0.0
  }

  /** The fee is never due on the pickup day itself and grows with each day. */
  lemma LateFeeMonotone(dailyRate: real, pickup: int, a: Clock, b: Clock)
    requires ValidClock(a) && ValidClock(b) && dailyRate >= 0.0 && a.day <= b.day
    ensures LateFee(dailyRate, a, pickup) <= LateFee(dailyRate, b, pickup)
  {
  }

  // ---------------------------------------------------------------------------
  // Active-rental estimate (Node)
  // ---------------------------------------------------------------------------

  /** The days rented so far plus one, at least one, times the daily rate;
      days rented (today minus pickup in days) counts as 0 when unknown. */
  function EstimatedCost(daysRented: Option<int>, dailyRate: real): real {
    Max(1, daysRented.GetOr(0) + 1) as real * dailyRate
  }

  /** The estimate counts the pickup day and today both, so once a rental is
      a day or more old it exceeds the PHP return charge by one daily rate;
      on the pickup day the two agree. */
  lemma EstimateVersusReturnTotal(dailyRate: real, now: Clock, pickup: int)
    requires ValidClock(now) && now.day >= pickup
    ensures now.day > pickup ==>
      EstimatedCost(Some(now.day - pickup), dailyRate) == ReturnTotal(dailyRate, now, pickup) + dailyRate
    ensures now.day == pickup ==>
      EstimatedCost(Some(now.day - pickup), dailyRate) == ReturnTotal(dailyRate, now, pickup)
  {
  }
}

=== FILE: record_builders.dfy ===
/** The PHP admin's generic record writers: which posted columns an INSERT
    or an UPDATE writes, in what order, and which values it binds to its
    `?` placeholders. The statements are built, not executed. */
module RecordBuilders {
  import opened Basics
  import opened Schema
  import opened Store
  import opened Validation

  const ImageColumn := "image_path"

  /** What became of the posted car image: nothing usable posted, a file
      stored under a fresh name, or a move that failed. */
  datatype Upload = NoFile | Stored(fileName: string) | MoveFailed

  /** A stored file whose name PHP treats as true. */
  predicate NewImage(u: Upload) {
    u.Stored? && !PhpEmpty(u.fileName)
  }

  /** A posted column is written as NULL when empty, as posted otherwise. */
  function NullIfEmpty(v: string): (r: Option<string>)
    ensures r.None? <==> v == ""
    ensures r.Some? ==> r.value == v
  {
    if v == "" then None else Some(v)
  }

  /** The loop over the table's columns: every posted column other than the
      key and image_path, in list order. */
  function Written(cols: seq<string>, key: string, post: map<string, string>): (ws: seq<string>)
    ensures |ws| <= |cols|
    ensures forall c :: c in ws ==> c in post && c != ImageColumn
  {
    if cols == [] then []
    else
      var c := cols[0];
      (if c != key && c != ImageColumn && c in post then [c] else []) + Written(cols[1..], key, post)
  }

  /** A column is written iff it is listed, posted, and neither the key nor
      image_path. */
  lemma {:induction false} WrittenColumns(cols: seq<string>, key: string, post: map<string, string>, c: string)
    ensures c in Written(cols, key, post) <==> c in cols && c != key && c != ImageColumn && c in post
    decreases |cols|
  {
    if cols != [] {
      assert cols == [cols[0]] + cols[1..];
      WrittenColumns(cols[1..], key, post, c);
    }
  }

  /** The written columns keep the table's order. */
  lemma {:induction false} WrittenInOrder(cols: seq<string>, key: string, post: map<string, string>)
    ensures IsSubsequence(Written(cols, key, post), cols)
    decreases |cols|
  {
    if cols != [] {
      var c := cols[0];
      var rest := Written(cols[1..], key, post);
      WrittenInOrder(cols[1..], key, post);
      if c != key && c != ImageColumn && c in post {
        assert Written(cols, key, post) == [c] + rest;
        assert ([c] + rest)[1..] == rest;
      } else {
        assert Written(cols, key, post) == rest;
      }
    }
  }

  /** The value bound for each written column. */
  function ValuesFor(ws: seq<string>, post: map<string, string>): (vs: seq<Option<string>>)
    requires forall c :: c in ws ==> c in post
    ensures |vs| == |ws|
  {
    seq(|ws|, i requires 0 <= i < |ws| => NullIfEmpty(post[ws[i]]))
  }

  function ImageColumns(u: Upload): seq<string> {
    if NewImage(u) then [ImageColumn] else []
  }

  function ImageValues(u: Upload): seq<Option<string>> {
    if NewImage(u) then [Some(u.fileName)] else []
  }

  // ---------------------------------------------------------------------------
  // SQL text
  // ---------------------------------------------------------------------------

  function Placeholders(n: nat): (r: seq<string>)
    ensures |r| == n
  {
    if n == 0 then [] else ["?"] + Placeholders(n - 1)
  }

  function InsertSql(table: string, cols: seq<string>): string {
    "INSERT INTO `" + table + "` (" + Join(", ", Backticked(cols, "")) + ") VALUES (" + Join(", ", Placeholders(|cols|)) + ")"
  }

  function UpdateSql(table: string, cols: seq<string>, key: string): string {
    "UPDATE `" + table + "` SET " + Join(", ", Backticked(cols, " = ?")) + " WHERE `" + key + "` = ?"
  }

  lemma {:induction false} PlaceholdersMarks(n: nat)
    ensures CountEach(Placeholders(n), '?') == n
  {
    if n > 0 {
      assert Count("?", '?') == 1;
      assert Placeholders(n)[1..] == Placeholders(n - 1);
      PlaceholdersMarks(n - 1);
    }
  }

  lemma CountSeven(a: string, b: string, c: string, d: string, e: string, f: string, g: string, ch: char)
    ensures Count(a + b + c + d + e + f + g, ch) ==
      Count(a, ch) + Count(b, ch) + Count(c, ch) + Count(d, ch) + Count(e, ch) + Count(f, ch) + Count(g, ch)
  {
    CountAppend(a, b, ch);
    CountAppend(a + b, c, ch);
    CountAppend(a + b + c, d, ch);
    CountAppend(a + b + c + d, e, ch);
    CountAppend(a + b + c + d + e, f, ch);
    CountAppend(a + b + c + d + e + f, g, ch);
  }

  lemma InsertHeadPlain() ensures Count("INSERT INTO `", '?') == 0 {}
  lemma OpenListPlain() ensures Count("` (", '?') == 0 {}
  lemma ValuesPlain() ensures Count(") VALUES (", '?') == 0 {}
  lemma CloseListPlain() ensures Count(")", '?') == 0 {}
  lemma UpdateHeadPlain() ensures Count("UPDATE `", '?') == 0 {}
  lemma SetPlain() ensures Count("` SET ", '?') == 0 {}
  lemma WherePlain() ensures Count(" WHERE `", '?') == 0 {}
  lemma KeyMarkCounted() ensures Count("` = ?", '?') == 1 {}

  /** The fixed text around the INSERT's two lists holds no `?`. */
  lemma InsertFrame(table: string, names: string, marks: string)
    requires '?' !in table
    ensures Count("INSERT INTO `" + table + "` (" + names + ") VALUES (" + marks + ")", '?') ==
      Count(names, '?') + Count(marks, '?')
  {
    InsertHeadPlain();
    CountAbsent(table, '?');
    OpenListPlain();
    ValuesPlain();
    CloseListPlain();
    CountSeven("INSERT INTO `", table, "` (", names, ") VALUES (", marks, ")", '?');
  }

  /** The fixed text around the UPDATE's SET list holds one `?`, the key's. */
  lemma UpdateFrame(table: string, sets: string, key: string)
    requires '?' !in table && '?' !in key
    ensures Count("UPDATE `" + table + "` SET " + sets + " WHERE `" + key + "` = ?", '?') == Count(sets, '?') + 1
  {
    UpdateHeadPlain();
    CountAbsent(table, '?');
    SetPlain();
    WherePlain();
    CountAbsent(key, '?');
    KeyMarkCounted();
    CountSeven("UPDATE `", table, "` SET ", sets, " WHERE `", key, "` = ?", '?');
  }

  /** The INSERT text carries one `?` per written column. */
  lemma InsertSqlMarks(table: string, cols: seq<string>)
    requires '?' !in table && forall c :: c in cols ==> '?' !in c
    ensures Count(InsertSql(table, cols), '?') == |cols|
  {
    CountAbsent(", ", '?');
    BacktickedMarks(cols, "", '?');
    CountJoin(", ", Backticked(cols, ""), '?');
    PlaceholdersMarks(|cols|);
    CountJoin(", ", Placeholders(|cols|), '?');
    InsertFrame(table, Join(", ", Backticked(cols, "")), Join(", ", Placeholders(|cols|)));
  }

  /** The UPDATE text carries one `?` per SET column and one for the key. */
  lemma UpdateSqlMarks(table: string, cols: seq<string>, key: string)
    requires '?' !in table && '?' !in key && forall c :: c in cols ==> '?' !in c
    ensures Count(UpdateSql(table, cols, key), '?') == |cols| + 1
  {
    CountAbsent(", ", '?');
    BacktickedMarks(cols, " = ?", '?');
    assert Count(" = ?", '?') == 1;
    CountJoin(", ", Backticked(cols, " = ?"), '?');
    UpdateFrame(table, Join(", ", Backticked(cols, " = ?")), key);
  }

  // ---------------------------------------------------------------------------
  // The statements
  // ---------------------------------------------------------------------------

  /** A prepared statement with the columns it writes. */
  datatype Statement = Statement(columns: seq<string>, sql: string, values: seq<Option<string>>)

  /** create_record.php's field list: the written columns, then the image. */
  function InsertColumns(cols: seq<string>, key: string, post: map<string, string>, upload: Upload): seq<string> {
    Written(cols, key, post) + ImageColumns(upload)
  }

  function InsertValues(cols: seq<string>, key: string, post: map<string, string>, upload: Upload): seq<Option<string>> {
    ValuesFor(Written(cols, key, post), post) + ImageValues(upload)
  }

  /** update_record.php's SET list: the image, then the written columns. */
  function UpdateColumns(cols: seq<string>, key: string, post: map<string, string>, upload: Upload): seq<string> {
    ImageColumns(upload) + Written(cols, key, post)
  }

  /** The SET values, then the key's value for the WHERE clause. */
  function UpdateValues(cols: seq<string>, key: string, post: map<string, string>, upload: Upload,
                        keyValue: string): seq<Option<string>> {
    ImageValues(upload) + ValuesFor(Written(cols, key, post), post) + [Some(keyValue)]
  }

  function BuildInsert(table: string, cols: seq<string>, key: string, post: map<string, string>, upload: Upload): Statement {
    var fields := InsertColumns(cols, key, post, upload);
    Statement(fields, InsertSql(table, fields), InsertValues(cols, key, post, upload))
  }

  function BuildUpdate(table: string, cols: seq<string>, key: string, post: map<string, string>, upload: Upload,
                       keyValue: string): Statement {
    var sets := UpdateColumns(cols, key, post, upload);
    Statement(sets, UpdateSql(table, sets, key), UpdateValues(cols, key, post, upload, keyValue))
  }

  /** An INSERT writes each posted column other than the key and
      image_path, plus image_path last iff a new image was stored. */
  lemma InsertColumnsShape(cols: seq<string>, key: string, post: map<string, string>, upload: Upload, c: string)
    ensures var fields := InsertColumns(cols, key, post, upload);
      && (c in fields <==> (c in cols && c != key && c != ImageColumn && c in post) || (c == ImageColumn && NewImage(upload)))
      && (NewImage(upload) <==> |fields| > 0 && fields[|fields| - 1] == ImageColumn)
  {
    WrittenColumns(cols, key, post, c);
    var ws := Written(cols, key, post);
    if |ws| > 0 {
      assert ws[|ws| - 1] in ws;
    }
  }

  /** Each INSERT column has one value: its posted value, an empty string
      becoming NULL, or the stored file name for the image. */
  lemma InsertValuesShape(cols: seq<string>, key: string, post: map<string, string>, upload: Upload)
    ensures var fields, values := InsertColumns(cols, key, post, upload), InsertValues(cols, key, post, upload);
      && |values| == |fields|
      && (forall i :: 0 <= i < |fields| && fields[i] != ImageColumn ==>
            fields[i] in post && values[i] == NullIfEmpty(post[fields[i]]))
      && (NewImage(upload) ==> values[|values| - 1] == Some(upload.fileName))
  {
  }

  /** An UPDATE sets image_path first iff a new image was stored, then the
      posted columns other than the key. */
  lemma UpdateColumnsShape(cols: seq<string>, key: string, post: map<string, string>, upload: Upload, c: string)
    ensures var sets := UpdateColumns(cols, key, post, upload);
      && (c in sets <==> (c in cols && c != key && c != ImageColumn && c in post) || (c == ImageColumn && NewImage(upload)))
      && (NewImage(upload) <==> |sets| > 0 && sets[0] == ImageColumn)
  {
    WrittenColumns(cols, key, post, c);
    var ws := Written(cols, key, post);
    if |ws| > 0 {
      assert ws[0] in ws;
    }
  }

  /** An UPDATE binds one value per SET column, as the INSERT would, and
      the key's value last. */
  lemma UpdateValuesShape(cols: seq<string>, key: string, post: map<string, string>, upload: Upload, keyValue: string)
    ensures var sets, values := UpdateColumns(cols, key, post, upload), UpdateValues(cols, key, post, upload, keyValue);
      && |values| == |sets| + 1
      && values[|sets|] == Some(keyValue)
      && (forall i :: 0 <= i < |sets| && sets[i] != ImageColumn ==>
            sets[i] in post && values[i] == NullIfEmpty(post[sets[i]]))
      && (NewImage(upload) ==> values[0] == Some(upload.fileName))
  {
  }

  /** The INSERT text has one `?` per bound value. */
  lemma InsertPlaceholders(table: string, cols: seq<string>, key: string, post: map<string, string>, upload: Upload)
    requires '?' !in table && forall x :: x in cols ==> '?' !in x
    ensures var s := BuildInsert(table, cols, key, post, upload);
      Count(s.sql, '?') == |s.values| == |s.columns|
  {
    var fields := InsertColumns(cols, key, post, upload);
    forall x | x in fields ensures '?' !in x {
      WrittenColumns(cols, key, post, x);
    }
    InsertSqlMarks(table, fields);
  }

  /** The UPDATE text has one `?` per bound value, the key's included. */
  lemma UpdatePlaceholders(table: string, cols: seq<string>, key: string, post: map<string, string>, upload: Upload,
                           keyValue: string)
    requires '?' !in table && '?' !in key && forall x :: x in cols ==> '?' !in x
    ensures var s := BuildUpdate(table, cols, key, post, upload, keyValue);
      Count(s.sql, '?') == |s.values| == |s.columns| + 1
  {
    var sets := UpdateColumns(cols, key, post, upload);
    forall x | x in sets ensures '?' !in x {
      WrittenColumns(cols, key, post, x);
    }
    UpdateSqlMarks(table, sets, key);
  }

  /** For the same request an UPDATE sets the columns and values an INSERT
      would write, with the image moved from the back to the front. */
  lemma UpdateMirrorsInsert(cols: seq<string>, key: string, post: map<string, string>, upload: Upload, keyValue: string)
    ensures var ic, iv := InsertColumns(cols, key, post, upload), InsertValues(cols, key, post, upload);
      var uc, uv := UpdateColumns(cols, key, post, upload), UpdateValues(cols, key, post, upload, keyValue);
      && (NewImage(upload) ==>
            && uc == [ic[|ic| - 1]] + ic[..|ic| - 1]
            && uv == [iv[|iv| - 1]] + iv[..|iv| - 1] + [Some(keyValue)])
      && (!NewImage(upload) ==> uc == ic && uv == iv + [Some(keyValue)])
  {
    var ws := Written(cols, key, post);
    var vs := ValuesFor(ws, post);
    if NewImage(upload) {
      assert (ws + [ImageColumn])[..|ws|] == ws;
      assert (vs + [Some(upload.fileName)])[..|vs|] == vs;
    } else {
      assert ws + [] == ws;
      assert vs + [] == vs;
    }
  }

  /** Hence both statements write the same set of columns. */
  lemma UpdateSetsInsertColumns(cols: seq<string>, key: string, post: map<string, string>, upload: Upload)
    ensures multiset(UpdateColumns(cols, key, post, upload)) == multiset(InsertColumns(cols, key, post, upload))
  {
    var ws, img := Written(cols, key, post), ImageColumns(upload);
    assert multiset(img + ws) == multiset(img) + multiset(ws);
    assert multiset(ws + img) == multiset(ws) + multiset(img);
  }

  // ---------------------------------------------------------------------------
  // actions/create_record.php and actions/update_record.php
  // ---------------------------------------------------------------------------

  /** Where a request ends: redirected away, stopped with a message, sent
      back with errors, or with a statement ready to run. `KeyNotInteger`
      is the TypeError PHP raises when the posted key is not an
      integer-shaped string and so cannot be passed as validate_data's
      `int $recordId`. */
  datatype Outcome =
    | Redirected
    | BadTable
    | MissingKey
    | UploadFailed
    | KeyNotInteger
    | Invalid(errors: seq<ValidationError>)
    | Prepared(stmt: Statement)

  /** The table named by the posted `tableName`. */
  function PostedTable(post: map<string, string>): Option<Table> {
    Lookup(if "tableName" in post then post["tableName"] else "")
  }

  /** Only a POST from an employee session gets past the first guard. */
  predicate EmployeePost(isPost: bool, role: Option<string>) {
    isPost && role == Some("employee")
  }

  function CreateRecord(isPost: bool, role: Option<string>, post: map<string, string>, upload: Upload,
                        cars: map<nat, Car>, isEmail: string -> bool, parseDate: string -> Option<int>): (r: Outcome)
    ensures !EmployeePost(isPost, role) ==> r == Redirected
    ensures r == BadTable <==> EmployeePost(isPost, role) && PostedTable(post).None?
    ensures r == UploadFailed <==> EmployeePost(isPost, role) && PostedTable(post).Some? && upload.MoveFailed?
    ensures r.Invalid? ==>
      r.errors != [] && r.errors == ValidateData(PostedTable(post).value, post, cars, None, isEmail, parseDate)
    ensures r.Prepared? <==>
      && EmployeePost(isPost, role) && PostedTable(post).Some? && !upload.MoveFailed?
      && AllRulesPass(PostedTable(post).value, post, cars, None, isEmail, parseDate)
    ensures r.Prepared? ==>
      var t := PostedTable(post).value;
      r.stmt == BuildInsert(Name(t), Columns(t), PrimaryKey(t), post, upload)
    ensures !r.MissingKey? && !r.KeyNotInteger?
  {
    if !EmployeePost(isPost, role) then Redirected
    else match PostedTable(post)
      case None => BadTable
      case Some(t) =>
        if upload.MoveFailed? then UploadFailed
        else
          var errors := ValidateData(t, post, cars, None, isEmail, parseDate);
          if errors != [] then Invalid(errors)
          else Prepared(BuildInsert(Name(t), Columns(t), PrimaryKey(t), post, upload))
  }

  function UpdateRecord(isPost: bool, role: Option<string>, post: map<string, string>, upload: Upload,
                        cars: map<nat, Car>, isEmail: string -> bool, parseDate: string -> Option<int>): (r: Outcome)
    ensures !EmployeePost(isPost, role) ==> r == Redirected
    ensures r == BadTable <==> EmployeePost(isPost, role) && PostedTable(post).None?
    ensures r == MissingKey <==>
      && EmployeePost(isPost, role) && PostedTable(post).Some?
      && var key := PrimaryKey(PostedTable(post).value);
         key !in post || PhpEmpty(post[key])
    ensures r.Prepared? <==>
      && EmployeePost(isPost, role) && PostedTable(post).Some?
      && var key := PrimaryKey(PostedTable(post).value);
         && key in post && !PhpEmpty(post[key]) && !upload.MoveFailed? && PhpIntString(post[key]).Some?
         && AllRulesPass(PostedTable(post).value, post, cars, Some(PhpIntString(post[key]).value), isEmail, parseDate)
    ensures r == KeyNotInteger <==>
      && EmployeePost(isPost, role) && PostedTable(post).Some?
      && var key := PrimaryKey(PostedTable(post).value);
         key in post && !PhpEmpty(post[key]) && !upload.MoveFailed? && PhpIntString(post[key]).None?
    ensures r.Prepared? ==>
      var t := PostedTable(post).value;
      r.stmt == BuildUpdate(Name(t), Columns(t), PrimaryKey(t), post, upload, post[PrimaryKey(t)])
  {
    if !EmployeePost(isPost, role) then Redirected
    else match PostedTable(post)
      case None => BadTable
      case Some(t) =>
        var key := PrimaryKey(t);
        if key !in post || PhpEmpty(post[key]) then MissingKey
        else if upload.MoveFailed? then UploadFailed
        else match PhpIntString(post[key])
          case None => KeyNotInteger
          case Some(id) =>
            var errors := ValidateData(t, post, cars, Some(id), isEmail, parseDate);
            if errors != [] then Invalid(errors)
            else Prepared(BuildUpdate(Name(t), Columns(t), key, post, upload, post[key]))
  }

  /** Whatever the table, the INSERT a request prepares has exactly one
      `?` per bound value, so PDO's positional binding lines up. */
  lemma TableInsertBindsEveryMark(t: Table, post: map<string, string>, upload: Upload)
    ensures var s := BuildInsert(Name(t), Columns(t), PrimaryKey(t), post, upload);
      Count(s.sql, '?') == |s.values|
  {
    ColumnsPlain(t);
    NamePlain(t);
    InsertPlaceholders(Name(t), Columns(t), PrimaryKey(t), post, upload);
  }

  /** The same for the UPDATE, whose last `?` takes the key's value. */
  lemma TableUpdateBindsEveryMark(t: Table, post: map<string, string>, upload: Upload, keyValue: string)
    ensures var s := BuildUpdate(Name(t), Columns(t), PrimaryKey(t), post, upload, keyValue);
      Count(s.sql, '?') == |s.values|
  {
    ColumnsPlain(t);
    NamePlain(t);
    UpdatePlaceholders(Name(t), Columns(t), PrimaryKey(t), post, upload, keyValue);
  }

  /** The columns an INSERT writes, image aside, follow the table's column
      order and never include the primary key. */
  lemma InsertKeepsTableOrder(t: Table, post: map<string, string>, upload: Upload)
    ensures var fields := InsertColumns(Columns(t), PrimaryKey(t), post, upload);
      var ws := Written(Columns(t), PrimaryKey(t), post);
      && fields[..|ws|] == ws
      && IsSubsequence(ws, Columns(t))
      && PrimaryKey(t) !in fields
  {
    var ws := Written(Columns(t), PrimaryKey(t), post);
    WrittenInOrder(Columns(t), PrimaryKey(t), post);
    WrittenColumns(Columns(t), PrimaryKey(t), post, PrimaryKey(t));
    assert (ws + ImageColumns(upload))[..|ws|] == ws;
  }
}

=== FILE: rental_flow.dfy ===
/** The customer's four-step booking screen: the running estimate, the
    step gating, the add-on picker, the booking request, the receipt's
    split, and the card typing and masking used when a new card is saved.
    Dates are whole day numbers (a date input parses to midnight UTC, so
    the difference is a whole number of days); money is exact. */
module RentalFlow {
  import opened Basics
  import opened Pricing

  // ---------------------------------------------------------------------------
  // The estimate (calculateCost)
  // ---------------------------------------------------------------------------

  /** An add-on as the catalogue endpoint lists it. */
  datatype Addon = Addon(addonId: nat, name: string, price: real)

  /** The prices of the selected add-ons, summed. */
  function AddonSum(addons: seq<Addon>): real {
    if addons == [] then 0.0 else addons[0].price + AddonSum(addons[1..])
  }

  /** The estimate shown on the dates step. An empty date input, a car not
      yet loaded, or a return date not after the pickup all show 0;
      otherwise the days (at least one) times the rate, plus the add-ons. */
  function CalculateCost(pickup: Option<int>, due: Option<int>, dailyRate: Option<real>, addons: seq<Addon>): (cost: real)
    ensures pickup.None? || due.None? || dailyRate.None? ==> cost == 0.0
    ensures pickup.Some? && due.Some? && due.value <= pickup.value ==> cost == 0.0
  {
    if pickup.None? || due.None? || dailyRate.None? then 0.0
    else if due.value <= pickup.value then 0.0
    else RentalDays(pickup.value, due.value) as real * dailyRate.value + AddonSum(addons)
  }

  /** With valid dates the estimate is the whole days between them times the
      rate, plus the add-ons; with non-negative prices and a positive rate
      it is positive exactly then. */
  lemma EstimateOfValidRange(pickup: int, due: int, dailyRate: real, addons: seq<Addon>)
    requires pickup < due
    ensures CalculateCost(Some(pickup), Some(due), Some(dailyRate), addons)
         == (due - pickup) as real * dailyRate + AddonSum(addons)
  {
  }

  /** Where the two stacks part: a same-day or reversed range shows 0 here,
      while the server would charge one day for it. */
  lemma ClientZeroWhereServerChargesOneDay(pickup: int, due: int, dailyRate: real,
                                           catalogue: map<nat, real>, ids: seq<nat>)
    requires due <= pickup
    ensures CalculateCost(Some(pickup), Some(due), Some(dailyRate), []) == 0.0
    ensures BookingTotal(dailyRate, pickup, due, catalogue, ids) == dailyRate + AddonTotal(catalogue, ids)
  {
  }

  // ---------------------------------------------------------------------------
  // Steps
  // ---------------------------------------------------------------------------

  /** The buttons of the four steps: Proceed on the dates and add-on steps,
      Agree and Decline on the agreement, Back on the add-on and payment
      steps. `Agree` carries the terms checkbox as it stood when pressed:
      the button is disabled while the box is unticked, and the box starts
      unticked each time the agreement step is shown. */
  datatype Action = Proceed | Agree(ticked: bool) | Decline | Back

  /** The step after a button press, given the estimate at that moment;
      a button a step does not show changes nothing. */
  function NextStep(step: nat, action: Action, totalCost: real): (next: nat)
    ensures step == 1 && next == 2 <==> step == 1 && action == Proceed && totalCost > 0.0
    ensures step == 2 && next == 3 <==> step == 2 && action == Agree(true)
    ensures next == 3 ==> step == 3 || (step == 2 && action == Agree(true)) || (step == 4 && action == Back)
    ensures next == 4 ==> step == 4 || (step == 3 && action == Proceed)
  {
    match (step, action)
    case (1, Proceed) => if totalCost > 0.0 then 2 else 1
    case (2, Agree(ticked)) => if ticked then 3 else 2
    case (2, Decline) => 1
    case (3, Proceed) => 4
    case (3, Back) => 2
    case (4, Back) => 3
    case _ => step
  }

  /** Presses in order, each with the estimate shown when it happened. */
  function Run(step: nat, presses: seq<(Action, real)>): nat
    decreases |presses|
  {
    if presses == [] then step else Run(NextStep(step, presses[0].0, presses[0].1), presses[1..])
  }

  /** Whether some press in the trace leaves the dates step with a positive
      estimate. */
  predicate LeftDatesWithCost(step: nat, presses: seq<(Action, real)>)
    decreases |presses|
  {
    if presses == [] then false
    else
      || (step == 1 && presses[0].0 == Proceed && presses[0].1 > 0.0)
      || LeftDatesWithCost(NextStep(step, presses[0].0, presses[0].1), presses[1..])
  }

  /** Starting on the dates step, the flow only ever moves on after a
      Proceed pressed while the estimate was positive. */
  lemma {:induction false} LeavingDatesNeedsCost(step: nat, presses: seq<(Action, real)>)
    requires step == 1
    ensures Run(step, presses) != 1 ==> LeftDatesWithCost(step, presses)
    decreases |presses|
  {
    if presses != [] {
      var next := NextStep(step, presses[0].0, presses[0].1);
      if next == 1 {
        LeavingDatesNeedsCost(next, presses[1..]);
      }
    }
  }

  /** Whether some press in the trace is Agree on the agreement step with
      the terms box ticked. */
  predicate AgreedOnTheWay(step: nat, presses: seq<(Action, real)>)
    decreases |presses|
  {
    if presses == [] then false
    else
      || (step == 2 && presses[0].0 == Agree(true))
      || AgreedOnTheWay(NextStep(step, presses[0].0, presses[0].1), presses[1..])
  }

  /** Starting before the add-on step, the flow reaches the add-ons or the
      payment only through an Agree pressed with the terms box ticked. */
  lemma {:induction false} AddonsNeedAgreement(step: nat, presses: seq<(Action, real)>)
    requires step == 1 || step == 2
    ensures Run(step, presses) >= 3 ==> AgreedOnTheWay(step, presses)
    decreases |presses|
  {
    if presses != [] {
      var next := NextStep(step, presses[0].0, presses[0].1);
      if next == 1 || next == 2 {
        AddonsNeedAgreement(next, presses[1..]);
      }
    }
  }

  // ---------------------------------------------------------------------------
  // The add-on picker (handleToggle)
  // ---------------------------------------------------------------------------

  predicate HasAddon(selected: seq<Addon>, id: nat) {
    exists a :: a in selected && a.addonId == id
  }

  /** The selection without every add-on of the given id. */
  function WithoutAddon(selected: seq<Addon>, id: nat): (r: seq<Addon>)
    ensures forall a :: a in r <==> a in selected && a.addonId != id
    ensures |r| <= |selected|
  {
    if selected == [] then []
    else (if selected[0].addonId == id then [] else [selected[0]]) + WithoutAddon(selected[1..], id)
  }

  /** A click removes every selected add-on with that id if there is one,
      and appends the add-on otherwise. */
  function ToggleAddon(selected: seq<Addon>, addon: Addon): (r: seq<Addon>)
    ensures HasAddon(r, addon.addonId) <==> !HasAddon(selected, addon.addonId)
    ensures forall a: Addon :: a.addonId != addon.addonId ==> (a in r <==> a in selected)
  {
    if HasAddon(selected, addon.addonId) then WithoutAddon(selected, addon.addonId)
    else
      assert addon in selected + [addon];
      selected + [addon]
  }

  predicate UniqueIds(selected: seq<Addon>) {
    forall i, j :: 0 <= i < j < |selected| ==> selected[i].addonId != selected[j].addonId
  }

  lemma {:induction false} WithoutAddonUnique(selected: seq<Addon>, id: nat)
    requires UniqueIds(selected)
    ensures UniqueIds(WithoutAddon(selected, id))
    decreases |selected|
  {
    if selected != [] {
      var rest := WithoutAddon(selected[1..], id);
      WithoutAddonUnique(selected[1..], id);
      if selected[0].addonId != id {
        var r := [selected[0]] + rest;
        forall i, j | 0 <= i < j < |r| ensures r[i].addonId != r[j].addonId {
          if i == 0 {
            assert r[j] in selected[1..];
          }
        }
      }
    }
  }

  /** Starting from no selection, any sequence of clicks keeps at most one
      entry per add-on id. */
  lemma ToggleKeepsIdsUnique(selected: seq<Addon>, addon: Addon)
    requires UniqueIds(selected)
    ensures UniqueIds(ToggleAddon(selected, addon))
  {
    if HasAddon(selected, addon.addonId) {
      WithoutAddonUnique(selected, addon.addonId);
    } else {
      var r := selected + [addon];
      forall i, j | 0 <= i < j < |r| ensures r[i].addonId != r[j].addonId {
        if j == |selected| {
          assert r[i] in selected;
        }
      }
    }
  }

  lemma {:induction false} WithoutAbsent(selected: seq<Addon>, id: nat)
    requires !HasAddon(selected, id)
    ensures WithoutAddon(selected, id) == selected
    decreases |selected|
  {
    if selected != [] {
      assert selected[0] in selected;
      assert !HasAddon(selected[1..], id) by {
        forall a | a in selected[1..] ensures a.addonId != id {
          assert a in selected;
        }
      }
      WithoutAbsent(selected[1..], id);
    }
  }

  /** Clicking an unselected add-on twice restores the selection exactly;
      clicking a selected one twice keeps the same add-ons but moves it to
      the end. */
  lemma ToggleTwice(selected: seq<Addon>, addon: Addon)
    requires UniqueIds(selected)
    requires forall a :: a in selected && a.addonId == addon.addonId ==> a == addon
    ensures var twice := ToggleAddon(ToggleAddon(selected, addon), addon);
      && (!HasAddon(selected, addon.addonId) ==> twice == selected)
      && (forall a :: a in twice <==> a in selected)
  {
    var once := ToggleAddon(selected, addon);
    var twice := ToggleAddon(once, addon);
    if !HasAddon(selected, addon.addonId) {
      assert HasAddon(once, addon.addonId);
      WithoutAbsent(selected, addon.addonId);
      assert once[..|selected|] == selected;
      forall a | a in twice ensures a in selected {
      }
      assert twice == WithoutAddon(selected + [addon], addon.addonId);
      WithoutAppend(selected, addon);
    } else {
      assert twice == once + [addon];
      assert addon in selected;
    }
  }

  lemma {:induction false} WithoutAppend(selected: seq<Addon>, addon: Addon)
    ensures WithoutAddon(selected + [addon], addon.addonId) == WithoutAddon(selected, addon.addonId)
    decreases |selected|
  {
    if selected == [] {
      assert [addon][1..] == [];
    } else {
      assert (selected + [addon])[1..] == selected[1..] + [addon];
      WithoutAppend(selected[1..], addon);
    }
  }

  // ---------------------------------------------------------------------------
  // The booking request and the receipt
  // ---------------------------------------------------------------------------

  /** The body posted to the rental endpoint; the customer is taken from the
      token, so none is sent. */
  datatype RentalPayload = RentalPayload(carId: nat, pickupDate: string, dueDate: string, addonIds: seq<nat>)

  function AddonIds(selected: seq<Addon>): (ids: seq<nat>)
    ensures |ids| == |selected|
    ensures forall i :: 0 <= i < |selected| ==> ids[i] == selected[i].addonId
  {
    seq(|selected|, i requires 0 <= i < |selected| => selected[i].addonId)
  }

  function Payload(carId: nat, pickupDate: string, dueDate: string, selected: seq<Addon>): RentalPayload {
    RentalPayload(carId, pickupDate, dueDate, AddonIds(selected))
  }

  /** The catalogue lists each selected add-on at the price shown. */
  predicate PricedAsShown(catalogue: map<nat, real>, selected: seq<Addon>) {
    forall a :: a in selected ==> a.addonId in catalogue && catalogue[a.addonId] == a.price
  }

  /** The tail of a list with distinct ids has distinct ids, none of them
      the head's. */
  lemma UniqueTail(selected: seq<Addon>)
    requires selected != [] && UniqueIds(selected)
    ensures UniqueIds(selected[1..])
    ensures forall a :: a in selected[1..] ==> a in selected && a.addonId != selected[0].addonId
  {
    var tail := selected[1..];
    forall i, j | 0 <= i < j < |tail| ensures tail[i].addonId != tail[j].addonId {
      assert tail[i] == selected[i + 1] && tail[j] == selected[j + 1];
    }
    forall a | a in tail ensures a in selected && a.addonId != selected[0].addonId {
      var k :| 0 <= k < |tail| && tail[k] == a;
      assert selected[k + 1] == a;
    }
  }

  lemma {:induction false} SumOfDistinct(catalogue: map<nat, real>, selected: seq<Addon>, seen: set<nat>)
    requires UniqueIds(selected) && PricedAsShown(catalogue, selected)
    requires forall a :: a in selected ==> a.addonId !in seen
    ensures SumFirstOccurrences(catalogue, AddonIds(selected), seen) == AddonSum(selected)
    decreases |selected|
  {
    if selected != [] {
      var ids := AddonIds(selected);
      var x := selected[0];
      assert x in selected;
      assert ids[0] == x.addonId && ids[1..] == AddonIds(selected[1..]);
      UniqueTail(selected);
      SumOfDistinct(catalogue, selected[1..], seen + {x.addonId});
    }
  }

  /** The booking request charges exactly the estimate shown, when the range
      is valid, the picker's ids are distinct and the catalogue still has
      the prices it displayed. */
  lemma ServerChargesEstimate(dailyRate: real, pickup: int, due: int, catalogue: map<nat, real>, selected: seq<Addon>)
    requires pickup < due && UniqueIds(selected) && PricedAsShown(catalogue, selected)
    ensures BookingTotal(dailyRate, pickup, due, catalogue, Payload(0, "", "", selected).addonIds)
         == CalculateCost(Some(pickup), Some(due), Some(dailyRate), selected)
  {
    SumOfDistinct(catalogue, selected, {});
  }

  /** The receipt's car line: the total minus the add-on prices. */
  function CarLine(totalCost: real, selected: seq<Addon>): real {
    totalCost - AddonSum(selected)
  }

  /** For a booking that got past the dates step, the receipt's car line is
      the days times the rate and its lines add up to the total. */
  lemma ReceiptSplits(pickup: int, due: int, dailyRate: real, selected: seq<Addon>)
    requires pickup < due
    ensures var total := CalculateCost(Some(pickup), Some(due), Some(dailyRate), selected);
      && CarLine(total, selected) == (due - pickup) as real * dailyRate
      && CarLine(total, selected) + AddonSum(selected) == total
  {
  }

  // ---------------------------------------------------------------------------
  // Saving a new card (detectCardType and the mask)
  // ---------------------------------------------------------------------------

  datatype CardType = Visa | Mastercard | AmericanExpress | Discover | Card

  predicate StartsWithAny(s: string, prefixes: seq<string>) {
    exists p :: p in prefixes && StartsWith(s, p)
  }

  /** The brand by leading digits, tested in this order: 4; 51-55; 34 or 37;
      6011 or 65. The server has the same helper. */
  function DetectCardType(number: string): (t: CardType)
    ensures t == Visa <==> StartsWith(number, "4")
  {
    if StartsWith(number, "4") then Visa
    else if StartsWithAny(number, ["51", "52", "53", "54", "55"]) then Mastercard
    else if StartsWithAny(number, ["34", "37"]) then AmericanExpress
    else if StartsWithAny(number, ["6011", "65"]) then Discover
    else Card
  }

  /** The brand read digit by digit: a leading 4; a 5 then 1 to 5; a 3
      then 4 or 7; 6011 or 65; anything else is a plain card. */
  lemma CardTypeByDigits(number: string)
    ensures var t := DetectCardType(number);
      && (t == Visa <==> |number| >= 1 && number[0] == '4')
      && (t == Mastercard <==> |number| >= 2 && number[0] == '5' && '1' <= number[1] <= '5')
      && (t == AmericanExpress <==> |number| >= 2 && number[0] == '3' && (number[1] == '4' || number[1] == '7'))
      && (t == Discover <==> (|number| >= 4 && number[..4] == "6011") || (|number| >= 2 && number[0] == '6' && number[1] == '5'))
  {
    if |number| >= 2 {
      var p := number[..2];
      assert p == [number[0], number[1]];
      if number[0] == '5' && '1' <= number[1] <= '5' {
        assert StartsWith(number, p);
        assert p in ["51", "52", "53", "54", "55"] by {
          if number[1] == '1' { assert p == "51"; }
          else if number[1] == '2' { assert p == "52"; }
          else if number[1] == '3' { assert p == "53"; }
          else if number[1] == '4' { assert p == "54"; }
          else { assert p == "55"; }
        }
      }
      if number[0] == '3' && (number[1] == '4' || number[1] == '7') {
        assert StartsWith(number, p);
        assert p in ["34", "37"] by {
          if number[1] == '4' { assert p == "34"; } else { assert p == "37"; }
        }
      }
      if number[0] == '6' && number[1] == '5' {
        assert StartsWith(number, "65") && "65" in ["6011", "65"];
      }
    }
    if |number| >= 4 && number[..4] == "6011" {
      assert StartsWith(number, "6011") && "6011" in ["6011", "65"];
    }
    if StartsWithAny(number, ["6011", "65"]) {
      var p :| p in ["6011", "65"] && StartsWith(number, p);
      if p == "65" {
        assert number[..2] == "65";
      }
    }
  }

  /** A brand, once recognised, stays whatever digits follow. */
  lemma BrandFixedByPrefix(prefix: string, rest: string)
    requires DetectCardType(prefix) != Card
    ensures DetectCardType(prefix + rest) == DetectCardType(prefix)
  {
    var n := prefix + rest;
    assert n[..|prefix|] == prefix;
    if StartsWith(prefix, "6011") {
      assert n[..4] == prefix[..4];
    } else if StartsWith(prefix, "65") {
      assert n[..2] == prefix[..2];
    } else if StartsWith(prefix, "4") {
      assert n[..1] == prefix[..1];
    }
  }

  const MaskStars := "************"

  /** Twelve stars followed by the number's last four characters. */
  function Mask(number: string): (m: string)
    ensures |m| == 12 + (if |number| < 4 then |number| else 4)
    ensures forall i :: 0 <= i < 12 ==> m[i] == '*'
    ensures EndsWith(number, m[12..])
  {
    MaskStars + TakeLast(number, 4)
  }

  /** The saved-card list shows "ending in" the mask's last four, which
      are the card's own last four; and the mask carries no brand. */
  lemma MaskShowsLastFour(number: string)
    requires |number| >= 4
    ensures TakeLast(Mask(number), 4) == number[|number| - 4..]
    ensures DetectCardType(Mask(number)) == Card
    ensures Mask(Mask(number)) == Mask(number)
  {
    var m := Mask(number);
    assert m[|m| - 4..] == number[|number| - 4..];
    assert m[0] == '*';
  }
}

=== FILE: schema.dfy ===
/** The PHP admin's table catalogue (TABLES_AND_COLUMNS) and the
    column-name prettifier used for labels and error messages. */
module Schema {
  import opened Basics

  datatype Table = Cars | CarTypes | Customers | Employees | Rentals | Payments | Maintenance

  /** The key under which the table appears in TABLES_AND_COLUMNS. */
  function Name(t: Table): string {
    match t
    case Cars => "Cars"
    case CarTypes => "Car_Types"
    case Customers => "Customers"
    case Employees => "Employees"
    case Rentals => "Rentals"
    case Payments => "Payments"
    case Maintenance => "Maintenance"
  }

  /** The catalogued table of the given name, if any. */
  function Lookup(name: string): (r: Option<Table>)
    ensures r.Some? ==> Name(r.value) == name
    ensures r.None? ==> forall t :: Name(t) != name
  {
    if name == "Cars" then Some(Cars)
    else if name == "Car_Types" then Some(CarTypes)
    else if name == "Customers" then Some(Customers)
    else if name == "Employees" then Some(Employees)
    else if name == "Rentals" then Some(Rentals)
    else if name == "Payments" then Some(Payments)
    else if name == "Maintenance" then Some(Maintenance)
    else None
  }

  lemma LookupName(t: Table)
    ensures Lookup(Name(t)) == Some(t)
  {
  }

  /** The name of each table's primary key before its `_id`. */
  function KeyStem(t: Table): string {
    match t
    case Cars => "car"
    case CarTypes => "car_type"
    case Customers => "customer"
    case Employees => "employee"
    case Rentals => "rental"
    case Payments => "payment"
    case Maintenance => "maintenance"
  }

  /** Each table's primary key, the first of its listed columns. */
  function PrimaryKey(t: Table): (pk: string)
    ensures EndsWith(pk, "_id")
  {
    var pk := KeyStem(t) + "_id";
    assert pk[|pk| - 3..] == "_id";
    pk
  }

  /** The columns listed after the primary key. */
  function OtherColumns(t: Table): seq<string> {
    match t
    case Cars => ["make", "model", "year", "license_plate", "daily_rate", "car_type_id",
                  "current_location", "status", "image_path", "mileage", "purchase_date", "previous_owners"]
    case CarTypes => ["type_name"]
    case Customers => ["first_name", "last_name", "email", "phone_number", "address",
                       "city", "state", "zip_code", "date_of_birth", "password"]
    case Employees => ["first_name", "last_name", "job_title", "hire_date", "email"]
    case Rentals => ["customer_id", "car_id", "pickup_date", "return_date", "total_cost", "late_fee"]
    case Payments => ["rental_id", "amount", "payment_date", "payment_method"]
    case Maintenance => ["car_id", "service_date", "service_type", "cost", "notes"]
  }

  /** The column list of each table. */
  function Columns(t: Table): (cols: seq<string>)
    ensures |cols| > 0 && cols[0] == PrimaryKey(t)
  {
    [PrimaryKey(t)] + OtherColumns(t)
  }

  /** The primary key is not listed a second time. */
  lemma KeyNotRepeated(t: Table)
    ensures PrimaryKey(t) !in OtherColumns(t)
  {
    match t
    case Cars => KeyOnceCars();
    case CarTypes => KeyOnceCarTypes();
    case Customers => KeyOnceCustomers();
    case Employees => KeyOnceEmployees();
    case Rentals => KeyOnceRentals();
    case Payments => KeyOncePayments();
    case Maintenance => KeyOnceMaintenance();
  }

  lemma KeyOnceCars() ensures PrimaryKey(Cars) !in OtherColumns(Cars) {}
  lemma KeyOnceCarTypes() ensures PrimaryKey(CarTypes) !in OtherColumns(CarTypes) {}
  lemma KeyOnceCustomers() ensures PrimaryKey(Customers) !in OtherColumns(Customers) {}
  lemma KeyOnceEmployees() ensures PrimaryKey(Employees) !in OtherColumns(Employees) {}
  lemma KeyOnceRentals() ensures PrimaryKey(Rentals) !in OtherColumns(Rentals) {}
  lemma KeyOncePayments() ensures PrimaryKey(Payments) !in OtherColumns(Payments) {}
  lemma KeyOnceMaintenance() ensures PrimaryKey(Maintenance) !in OtherColumns(Maintenance) {}

  /** Table names and keys carry no `?`, and the key is a listed column. */
  lemma NamePlain(t: Table)
    ensures '?' !in Name(t) && '?' !in PrimaryKey(t) && PrimaryKey(t) in Columns(t)
  {
    match t
    case Cars => NamePlainCars();
    case CarTypes => NamePlainCarTypes();
    case Customers => NamePlainCustomers();
    case Employees => NamePlainEmployees();
    case Rentals => NamePlainRentals();
    case Payments => NamePlainPayments();
    case Maintenance => NamePlainMaintenance();
    assert Columns(t)[0] == PrimaryKey(t);
    assert PrimaryKey(t) == KeyStem(t) + "_id";
  }

  lemma NamePlainCars() ensures '?' !in Name(Cars) && '?' !in KeyStem(Cars) {}
  lemma NamePlainCarTypes() ensures '?' !in Name(CarTypes) && '?' !in KeyStem(CarTypes) {}
  lemma NamePlainCustomers() ensures '?' !in Name(Customers) && '?' !in KeyStem(Customers) {}
  lemma NamePlainEmployees() ensures '?' !in Name(Employees) && '?' !in KeyStem(Employees) {}
  lemma NamePlainRentals() ensures '?' !in Name(Rentals) && '?' !in KeyStem(Rentals) {}
  lemma NamePlainPayments() ensures '?' !in Name(Payments) && '?' !in KeyStem(Payments) {}
  lemma NamePlainMaintenance() ensures '?' !in Name(Maintenance) && '?' !in KeyStem(Maintenance) {}

  // ---------------------------------------------------------------------------
  // formatColumnName: underscores to spaces, then each word capitalised
  // ---------------------------------------------------------------------------

  /** The delimiters `ucwords` uses by default. */
  predicate IsWordBreak(c: char) {
    c == ' ' || c == '\t' || c == '\r' || c == '\n' || c == 12 as char || c == 11 as char
  }

  function Underscores(s: string): (r: string)
    ensures |r| == |s|
    ensures forall i :: 0 <= i < |s| ==> r[i] == if s[i] == '_' then ' ' else s[i]
  {
    if s == [] then [] else [if s[0] == '_' then ' ' else s[0]] + Underscores(s[1..])
  }

  /** `ucwords`: upper-cases the first character and every character that
      follows a delimiter; `atStart` says whether the previous character
      was a delimiter (or there was none). */
  function UcWords(s: string, atStart: bool): (r: string)
    ensures |r| == |s|
    ensures forall i :: 0 <= i < |s| ==>
      r[i] == if (if i == 0 then atStart else IsWordBreak(s[i - 1])) then UpperChar(s[i]) else s[i]
  {
    if s == [] then []
    else [if atStart then UpperChar(s[0]) else s[0]] + UcWords(s[1..], IsWordBreak(s[0]))
  }

  /** Whether the character at position i of a column name starts a word
      once underscores have become spaces. */
  predicate StartsWord(s: string, i: int)
    requires 0 <= i < |s|
  {
    i == 0 || s[i - 1] == '_' || IsWordBreak(s[i - 1])
  }

  function FormatColumnName(s: string): (r: string)
    ensures |r| == |s|
    ensures forall i :: 0 <= i < |r| ==> r[i] != '_'
    ensures forall i :: 0 <= i < |s| ==>
      r[i] == if s[i] == '_' then ' ' else if StartsWord(s, i) then UpperChar(s[i]) else s[i]
  {
    var u := Underscores(s);
    var r := UcWords(u, true);
    assert forall i | 0 <= i < |s| ::
      r[i] == if s[i] == '_' then ' ' else if StartsWord(s, i) then UpperChar(s[i]) else s[i]
    by {
      forall i | 0 <= i < |s|
        ensures r[i] == if s[i] == '_' then ' ' else if StartsWord(s, i) then UpperChar(s[i]) else s[i]
      {
        if i > 0 {
          assert IsWordBreak(u[i - 1]) <==> s[i - 1] == '_' || IsWordBreak(s[i - 1]);
        }
      }
    }
    r
  }

  /** No column name contains a `?`. */
  lemma ColumnsPlain(t: Table)
    ensures forall c :: c in Columns(t) ==> '?' !in c
  {
    NamePlain(t);
    OthersPlain(t);
  }

  lemma OthersPlain(t: Table)
    ensures forall c :: c in OtherColumns(t) ==> '?' !in c
  {
    match t
    case Cars => PlainCars();
    case CarTypes => PlainCarTypes();
    case Customers => PlainCustomers();
    case Employees => PlainEmployees();
    case Rentals => PlainRentals();
    case Payments => PlainPayments();
    case Maintenance => PlainMaintenance();
  }

  lemma PlainCars() ensures forall c :: c in OtherColumns(Cars) ==> '?' !in c {}
  lemma PlainCarTypes() ensures forall c :: c in OtherColumns(CarTypes) ==> '?' !in c {}
  lemma PlainCustomers() ensures forall c :: c in OtherColumns(Customers) ==> '?' !in c {}
  lemma PlainEmployees() ensures forall c :: c in OtherColumns(Employees) ==> '?' !in c {}
  lemma PlainRentals() ensures forall c :: c in OtherColumns(Rentals) ==> '?' !in c {}
  lemma PlainPayments() ensures forall c :: c in OtherColumns(Payments) ==> '?' !in c {}
  lemma PlainMaintenance() ensures forall c :: c in OtherColumns(Maintenance) ==> '?' !in c {}
}

=== FILE: server_rules.dfy ===
/** Small decisions the Node server makes outside the rental
    transactions: who may review a car, and how a contact message's status
    change stamps its read time. */
module ServerRules {
  import opened Basics
  import opened Store
  import NodeRentals

  // ---------------------------------------------------------------------------
  // Review eligibility (GET /api/customers/can-review/:carId)
  // ---------------------------------------------------------------------------

  /** The Reviews table, as the (customer, car) pairs reviewed. */
  type Reviews = set<(nat, nat)>

  predicate RentedBefore(rentals: map<nat, Rental>, customerId: nat, carId: nat, returned: bool) {
    exists k :: k in rentals && rentals[k].customerId == customerId && rentals[k].carId == carId
      && rentals[k].returnDate.Some? == returned
  }

  /** A past (returned) rental or an active one of the car, and no review
      of it yet: together, any rental of the car and no review. */
  function CanReview(rentals: map<nat, Rental>, reviews: Reviews, customerId: nat, carId: nat): (ok: bool)
    ensures ok <==>
      && (exists k :: k in rentals && rentals[k].customerId == customerId && rentals[k].carId == carId)
      && (customerId, carId) !in reviews
  {
    var past := RentedBefore(rentals, customerId, carId, true);
    var active := RentedBefore(rentals, customerId, carId, false);
    assert (exists k :: k in rentals && rentals[k].customerId == customerId && rentals[k].carId == carId) ==> past || active;
    (past || active) && (customerId, carId) !in reviews
  }

  /** A committed booking makes the car reviewable by its customer unless
      that customer has already reviewed it. */
  lemma BookingMakesReviewable(db: Db, token: NodeRentals.Token, req: NodeRentals.BookingRequest,
                               fault: Option<nat>, reviews: Reviews)
    requires NodeRentals.CreateRental(db, token, req, fault).reply.Ok?
    ensures var after := NodeRentals.CreateRental(db, token, req, fault).db;
      CanReview(after.rentals, reviews, token.userId, req.carId) <==> (token.userId, req.carId) !in reviews
  {
    var after := NodeRentals.CreateRental(db, token, req, fault).db;
    assert after.rentals[db.nextRentalId].customerId == token.userId;
  }

  // ---------------------------------------------------------------------------
  // Contact message status (PUT /api/admin/contact-messages/:id/status)
  // ---------------------------------------------------------------------------

  datatype MessageStatus = Unread | Read | Archived

  /** The status names the route accepts. */
  function ParseStatus(s: string): (r: Option<MessageStatus>)
    ensures r.Some? <==> s in ["unread", "read", "archived"]
  {
    if s == "unread" then Some(Unread)
    else if s == "read" then Some(Read)
    else if s == "archived" then Some(Archived)
    else None
  }

  function StatusName(st: MessageStatus): string {
    match st
    case Unread => "unread"
    case Read => "read"
    case Archived => "archived"
  }

  lemma StatusNamesRoundTrip(st: MessageStatus)
    ensures ParseStatus(StatusName(st)) == Some(st)
  {
  }

  /** A message row's status and read time. */
  datatype MessageState = MessageState(status: MessageStatus, readAt: Option<int>)

  /** An unknown status is refused (400) and changes nothing; otherwise the
      status is stored and the read time is now for "read" and cleared for
      anything else. */
  function SetStatus(m: MessageState, s: string, now: int): (r: Result<MessageState, string>)
    ensures r.Err? <==> s !in ["unread", "read", "archived"]
    ensures r.Ok? ==> StatusName(r.value.status) == s
    ensures r.Ok? ==> (r.value.readAt.Some? <==> s == "read")
  {
    match ParseStatus(s)
    case None => Err("Invalid status. Must be: unread, read, or archived.")
    case Some(st) => Ok(MessageState(st, if st == Read then Some(now) else None))
  }

  /** The stored read time depends only on the last change: reading again
      restamps, and archiving or marking unread forgets when it was read. */
  lemma ReadTimeFollowsLastChange(m: MessageState, first: string, second: string, t1: int, t2: int)
    requires SetStatus(m, first, t1).Ok? && SetStatus(SetStatus(m, first, t1).value, second, t2).Ok?
    ensures SetStatus(SetStatus(m, first, t1).value, second, t2) == SetStatus(m, second, t2)
  {
  }
}

=== FILE: sorting.dfy ===
/** The list sorts of the React screens: `Array.prototype.sort` with a
    comparator, modelled as a stable insertion sort, and the header-click
    toggle that picks the sort key and direction. */
module Sorting {
  import opened Basics

  // ---------------------------------------------------------------------------
  // Orders
  // ---------------------------------------------------------------------------

  /** `before(a, b)`: the comparator puts a strictly before b. */
  ghost predicate StrictOrder<T(!new)>(before: (T, T) -> bool) {
    && (forall a :: !before(a, a))
    && (forall a, b, c :: before(a, b) && before(b, c) ==> before(a, c))
  }

  /** No element is strictly before one that precedes it. */
  predicate SortedBy<T>(s: seq<T>, before: (T, T) -> bool) {
    forall i, j :: 0 <= i < j < |s| ==> !before(s[j], s[i])
  }

  /** JavaScript's `<` on strings: code-unit lexicographic order. */
  predicate LexLess(a: string, b: string) {
    if b == [] then false
    else if a == [] then true
    else if a[0] != b[0] then a[0] < b[0]
    else LexLess(a[1..], b[1..])
  }

  lemma {:induction false} LexLessIrreflexive(a: string)
    ensures !LexLess(a, a)
  {
    if a != [] {
      LexLessIrreflexive(a[1..]);
    }
  }

  lemma {:induction false} LexLessTransitive(a: string, b: string, c: string)
    requires LexLess(a, b) && LexLess(b, c)
    ensures LexLess(a, c)
  {
    if a != [] && a[0] == b[0] && b[0] == c[0] {
      LexLessTransitive(a[1..], b[1..], c[1..]);
    }
  }

  /** Distinct strings are ordered one way or the other. */
  lemma {:induction false} LexLessTotal(a: string, b: string)
    requires a != b
    ensures LexLess(a, b) || LexLess(b, a)
  {
    if a != [] && b != [] && a[0] == b[0] {
      assert a == [a[0]] + a[1..] && b == [b[0]] + b[1..];
      LexLessTotal(a[1..], b[1..]);
    }
  }

  // ---------------------------------------------------------------------------
  // The sort
  // ---------------------------------------------------------------------------

  /** Puts x after every element it does not strictly precede. */
  function Insert<T>(x: T, s: seq<T>, before: (T, T) -> bool): (r: seq<T>)
    ensures multiset(r) == multiset(s) + multiset{x}
    ensures |r| == |s| + 1
  {
    if s == [] then [x]
    else if before(x, s[0]) then [x] + s
    else
      assert s == [s[0]] + s[1..];
      [s[0]] + Insert(x, s[1..], before)
  }

  /** A stable sort: equal elements keep their input order. */
  function SortBy<T>(s: seq<T>, before: (T, T) -> bool): (r: seq<T>)
    ensures multiset(r) == multiset(s)
    ensures |r| == |s|
  {
    if s == [] then []
    else
      assert s == s[..|s| - 1] + [s[|s| - 1]];
      Insert(s[|s| - 1], SortBy(s[..|s| - 1], before), before)
  }

  lemma SortedTail<T>(s: seq<T>, before: (T, T) -> bool)
    requires s != [] && SortedBy(s, before)
    ensures SortedBy(s[1..], before)
  {
    forall i, j | 0 <= i < j < |s[1..]| ensures !before(s[1..][j], s[1..][i]) {
      assert s[1..][i] == s[i + 1] && s[1..][j] == s[j + 1];
    }
  }

  /** x placed in front of a sorted list it strictly precedes the head of. */
  lemma InsertFront<T(!new)>(x: T, s: seq<T>, before: (T, T) -> bool)
    requires StrictOrder(before) && SortedBy(s, before) && s != [] && before(x, s[0])
    ensures SortedBy([x] + s, before)
  {
    var r := [x] + s;
    forall i, j | 0 <= i < j < |r| ensures !before(r[j], r[i]) {
      assert r[j] == s[j - 1];
      if i == 0 {
        assert !before(s[j - 1], s[0]);
      } else {
        assert r[i] == s[i - 1];
      }
    }
  }

  /** The head kept in front of the tail x was inserted into. */
  lemma InsertBehind<T(!new)>(x: T, s: seq<T>, rest: seq<T>, before: (T, T) -> bool)
    requires StrictOrder(before) && SortedBy(s, before) && s != [] && !before(x, s[0])
    requires SortedBy(rest, before) && multiset(rest) == multiset(s[1..]) + multiset{x}
    ensures SortedBy([s[0]] + rest, before)
  {
    var r := [s[0]] + rest;
    forall i, j | 0 <= i < j < |r| ensures !before(r[j], r[i]) {
      assert r[j] == rest[j - 1];
      if i == 0 {
        var y := rest[j - 1];
        assert y in multiset(rest);
        if y != x {
          assert y in s[1..];
          var k :| 0 <= k < |s[1..]| && s[1..][k] == y;
          assert s[k + 1] == y;
        }
      } else {
        assert r[i] == rest[i - 1];
      }
    }
  }

  lemma {:induction false} InsertSorted<T(!new)>(x: T, s: seq<T>, before: (T, T) -> bool)
    requires StrictOrder(before) && SortedBy(s, before)
    ensures SortedBy(Insert(x, s, before), before)
    decreases |s|
  {
    if s != [] {
      if before(x, s[0]) {
        InsertFront(x, s, before);
      } else {
        SortedTail(s, before);
        InsertSorted(x, s[1..], before);
        InsertBehind(x, s, Insert(x, s[1..], before), before);
      }
    }
  }

  /** Under a strict order the result is sorted and a permutation of the
      input. */
  lemma {:induction false} SortBySorted<T(!new)>(s: seq<T>, before: (T, T) -> bool)
    requires StrictOrder(before)
    ensures SortedBy(SortBy(s, before), before)
    ensures multiset(SortBy(s, before)) == multiset(s)
    decreases |s|
  {
    if s != [] {
      SortBySorted(s[..|s| - 1], before);
      InsertSorted(s[|s| - 1], SortBy(s[..|s| - 1], before), before);
    }
  }

  // ---------------------------------------------------------------------------
  // Sort configuration (requestSort / requestTableSort)
  // ---------------------------------------------------------------------------

  datatype Direction = Ascending | Descending

  /** The sort column and direction; no column means server order. */
  datatype SortConfig = SortConfig(key: Option<string>, direction: Direction)

  /** A header click: descending iff the same key is already ascending. */
  function RequestSort(current: SortConfig, key: string): (next: SortConfig)
    ensures next.key == Some(key)
    ensures next.direction == Descending <==> current.key == Some(key) && current.direction == Ascending
  {
    SortConfig(Some(key), if current.key == Some(key) && current.direction == Ascending then Descending else Ascending)
  }

  /** Clicking one header repeatedly alternates its direction, starting
      ascending whatever was selected before. */
  lemma RequestSortAlternates(current: SortConfig, key: string)
    ensures var once := RequestSort(current, key);
      var twice := RequestSort(once, key);
      && (current.key != Some(key) ==> once.direction == Ascending && twice.direction == Descending)
      && once.direction != twice.direction
      && RequestSort(twice, key) == once
  {
  }

  /** The comparator a configuration gives for a key extractor: ascending
      puts the smaller key first, descending the larger. */
  function Comparator<T>(keyOf: T -> string, direction: Direction): (T, T) -> bool {
    (a: T, b: T) =>
      if direction == Ascending then LexLess(keyOf(a), keyOf(b)) else LexLess(keyOf(b), keyOf(a))
  }

  lemma ComparatorIsStrictOrder<T(!new)>(keyOf: T -> string, direction: Direction)
    ensures StrictOrder(Comparator(keyOf, direction))
  {
    var before := Comparator(keyOf, direction);
    forall a ensures !before(a, a) {
      LexLessIrreflexive(keyOf(a));
    }
    forall a, b, c | before(a, b) && before(b, c) ensures before(a, c) {
      if direction == Ascending {
        LexLessTransitive(keyOf(a), keyOf(b), keyOf(c));
      } else {
        LexLessTransitive(keyOf(c), keyOf(b), keyOf(a));
      }
    }
  }

  /** Sorting by a string key gives keys in nondecreasing order (ascending)
      or nonincreasing order (descending), over the same elements. */
  lemma SortedByKey<T(!new)>(s: seq<T>, keyOf: T -> string, direction: Direction)
    ensures var r := SortBy(s, Comparator(keyOf, direction));
      && multiset(r) == multiset(s)
      && forall i, j :: 0 <= i < j < |r| ==>
           if direction == Ascending then !LexLess(keyOf(r[j]), keyOf(r[i])) else !LexLess(keyOf(r[i]), keyOf(r[j]))
  {
    ComparatorIsStrictOrder(keyOf, direction);
    SortBySorted(s, Comparator(keyOf, direction));
  }
}

=== FILE: store.dfy ===
/** The rental database as an immutable value, the row-level writes the
    handlers issue, and the transaction runner: a write list either applies
    in full (commit) or not at all (rollback). */
module Store {
  import opened Basics

  datatype CarStatus = Available | Rented | Maintenance

  datatype Car = Car(licensePlate: string, dailyRate: real, status: CarStatus, mileage: int)

  /** A Rentals row. `due`, `returnDate`, `totalCost` and `lateFee` are
      nullable columns; `status` is the optional Rentals.status column that
      only the availability search reads (no modelled handler writes it). */
  datatype Rental = Rental(
    customerId: nat,
    carId: nat,
    pickup: int,
    due: Option<int>,
    returnDate: Option<int>,
    totalCost: Option<real>,
    lateFee: Option<real>,
    status: Option<string>)
  {
    predicate Active() { returnDate.None? }
  }

  datatype RentalAddon = RentalAddon(rentalId: nat, addonId: nat)

  datatype Payment = Payment(rentalId: nat, amount: real, date: int, paidWith: string)

  datatype MaintenanceRecord = MaintenanceRecord(
    carId: nat,
    serviceDate: int,
    serviceType: string,
    cost: Option<real>,
    notes: Option<string>,
    completion: Option<int>)

  datatype Customer = Customer(
    firstName: string,
    lastName: string,
    email: string,
    phone: string,
    address: Option<string>,
    city: Option<string>,
    state: Option<string>,
    zip: Option<string>,
    passwordHash: string)

  /** The tables the engine touches. `addons` is the read-only Addons
      catalogue (id to price). The `next…` fields are the tables'
      AUTO_INCREMENT counters. */
  datatype Db = Db(
    cars: map<nat, Car>,
    customers: map<nat, Customer>,
    addons: map<nat, real>,
    rentals: map<nat, Rental>,
    rentalAddons: seq<RentalAddon>,
    payments: map<nat, Payment>,
    maintenance: map<nat, MaintenanceRecord>,
    nextRentalId: nat,
    nextPaymentId: nat,
    nextMaintenanceId: nat,
    nextCustomerId: nat)

  /** Every stored key is below its table's AUTO_INCREMENT counter, so the
      next insert cannot collide. */
  predicate KeysBelowCounters(db: Db) {
    && (forall k :: k in db.rentals ==> k < db.nextRentalId)
    && (forall k :: k in db.payments ==> k < db.nextPaymentId)
    && (forall k :: k in db.maintenance ==> k < db.nextMaintenanceId)
    && (forall k :: k in db.customers ==> k < db.nextCustomerId)
  }

  /** Why a handler answered without committing anything. */
  datatype Rejection =
    | Unauthenticated   // no credentials: HTTP 401, or a redirect to the entry page
    | Forbidden         // bad credentials or not the owner: HTTP 403
    | NotFound          // HTTP 404
    | BadRequest        // missing or invalid request parameters
    | RolledBack        // the transaction threw and was rolled back: HTTP 500
    | Crashed           // an uncaught PHP Error ended the script: HTTP 500, the open transaction dies with the connection

  /** A handler's answer together with the database it leaves behind. */
  datatype Response<+T> = Response(db: Db, reply: Result<T, Rejection>)

  // ---------------------------------------------------------------------------
  // Writes
  // ---------------------------------------------------------------------------

  datatype Write =
    | InsertRental(rental: Rental)
    | InsertRentalAddons(rows: seq<RentalAddon>)
    | InsertPayment(payment: Payment)
    | InsertMaintenance(record: MaintenanceRecord)
    | InsertCustomer(customer: Customer)
    | SetCarStatus(carId: nat, status: CarStatus)
    | SendCarToService(carId: nat, mileage: int)
    | SetLateFee(rentalId: nat, fee: real)
    | SetReturnDate(rentalId: nat, day: int)
    | FinaliseRental(rentalId: nat, day: int, totalCost: real, lateFee: real)
    | CloseMaintenance(maintenanceId: nat, day: int)
    | SetContact(customerId: nat, phone: string, address: string, city: string, state: string, zip: string)
    | DeleteRentalAddonsOf(rentalId: nat)
    | DeletePaymentsOf(rentalId: nat)
    | DeleteRental(rentalId: nat)

  function AddonsOtherThan(rows: seq<RentalAddon>, rentalId: nat): (r: seq<RentalAddon>)
    ensures forall x :: x in r <==> x in rows && x.rentalId != rentalId
  {
    if rows == [] then []
    else if rows[0].rentalId == rentalId then AddonsOtherThan(rows[1..], rentalId)
    else [rows[0]] + AddonsOtherThan(rows[1..], rentalId)
  }

  /** The payments that do not belong to the given rental. */
  function PaymentsOtherThan(payments: map<nat, Payment>, rentalId: nat): (r: map<nat, Payment>)
    ensures forall k :: k in r <==> k in payments && payments[k].rentalId != rentalId
    ensures forall k :: k in r ==> r[k] == payments[k]
  {
    map k | k in payments && payments[k].rentalId != rentalId :: payments[k]
  }

  /** One car's status changed; a missing car is no change. */
  function WithCarStatus(cars: map<nat, Car>, carId: nat, s: CarStatus): (r: map<nat, Car>)
    ensures r.Keys == cars.Keys
    ensures forall k :: k in r ==> r[k] == if k == carId then cars[k].(status := s) else cars[k]
  {
    if carId in cars then cars[carId := cars[carId].(status := s)] else cars
  }

  /** The contact columns of one customer row changed, when it exists. */
  function WithContact(customers: map<nat, Customer>, id: nat, phone: string, address: string, city: string,
                       state: string, zip: string): (r: map<nat, Customer>)
    ensures r.Keys == customers.Keys
    ensures forall k :: k in r ==>
      r[k] == if k == id then customers[k].(phone := phone, address := Some(address), city := Some(city),
                                            state := Some(state), zip := Some(zip))
              else customers[k]
  {
    if id in customers then
      customers[id := customers[id].(phone := phone, address := Some(address), city := Some(city),
                                     state := Some(state), zip := Some(zip))]
    else customers
  }

  predicate RowsReferenceKnown(db: Db, rows: seq<RentalAddon>) {
    forall x :: x in rows ==> x.rentalId in db.rentals && x.addonId in db.addons
  }

  /** One statement. INSERTs fail on a duplicate key or a dangling foreign
      key, deleting a Rentals row fails while dependent rows remain, and an
      UPDATE of a missing row changes nothing. */
  function Apply(db: Db, w: Write): Option<Db> {
    match w
    case InsertRental(r) =>
      if db.nextRentalId in db.rentals || r.carId !in db.cars || r.customerId !in db.customers then None
      else Some(db.(rentals := db.rentals[db.nextRentalId := r], nextRentalId := db.nextRentalId + 1))
    case InsertRentalAddons(rows) =>
      if !RowsReferenceKnown(db, rows) then None
      else Some(db.(rentalAddons := db.rentalAddons + rows))
    case InsertPayment(p) =>
      if db.nextPaymentId in db.payments || p.rentalId !in db.rentals then None
      else Some(db.(payments := db.payments[db.nextPaymentId := p], nextPaymentId := db.nextPaymentId + 1))
    case InsertMaintenance(m) =>
      if db.nextMaintenanceId in db.maintenance || m.carId !in db.cars then None
      else Some(db.(maintenance := db.maintenance[db.nextMaintenanceId := m],
                    nextMaintenanceId := db.nextMaintenanceId + 1))
    case InsertCustomer(c) =>
      if db.nextCustomerId in db.customers then None
      else Some(db.(customers := db.customers[db.nextCustomerId := c], nextCustomerId := db.nextCustomerId + 1))
    case SetCarStatus(id, s) =>
      Some(db.(cars := WithCarStatus(db.cars, id, s)))
    case SendCarToService(id, mileage) =>
      if id in db.cars then Some(db.(cars := db.cars[id := db.cars[id].(status := Maintenance, mileage := mileage)]))
      else Some(db)
    case SetLateFee(id, fee) =>
      if id in db.rentals then Some(db.(rentals := db.rentals[id := db.rentals[id].(lateFee := Some(fee))]))
      else Some(db)
    case SetReturnDate(id, day) =>
      if id in db.rentals then Some(db.(rentals := db.rentals[id := db.rentals[id].(returnDate := Some(day))]))
      else Some(db)
    case FinaliseRental(id, day, total, fee) =>
      if id in db.rentals then
        Some(db.(rentals := db.rentals[id := db.rentals[id].(returnDate := Some(day), totalCost := Some(total),
                                                              lateFee := Some(fee))]))
      else Some(db)
    case CloseMaintenance(id, day) =>
      if id in db.maintenance then
        Some(db.(maintenance := db.maintenance[id := db.maintenance[id].(completion := Some(day))]))
      else Some(db)
    case SetContact(id, phone, address, city, state, zip) =>
      Some(db.(customers := WithContact(db.customers, id, phone, address, city, state, zip)))
    case DeleteRentalAddonsOf(id) =>
      Some(db.(rentalAddons := AddonsOtherThan(db.rentalAddons, id)))
    case DeletePaymentsOf(id) =>
      Some(db.(payments := PaymentsOtherThan(db.payments, id)))
    case DeleteRental(id) =>
      if (exists x :: x in db.rentalAddons && x.rentalId == id)
         || (exists k :: k in db.payments && db.payments[k].rentalId == id)
      then None
      else Some(db.(rentals := db.rentals - {id}))
  }

  // ---------------------------------------------------------------------------
  // Transactions
  // ---------------------------------------------------------------------------

  /** Whether an injected fault (the index of the statement the database
      rejects) hits a write list of length n. */
  predicate Hits(fault: Option<nat>, n: nat) { fault.Some? && fault.value < n }

  /** Runs the writes in order inside one transaction. `None` means some
      statement failed and the whole unit was rolled back. */
  function Exec(db: Db, ws: seq<Write>, fault: Option<nat>): Option<Db>
    decreases |ws|
  {
    if ws == [] then Some(db)
    else if fault == Some(0) then None
    else match Apply(db, ws[0])
      case None => None
      case Some(next) => Exec(next, ws[1..], if fault.Some? then Some(fault.value - 1) else None)
  }

  /** All-or-nothing: a fault at any statement leaves nothing applied, and
      a fault past the last statement is no fault at all. */
  lemma {:induction false} ExecFault(db: Db, ws: seq<Write>, fault: Option<nat>)
    ensures Exec(db, ws, fault) == if Hits(fault, |ws|) then None else Exec(db, ws, None)
    decreases |ws|
  {
    if ws != [] && fault != Some(0) {
      match Apply(db, ws[0])
      case None =>
      case Some(next) =>
        ExecFault(next, ws[1..], if fault.Some? then Some(fault.value - 1) else None);
    }
  }

  /** A fault-free run of a concatenation is the run of the second part
      from the state the first part committed. */
  lemma {:induction false} ExecAppend(db: Db, a: seq<Write>, b: seq<Write>)
    ensures Exec(db, a + b, None) ==
      match Exec(db, a, None)
      case None => None
      case Some(mid) => Exec(mid, b, None)
    decreases |a|
  {
    if a == [] {
      assert a + b == b;
    } else {
      assert (a + b)[0] == a[0];
      assert (a + b)[1..] == a[1..] + b;
      match Apply(db, a[0])
      case None =>
      case Some(next) => ExecAppend(next, a[1..], b);
    }
  }

  lemma ExecOne(db: Db, w: Write)
    ensures Exec(db, [w], None) == Apply(db, w)
  {
    assert [w][1..] == [];
  }

  /** Two statements in a row. */
  lemma ExecTwo(db: Db, a: Write, b: Write)
    ensures Exec(db, [a, b], None) == if Apply(db, a).None? then None else Apply(Apply(db, a).value, b)
  {
    ExecAppend(db, [a], [b]);
    assert [a] + [b] == [a, b];
    ExecOne(db, a);
    if Apply(db, a).Some? {
      ExecOne(Apply(db, a).value, b);
    }
  }

  /** Three statements in a row. */
  lemma ExecThree(db: Db, a: Write, b: Write, c: Write)
    ensures Exec(db, [a, b, c], None) ==
      if Apply(db, a).None? then None else Exec(Apply(db, a).value, [b, c], None)
  {
    ExecAppend(db, [a], [b, c]);
    assert [a] + [b, c] == [a, b, c];
    ExecOne(db, a);
  }

  /** Runs a write list and turns the outcome into a response: on rollback
      the original database is returned unchanged. */
  function Commit<T>(db: Db, ws: seq<Write>, fault: Option<nat>, value: T): (r: Response<T>)
    ensures r.reply.Err? ==> r.db == db && r.reply.error == RolledBack
    ensures Hits(fault, |ws|) ==> r == Response(db, Err(RolledBack))
    ensures r.reply.Ok? <==> Exec(db, ws, fault).Some?
  {
    ExecFault(db, ws, fault);
    match Exec(db, ws, fault)
    case None => Response(db, Err(RolledBack))
    case Some(next) => Response(next, Ok(value))
  }

  function Reject<T>(db: Db, why: Rejection): (r: Response<T>)
    ensures r.db == db && r.reply == Err(why)
  {
    Response(db, Err(why))
  }
}

=== FILE: validation.dfy ===
/** `validate_data`: the field, format, uniqueness and date-order rules the
    admin applies to a posted record before inserting or updating it. */
module Validation {
  import opened Basics
  import opened Store
  import opened Schema

  datatype ValidationError =
    | Required(column: string)
    | InvalidEmail
    | BadPhone
    | BadYear
    | PlateTaken
    | ReturnBeforePickup
    | BadRentalDates

  /** The message shown for each error. */
  function Message(e: ValidationError): string {
    match e
    case Required(c) => FormatColumnName(c) + " is a required field."
    case InvalidEmail => "Please provide a valid email address."
    case BadPhone => "Phone number must be exactly 10 digits."
    case BadYear => "Year must be a 4-digit number."
    case PlateTaken => "This license plate is already registered."
    case ReturnBeforePickup => "Return date cannot be earlier than the pickup date."
    case BadRentalDates => "Invalid date format provided for rental dates."
  }

  /** Ten ASCII digits, optionally followed by one newline: PHP's
      end-of-subject anchor also matches just before a final newline. */
  predicate TenDigits(s: string) {
    || (|s| == 10 && AllDigits(s))
    || (|s| == 11 && AllDigits(s[..10]) && s[10] == '\n')
  }

  /** PHP emptiness of a posted field: absent, "" or "0". */
  predicate Blank(data: map<string, string>, k: string) {
    k !in data || PhpEmpty(data[k])
  }

  /** A record id is given and nonzero. */
  predicate RecordGiven(recordId: Option<int>) {
    recordId.Some? && recordId.value != 0
  }

  /** The "required" errors, one per listed column that was posted empty,
      in column order; the primary key is passed over when `skipKey`. */
  function RequiredErrors(cols: seq<string>, key: string, data: map<string, string>, skipKey: bool): (errs: seq<ValidationError>)
    ensures |errs| <= |cols|
    ensures forall e :: e in errs ==> e.Required?
    ensures forall c :: Required(c) in errs <==> c in cols && !(skipKey && c == key) && c in data && PhpEmpty(data[c])
  {
    if cols == [] then []
    else
      var c := cols[0];
      var rest := RequiredErrors(cols[1..], key, data, skipKey);
      if !(skipKey && c == key) && c in data && PhpEmpty(data[c]) then [Required(c)] + rest else rest
  }

  /** Another car already carries the plate (the record itself excluded
      when a record id is given). */
  predicate PlateInUse(cars: map<nat, Car>, plate: string, recordId: Option<int>) {
    exists k :: k in cars && cars[k].licensePlate == plate && (RecordGiven(recordId) ==> k != recordId.value)
  }

  /** The rental date rule: both dates non-empty are parsed (`parseDate`
      stands for `new DateTime`, None for its exception) and compared. */
  function DateErrors(t: Table, data: map<string, string>, parseDate: string -> Option<int>): seq<ValidationError> {
    if t == Rentals && !Blank(data, "pickup_date") && !Blank(data, "return_date") then
      match (parseDate(data["pickup_date"]), parseDate(data["return_date"]))
      case (Some(pickup), Some(back)) => if back < pickup then [ReturnBeforePickup] else []
      case _ => [BadRentalDates]
    else []
  }

  /** Reference definition: every rule of `validate_data` passes. */
  predicate AllRulesPass(t: Table, data: map<string, string>, cars: map<nat, Car>, recordId: Option<int>,
                         isEmail: string -> bool, parseDate: string -> Option<int>)
  {
    && (forall c :: c in Columns(t) && (c != PrimaryKey(t) || RecordGiven(recordId)) && c in data ==> !PhpEmpty(data[c]))
    && (Blank(data, "email") || isEmail(data["email"]))
    && (Blank(data, "phone_number") || TenDigits(data["phone_number"]))
    && (Blank(data, "year") || (IsDigits(data["year"]) && |data["year"]| == 4))
    && (t == Cars && !Blank(data, "license_plate") ==> !PlateInUse(cars, data["license_plate"], recordId))
    && (t == Rentals && !Blank(data, "pickup_date") && !Blank(data, "return_date") ==>
          && parseDate(data["pickup_date"]).Some? && parseDate(data["return_date"]).Some?
          && parseDate(data["pickup_date"]).value <= parseDate(data["return_date"]).value)
  }

  /** The format and uniqueness rules, in the order they are checked. */
  function RuleErrors(t: Table, data: map<string, string>, cars: map<nat, Car>, recordId: Option<int>,
                      isEmail: string -> bool): (errs: seq<ValidationError>)
    ensures forall e :: e in errs ==> e == InvalidEmail || e == BadPhone || e == BadYear || e == PlateTaken
    ensures InvalidEmail in errs <==> !Blank(data, "email") && !isEmail(data["email"])
    ensures BadPhone in errs <==> !Blank(data, "phone_number") && !TenDigits(data["phone_number"])
    ensures BadYear in errs <==> !Blank(data, "year") && (!IsDigits(data["year"]) || |data["year"]| != 4)
    ensures PlateTaken in errs <==> t == Cars && !Blank(data, "license_plate") && PlateInUse(cars, data["license_plate"], recordId)
  {
    (if !Blank(data, "email") && !isEmail(data["email"]) then [InvalidEmail] else [])
    + (if !Blank(data, "phone_number") && !TenDigits(data["phone_number"]) then [BadPhone] else [])
    + (if !Blank(data, "year") && (!IsDigits(data["year"]) || |data["year"]| != 4) then [BadYear] else [])
    + (if t == Cars && !Blank(data, "license_plate") && PlateInUse(cars, data["license_plate"], recordId)
       then [PlateTaken] else [])
  }

  /** Every error of a table whose listed columns are `cols` and whose
      primary key is `key`. */
  function Errors(cols: seq<string>, key: string, t: Table, data: map<string, string>, cars: map<nat, Car>,
                  recordId: Option<int>, isEmail: string -> bool, parseDate: string -> Option<int>): seq<ValidationError> {
    RequiredErrors(cols, key, data, !RecordGiven(recordId))
    + RuleErrors(t, data, cars, recordId, isEmail)
    + DateErrors(t, data, parseDate)
  }

  /** No error at all exactly when every rule passes. */
  lemma {:induction false} ErrorsEmpty(cols: seq<string>, key: string, t: Table, data: map<string, string>, cars: map<nat, Car>,
                                       recordId: Option<int>, isEmail: string -> bool, parseDate: string -> Option<int>)
    ensures Errors(cols, key, t, data, cars, recordId, isEmail, parseDate) == [] <==>
      && (forall c :: c in cols && (c != key || RecordGiven(recordId)) && c in data ==> !PhpEmpty(data[c]))
      && (Blank(data, "email") || isEmail(data["email"]))
      && (Blank(data, "phone_number") || TenDigits(data["phone_number"]))
      && (Blank(data, "year") || (IsDigits(data["year"]) && |data["year"]| == 4))
      && (t == Cars && !Blank(data, "license_plate") ==> !PlateInUse(cars, data["license_plate"], recordId))
      && (t == Rentals && !Blank(data, "pickup_date") && !Blank(data, "return_date") ==>
            && parseDate(data["pickup_date"]).Some? && parseDate(data["return_date"]).Some?
            && parseDate(data["pickup_date"]).value <= parseDate(data["return_date"]).value)
  {
    var required := RequiredErrors(cols, key, data, !RecordGiven(recordId));
    if required != [] {
      assert required[0] in required;
    }
  }

  /** Each kind of error comes from its own rule and from no other. */
  lemma ErrorsMembership(cols: seq<string>, key: string, t: Table, data: map<string, string>, cars: map<nat, Car>,
                         recordId: Option<int>, isEmail: string -> bool, parseDate: string -> Option<int>, e: ValidationError)
    ensures var errors := Errors(cols, key, t, data, cars, recordId, isEmail, parseDate);
      && (e.Required? ==> (e in errors <==> e in RequiredErrors(cols, key, data, !RecordGiven(recordId))))
      && (e == InvalidEmail || e == BadPhone || e == BadYear || e == PlateTaken ==>
            (e in errors <==> e in RuleErrors(t, data, cars, recordId, isEmail)))
      && (e == ReturnBeforePickup || e == BadRentalDates ==> (e in errors <==> e in DateErrors(t, data, parseDate)))
  {
    var r := RequiredErrors(cols, key, data, !RecordGiven(recordId));
    var u := RuleErrors(t, data, cars, recordId, isEmail);
    var d := DateErrors(t, data, parseDate);
    assert Errors(cols, key, t, data, cars, recordId, isEmail, parseDate) == r + u + d;
    assert e in r + u + d <==> e in r || e in u || e in d;
    assert e in d ==> e == ReturnBeforePickup || e == BadRentalDates;
  }

  /** validate_data: the errors in the order the rules are checked; it
      never writes. `isEmail` stands for PHP's email validation filter. */
  function ValidateData(t: Table, data: map<string, string>, cars: map<nat, Car>, recordId: Option<int>,
                        isEmail: string -> bool, parseDate: string -> Option<int>): (errors: seq<ValidationError>)
    ensures errors == [] <==> AllRulesPass(t, data, cars, recordId, isEmail, parseDate)
  {
    ErrorsEmpty(Columns(t), PrimaryKey(t), t, data, cars, recordId, isEmail, parseDate);
    Errors(Columns(t), PrimaryKey(t), t, data, cars, recordId, isEmail, parseDate)
  }

  /** A listed column posted empty is reported, the primary key of a new
      record excepted; a column not posted at all is not. */
  lemma ValidateRequired(t: Table, data: map<string, string>, cars: map<nat, Car>, recordId: Option<int>,
                         isEmail: string -> bool, parseDate: string -> Option<int>, c: string)
    ensures Required(c) in ValidateData(t, data, cars, recordId, isEmail, parseDate) <==>
      c in Columns(t) && (c != PrimaryKey(t) || RecordGiven(recordId)) && c in data && PhpEmpty(data[c])
  {
    ErrorsMembership(Columns(t), PrimaryKey(t), t, data, cars, recordId, isEmail, parseDate, Required(c));
  }

  /** The format and uniqueness rules each flag exactly their own failure. */
  lemma ValidateRule(t: Table, data: map<string, string>, cars: map<nat, Car>, recordId: Option<int>,
                     isEmail: string -> bool, parseDate: string -> Option<int>)
    ensures var errors := ValidateData(t, data, cars, recordId, isEmail, parseDate);
      && (InvalidEmail in errors <==> !Blank(data, "email") && !isEmail(data["email"]))
      && (BadPhone in errors <==> !Blank(data, "phone_number") && !TenDigits(data["phone_number"]))
      && (BadYear in errors <==> !Blank(data, "year") && (!IsDigits(data["year"]) || |data["year"]| != 4))
      && (PlateTaken in errors <==>
            t == Cars && !Blank(data, "license_plate") && PlateInUse(cars, data["license_plate"], recordId))
  {
    var cols, key := Columns(t), PrimaryKey(t);
    ErrorsMembership(cols, key, t, data, cars, recordId, isEmail, parseDate, InvalidEmail);
    ErrorsMembership(cols, key, t, data, cars, recordId, isEmail, parseDate, BadPhone);
    ErrorsMembership(cols, key, t, data, cars, recordId, isEmail, parseDate, BadYear);
    ErrorsMembership(cols, key, t, data, cars, recordId, isEmail, parseDate, PlateTaken);
  }

  /** The date rule reports a return before the pickup, and an unparsable
      date separately. */
  lemma ValidateDates(t: Table, data: map<string, string>, cars: map<nat, Car>, recordId: Option<int>,
                      isEmail: string -> bool, parseDate: string -> Option<int>)
    ensures var errors := ValidateData(t, data, cars, recordId, isEmail, parseDate);
      var both := t == Rentals && !Blank(data, "pickup_date") && !Blank(data, "return_date");
      && (ReturnBeforePickup in errors <==>
            && both && parseDate(data["pickup_date"]).Some? && parseDate(data["return_date"]).Some?
            && parseDate(data["return_date"]).value < parseDate(data["pickup_date"]).value)
      && (BadRentalDates in errors <==>
            both && (parseDate(data["pickup_date"]).None? || parseDate(data["return_date"]).None?))
  {
    var cols, key := Columns(t), PrimaryKey(t);
    ErrorsMembership(cols, key, t, data, cars, recordId, isEmail, parseDate, ReturnBeforePickup);
    ErrorsMembership(cols, key, t, data, cars, recordId, isEmail, parseDate, BadRentalDates);
    DateErrorCases(t, data, parseDate);
  }

  /** The date rule on its own: which of its two errors it reports. */
  lemma DateErrorCases(t: Table, data: map<string, string>, parseDate: string -> Option<int>)
    ensures var both := t == Rentals && !Blank(data, "pickup_date") && !Blank(data, "return_date");
      && (ReturnBeforePickup in DateErrors(t, data, parseDate) <==>
            && both && parseDate(data["pickup_date"]).Some? && parseDate(data["return_date"]).Some?
            && parseDate(data["return_date"]).value < parseDate(data["pickup_date"]).value)
      && (BadRentalDates in DateErrors(t, data, parseDate) <==>
            both && (parseDate(data["pickup_date"]).None? || parseDate(data["return_date"]).None?))
  {
  }

  /** Equal pickup and return dates are accepted. */
  lemma SameDayRentalValid(data: map<string, string>, cars: map<nat, Car>, recordId: Option<int>,
                           isEmail: string -> bool, parseDate: string -> Option<int>)
    requires "pickup_date" in data && "return_date" in data && data["pickup_date"] == data["return_date"]
    requires parseDate(data["pickup_date"]).Some?
    ensures ReturnBeforePickup !in ValidateData(Rentals, data, cars, recordId, isEmail, parseDate)
    ensures BadRentalDates !in ValidateData(Rentals, data, cars, recordId, isEmail, parseDate)
  {
    ValidateDates(Rentals, data, cars, recordId, isEmail, parseDate);
  }

  /** Only a new record (no truthy record id) has its posted primary key
      exempted from the required rule. */
  lemma KeyRequiredOnlyForExisting(t: Table, data: map<string, string>, cars: map<nat, Car>, recordId: Option<int>,
                                   isEmail: string -> bool, parseDate: string -> Option<int>)
    requires PrimaryKey(t) in data && data[PrimaryKey(t)] == ""
    ensures Required(PrimaryKey(t)) in ValidateData(t, data, cars, recordId, isEmail, parseDate) <==> RecordGiven(recordId)
  {
    ValidateRequired(t, data, cars, recordId, isEmail, parseDate, PrimaryKey(t));
  }

  /** Renaming a car to its own plate is not a clash when its id is given. */
  lemma OwnPlateNoClash(cars: map<nat, Car>, id: nat, data: map<string, string>,
                        isEmail: string -> bool, parseDate: string -> Option<int>)
    requires id != 0 && id in cars && "license_plate" in data && data["license_plate"] == cars[id].licensePlate
    requires forall k :: k in cars && k != id ==> cars[k].licensePlate != cars[id].licensePlate
    ensures PlateTaken !in ValidateData(Cars, data, cars, Some(id), isEmail, parseDate)
    ensures PlateTaken in ValidateData(Cars, data, cars, None, isEmail, parseDate) <==> !PhpEmpty(data["license_plate"])
  {
    ValidateRule(Cars, data, cars, Some(id), isEmail, parseDate);
    ValidateRule(Cars, data, cars, None, isEmail, parseDate);
    if !PhpEmpty(data["license_plate"]) {
      assert cars[id].licensePlate == data["license_plate"];
    }
  }
}
